=== FILE: README.md ===
# Study planner: a Dafny model of the log lifecycle and its views

This project models the core of a study planner for A-level students. The
planner keeps a list of today's tasks. A task can be ticked only once a time
log for it exists on that day, so ticking records a study session. At load
time, past weeks of logs are rolled up into weekly summaries. The log book,
analytics page, history calendar, subject pages and content editor present
this data.

The model consists of immutable datatypes and pure functions over them. Dates
are integer day numbers counted from 1 January 1970, a Thursday. Clock times
are "HH:MM" texts read as minutes since midnight. JavaScript's
`Math.round(a / b)` and its truncating `%` are written out explicitly. Ids
built from `Date.now()`, and the current moment, become parameters.

The modules follow the program:

- `Calendar`: week starts (`getStartOfWeek`), civil dates and clock times.
- `Rollup`: the weekly rollup done when the app loads.
- `ApiService`: the fetch-result decision and the day rollover.
- `TodoPage`: the completion controller for to-do items, `addTodos`, the countdown,
  the ordinal suffix and today's classes.
- `LogModals`: the interval form of the log dialog and of the edit dialog.
- `LogCreator`: the per-task time map.
- `Duration`: the three `formatDuration` copies.
- `LogBook`, `Analytics` and `History`: the grouping, categorising, summing
  and calendar views.
- `Progress`, `SubjectPage`, `CircularProgress` and `SyllabusEdits`: the
  syllabus checklists and their percentages.
- `Cms`: the content editor's list edits.
- `Types`, `Categories`, `JsMath`, `Text`, `Seqs`, `Sorting` and `Wrappers`:
  shared records and helpers.

The invariant this controller keeps is `Types.Consistent`: every done
item of the day has a log with its id on the day's date. Toggling, adding
tasks, logging an interval, logging a pomodoro, editing a log and the weekly
rollup all preserve it.

## Model

| member | source | states |
|---|---|---|
| Calendar.StartOfWeek | App.tsx:33-39 | The week start is a Sunday at midnight, on or before the given moment and fewer than seven days before it |
| Calendar.StartOfWeekIdempotent | App.tsx:33-39 | Taking the week start of a week start changes nothing |
| Calendar.SameWeekSameStart | App.tsx:33-39 | Two moments in the same Sunday-to-Saturday span have the same week start |
| Calendar.StartOfSunday | App.tsx:35-38 | A Sunday at midnight is its own week start |
| Calendar.WeekStartMonotone | App.tsx:33-39 | Later days never have an earlier week start |
| Calendar.WeekStartOfDay | App.tsx:72-74 | The week key of a log's date is a Sunday no later than the date and fewer than seven days before it |
| Calendar.Weekday | App.tsx:35 | `getDay()` lies in 0..6 |
| Calendar.Epoch | App.tsx:35 | Day 0 is 1 January 1970, a Thursday, which fixes every weekday |
| Calendar.DaysInMonth | components/HistoryModal.tsx:63 | A month has 28 to 31 days, and 29 exactly for February of a leap year |
| Calendar.NextDay | components/HistoryModal.tsx:72-76 | Consecutive days of a month have consecutive day numbers |
| Calendar.NextMonth | components/HistoryModal.tsx:62-63 | The first of a month follows the last day of the month before |
| Calendar.NextYear | components/HistoryModal.tsx:62-63 | 1 January follows 31 December of the year before |
| Calendar.DateKeyRoundTrip | components/HistoryModal.tsx:73 | A zero-padded "YYYY-MM-DD" key has the `LogEntry.date` shape and parses back to its year, month and day |
| Calendar.ClockMinutes | pages/TodoPage.tsx:158-161 | A time of day read from "HH:MM" is a minute of the day, 0..1439 |
| Calendar.ClockTextRoundTrip | src/components/LogTimeModal.tsx:46-47 | Writing a minute of the day as "HH:MM" and reading it back gives the same minute |
| Calendar.ClockMinutesRoundTrip | components/EditLogModal.tsx:48-49 | Reading an "HH:MM" text and writing it back gives the same text |
| Rollup.SummarizeSpec | App.tsx:81-100 | A week's summary keeps its week key. Its total is the sum of the week's durations. Its daily average is that total over seven, rounded half up. Its subject averages have exactly the week's subjects as keys, each the subject's total over seven, rounded |
| Rollup.WeeklyRollup | App.tsx:63-113 | Exactly the logs of the current week are kept. The old summaries come first, untouched. A save happens exactly when some log is older than the current week, and then the kept logs stay in their loaded order; otherwise the loaded state is returned as it was |
| Rollup.RollupSplits | App.tsx:67-68 | The stale logs and the kept logs together are the loaded logs, each log in exactly one of the two |
| Rollup.RollupSummaries | App.tsx:71-102 | One new summary is appended per stale week. Each summarises exactly the stale logs of its week, and the list is not deduplicated against the old one |
| Rollup.StaleWeeksEarlier | App.tsx:71-79 | Every stale week key is a Sunday before the current week, and no key repeats |
| Rollup.WeekBuckets | App.tsx:71-79 | Each stale log is filed under exactly its own week key, in order, and no group is empty |
| Rollup.GroupedTotal | App.tsx:81-82 | The new summaries' totals add up to the stale logs' minutes |
| Rollup.SummariesTotal | App.tsx:81-100 | Summing the summaries of any grouping sums each group's logs |
| Rollup.RollupConservesMinutes | App.tsx:102-108 | No minute is lost: the kept logs plus the new summaries' totals equal the loaded logs' minutes |
| Rollup.RollupSettles | App.tsx:70 | Running the rollup again within the same week changes nothing and saves nothing |
| Rollup.RollupKeepsConsistency | App.tsx:103 | If today's day lies in the current week, the rollup keeps every done task's log |
| Rollup.RollupExample | App.tsx:63-113 | Two January 2024 logs loaded on 15 January fold into one summary for the week of 31 December 2023: 180 minutes, 26 a day |
| Rollup.ExampleSummary | App.tsx:91-97 | 120 physics minutes and 60 chemistry minutes average 17 and 9 a day, after rounding |
| ApiService.IsSheetsConfigured | src/services/apiService.ts:106 | The sheet is used exactly when its URL starts with "https://" |
| ApiService.FetchData | src/services/apiService.ts:108-140 | When not configured, or on any failure, the result is the mock data. A successful non-null payload is returned as is. A successful null payload gives the mock data, which is saved under the renamed action only when it is not null |
| ApiService.FetchAfterInitialisation | src/services/apiService.ts:124-131 | Once the backend holds the mock data a null answer made the client save, the next fetch returns that data and saves nothing |
| ApiService.SaveActionOf | src/services/apiService.ts:127 | The save action is the get action with its first "get" replaced by "save" |
| ApiService.SaveLogsAction | src/services/apiService.ts:127 | "getLogs" is saved as "saveLogs" |
| ApiService.GetTodayTodos | src/services/apiService.ts:175-198 | Today's saved record is returned unchanged and not saved. Otherwise a new day with today's date is saved, holding exactly the previous day's unfinished items (none without a previous day) |
| ApiService.RolloverDropsTicked | src/services/apiService.ts:188 | Rollover keeps the previous items in order and unmodified, and drops an item exactly when it is done |
| ApiService.RolloverConsistent | src/services/apiService.ts:188-193 | A rolled-over day has no done item, so it trivially satisfies the done-means-logged invariant |
| ApiService.RolloverSettles | src/services/apiService.ts:182-184 | Reloading after a rollover returns the rolled-over day and saves nothing |
| TodoPage.FindItemFirst | pages/TodoPage.tsx:84 | The item found is the first one carrying the id: no earlier item has that id |
| TodoPage.ToggleTodo | pages/TodoPage.tsx:82-105 | A missing day or unknown id does nothing. The first item with the id decides: if it is done, the update always happens and unticks. A done task becomes undone. An undone task becomes done exactly when it already has a log that day; otherwise the interval dialog is opened for that first item. Other items never change, and no log is added or removed |
| TodoPage.ToggleKeepsConsistency | pages/TodoPage.tsx:87-104 | Toggling keeps the invariant that every done task has a log that day |
| TodoPage.ToggleTwice | pages/TodoPage.tsx:87-104 | Unticking a done task and ticking it again restores the day, since its log is still there |
| TodoPage.AddTodos | pages/TodoPage.tsx:107-122 | New tasks are appended after the existing ones, which are unchanged. Each is undone with the given fields or their defaults |
| TodoPage.Complete | pages/TodoPage.tsx:109-115 | A completed suggestion is undone and has a non-empty title and subject |
| TodoPage.OrElse | pages/TodoPage.tsx:111-113 | `x \|\| fallback` on strings: the value when it is non-empty, otherwise the fallback |
| TodoPage.SuggestedIdsDistinct | pages/TodoPage.tsx:110 | Tasks suggested together get different ids |
| TodoPage.AddTodosKeepsConsistency | pages/TodoPage.tsx:107-122 | Adding tasks keeps the done-means-logged invariant |
| TodoPage.HandleLogSubmit | pages/TodoPage.tsx:154-188 | An unknown task or missing day does nothing. Otherwise exactly one log is appended with the day's date, that task's id, title and subject, and the interval's minutes, and that task is marked done |
| TodoPage.IntervalMinutes | pages/TodoPage.tsx:158-161 | The rounded difference of two "HH:MM" times is the difference of their minutes of the day |
| TodoPage.LogSubmitKeepsConsistency | pages/TodoPage.tsx:163-183 | Logging an interval keeps the done-means-logged invariant, and that task then has a log that day |
| TodoPage.TickWithLogKeepsConsistency | pages/TodoPage.tsx:174-183 | Ticking a task while appending a log for it on that day keeps the invariant |
| TodoPage.HandlePomodoroLog | pages/TodoPage.tsx:206-233 | Without a day nothing happens. Otherwise exactly one log is appended: the given id, the day's date, the task's id, title and subject, the start and end moments' minutes of the day as "HH:MM", and the rounded duration, or exactly one minute when that rounds below one. That task is marked done |
| TodoPage.PomodoroMinutes | pages/TodoPage.tsx:210 | The pomodoro duration is the rounded elapsed minutes when that is at least one, and exactly one otherwise |
| TodoPage.PomodoroWholeMinutes | pages/TodoPage.tsx:210 | A session of a whole number of minutes logs exactly that number; an empty or backwards session logs one |
| TodoPage.TimeOfMoment | pages/TodoPage.tsx:209 | The time of a moment is written as a valid "HH:MM" text that reads back as the moment's minute of the day |
| TodoPage.PomodoroKeepsConsistency | pages/TodoPage.tsx:212-231 | Logging a pomodoro keeps the done-means-logged invariant |
| TodoPage.OrdinalSuffixCorrect | pages/TodoPage.tsx:134-138 | With JavaScript's truncating remainder, the suffix is the English ordinal one for every non-negative number: "th" for 11 to 13 in each hundred, else by the last digit |
| TodoPage.OrdinalExamples | pages/TodoPage.tsx:134-138 | 1st, 2nd, 3rd, 11th, 12th, 13th, 21st, 22nd, 23rd |
| TodoPage.CalculateCountdown | pages/TodoPage.tsx:39-72 | After borrowing, the months are non-negative and the days lie in 0..30 |
| TodoPage.CountdownReachesExam | pages/TodoPage.tsx:42-70 | The target is 10 August of this year, or of next year once it has passed. Adding the months and days to today lands on that date, where a borrowed month counts as July's 31 days |
| TodoPage.CountdownZero | pages/TodoPage.tsx:47-72 | The countdown reads zero exactly at midnight at the start of 10 August |
| TodoPage.TodaysClasses | pages/TodoPage.tsx:143-152 | Today's classes are exactly those on today's weekday whose end time is later than now, in their stored order |
| TodoPage.TodaysClassesShrink | pages/TodoPage.tsx:144-152 | Later in the same day, the list only loses classes |
| LogModals.OnTaskChange | src/components/LogTimeModal.tsx:16-22 | Opening the dialog for a task clears both times and the error |
| LogModals.SubmitInterval | src/components/LogTimeModal.tsx:37-56 | Without a task nothing happens. A missing time, or an end not after the start, is rejected with its message and the times kept. Otherwise the error is cleared and that task's id and the raw times are submitted once |
| LogModals.SubmittedIntervalLogsPositive | src/components/LogTimeModal.tsx:49-55 | An interval the dialog accepts produces a log of positive minutes for that task |
| LogModals.OnLogChange | components/EditLogModal.tsx:17-23 | Opening the editor fills the form from the log and clears the error |
| LogModals.SubmitEdit | components/EditLogModal.tsx:39-61 | Missing or reversed times are rejected with the right message. An accepted edit changes only the two times and the duration, which becomes the positive difference of the times in minutes |
| LogModals.EditUnchanged | components/EditLogModal.tsx:17-58 | Saving the editor unchanged gives back the same log |
| LogModals.EditKeepsConsistency | components/EditLogModal.tsx:58 | Editing a log keeps the done-means-logged invariant |
| LogCreator.SetTime | src/components/LogCreator.tsx:13-21 | The field typed for a task takes the value. That task's other field and every other task's entry are unchanged |
| LogCreator.ShownAfterTyping | src/components/LogCreator.tsx:38 | The form shows what was typed into each field and leaves the other field's display alone |
| LogCreator.Shown | src/components/LogCreator.tsx:38 | A task with no entry shows empty start and end; otherwise each typed field is shown, and a field never typed shows empty |
| LogCreator.Submit | src/components/LogCreator.tsx:23-28 | A log is requested exactly when both times of that task are non-empty, and then with the shown times |
| LogCreator.TypedTimesAreSubmitted | src/components/LogCreator.tsx:13-28 | Typing a start and an end and submitting requests a log with exactly those times |
| Duration.ParseFormatDuration | src/pages/LogBookPage.tsx:10-18 | The "0m", "Nm", "Hh" and "Hh Mm" texts read back as the minutes, with anything below one shown as 0 |
| Duration.FormatDuration | src/pages/LogBookPage.tsx:10-18 | Below one minute, "0m". Below an hour, the minutes. Otherwise the hours, plus the remaining minutes when there are any |
| Duration.FormatDurationInjective | components/HistoryModal.tsx:11-19 | Two different positive durations never print the same text |
| Duration.AnalyticsFormatDuration | pages/AnalyticsPage.tsx:23-31 | As written: the rounding copy, which prints "0m" below one minute |
| Duration.AnalyticsAgreesOnWholeMinutes | pages/AnalyticsPage.tsx:23-31 | On whole minutes, the rounding copy prints what the log book prints |
| Duration.AnalyticsShowsSixtyMinutes | pages/AnalyticsPage.tsx:26-29 | As written, 59.5 minutes prints "60m" and 119.6 prints "1h 60m", where a whole hour prints "1h" |
| Duration.AnalyticsFormatDurationFixed | pages/AnalyticsPage.tsx:23-31 | Corrected: round once, then format like the log book |
| Duration.AnalyticsFixedReadsBack | pages/AnalyticsPage.tsx:23-31 | The corrected text reads back as the rounded minutes, and it agrees with the page on whole minutes |
| Categories.LogBookCategory | src/pages/LogBookPage.tsx:124-139 | Examined subjects are study. "exercise" and "entertainment" are their own category. Everything else is personal |
| Categories.AnalyticsCategory | pages/AnalyticsPage.tsx:213-216 | Examined subjects are study. An id that is a category key is that category. Anything else, including the empty id, is personal |
| Categories.CategoriesAgree | pages/AnalyticsPage.tsx:234-235 | The two pages categorise every subject id alike, except "study", which only the analytics page counts as study time |
| Categories.Rank | src/pages/LogBookPage.tsx:141-144 | A category's position in the order study, exercise, entertainment, personal |
| LogBook.GroupedByDate | src/pages/LogBookPage.tsx:90-97 | The dates are the distinct log dates in first-seen order, and each holds exactly its own logs in order |
| LogBook.SortedDates | src/pages/LogBookPage.tsx:99 | The distinct dates, strictly newest first |
| LogBook.Categorized | src/pages/LogBookPage.tsx:124-139 | A day's logs are filed by category, each under exactly its own category, in order |
| LogBook.SortedCategories | src/pages/LogBookPage.tsx:141-144 | The day's categories in strictly increasing order of rank |
| LogBook.CurrentWeekFilesEachLog | src/pages/LogBookPage.tsx:120-152 | Each block of the current week holds exactly the logs of its date and category |
| LogBook.CurrentWeekShowsEveryLog | src/pages/LogBookPage.tsx:120-152 | Every log of the week appears in some day's category block |
| LogBook.DayViewShowsLog | src/pages/LogBookPage.tsx:122-152 | A log appears under its own date |
| LogBook.DayTotalSum | src/pages/LogBookPage.tsx:150-152 | A day's category totals add up to that day's minutes |
| LogBook.WeekTotalAddsUp | src/pages/LogBookPage.tsx:101 | The week total equals the sum over dates and categories of the block totals |
| LogBook.HistoryOrder | src/pages/LogBookPage.tsx:203 | Summaries are shown newest week first, as a permutation of the stored ones |
| LogBook.HistoryKeepsDuplicateWeeks | src/pages/LogBookPage.tsx:203 | Summaries of the same week all stay, in their stored order |
| LogBook.TopSubjects | src/pages/LogBookPage.tsx:204-213 | At most three subject averages are shown, in descending order, each at most as often as it occurs. Every hidden one is no larger than every shown one |
| Analytics.ProgressDataIds | pages/AnalyticsPage.tsx:54-95 | A physics item exactly when physics is offered, then chemistry likewise, then pure and applied maths exactly when combined maths is |
| Analytics.AcademicItem | src/components/SyllabusAnalysis.tsx:17-33 | The physics and chemistry items are present exactly when their subject is, and each reads its own syllabus |
| Analytics.FindAcademic | src/components/SyllabusAnalysis.tsx:12 | Searching the examined subjects for an examined id finds it exactly when it is offered |
| Analytics.CombinedItems | src/components/SyllabusAnalysis.tsx:35-51 | Combined maths yields the pure and applied items, both in the combined subject's colour, each reading its own syllabus |
| Analytics.ProgressDataReads | src/components/SyllabusAnalysis.tsx:19-22 | Every item shows its syllabus's overall progress, in 0..100, and 0 when that syllabus is missing |
| Analytics.ProgressDataColour | pages/AnalyticsPage.tsx:80-91 | The maths items take the combined subject's colour |
| Analytics.ProgressItemsOrdered | src/components/SyllabusAnalysis.tsx:14-53 | At most four items, in the order physics, chemistry, pure maths, applied maths |
| Analytics.CurrentWeekData | pages/AnalyticsPage.tsx:213-219 | A category appears exactly when some log falls in it, holding the minutes of those logs |
| Analytics.PieData | pages/AnalyticsPage.tsx:221-223 | One slice per category present, in first-seen order, each with its minutes |
| Analytics.PieAddsUp | pages/AnalyticsPage.tsx:221-226 | The slices add up to the week's total minutes |
| Analytics.HistoricalWeeks | pages/AnalyticsPage.tsx:225-231 | The bar chart folds over every stored week and then the current one |
| Analytics.EntriesTallyMinutes | pages/AnalyticsPage.tsx:232-237 | A week adds the values of its entries in the category |
| Analytics.EntriesTallyDays | pages/AnalyticsPage.tsx:238 | As written, a week adds its day count once per entry in the category |
| Analytics.CurrentDaysAsWritten | pages/AnalyticsPage.tsx:238 | `getDay() \|\| 7`: seven on Sunday, the weekday number otherwise |
| Analytics.CurrentDaysAsWrittenWrong | pages/AnalyticsPage.tsx:238 | `getDay() \|\| 7` never equals the age in days of a week that starts on Sunday |
| Analytics.TallyCountsRecordedWeeks | pages/AnalyticsPage.tsx:225-241 | Corrected, the tally counts days exactly when some week recorded the category, so a daily average is taken only over data |
| Analytics.HistoricalTallyMiscounts | pages/AnalyticsPage.tsx:225-241 | As written, a stored week of 60 minutes a day shows under 9 a day. Two examined subjects count 14 days. A one-day-old current week counts 7 |
| Analytics.CurrentDays | App.tsx:33-39 | Corrected: the days the current week has run, counted from its Sunday, today included |
| Analytics.WeekTallyFixed | pages/AnalyticsPage.tsx:231-239 | Corrected: a week adds seven days of its per-day average, or the current week's raw minutes and its age, once per category |
| Analytics.SteadyRateReported | pages/AnalyticsPage.tsx:225-241 | Corrected: a steady rate of study minutes per day is reported as that rate |
| Analytics.HistoricalTallyFixedExamples | pages/AnalyticsPage.tsx:225-241 | Corrected, on the same three examples: 420 minutes over 7 days, 840 over 7, 60 over 1 |
| Analytics.DailyAverage | pages/AnalyticsPage.tsx:245 | The bar's length is total over days, or 0 without days |
| Analytics.EmptyStateMeansNoData | pages/AnalyticsPage.tsx:202-204 | The empty state is shown exactly when the pie has no slice and every bar tallies nothing |
| History.LogsByDateFilesEachLog | components/HistoryModal.tsx:25-34 | Each log is filed under exactly its own date, in order; a date is a key exactly when some log has it |
| History.HasLogs | components/HistoryModal.tsx:74 | A day is marked exactly when some log has its date |
| History.GridCells | components/HistoryModal.tsx:58-76 | The grid has one padding cell per weekday before the 1st. Then comes one cell per day of the month, with its key and its marked, selected and today flags |
| History.GridColumns | components/HistoryModal.tsx:62-72 | Under the Sun-to-Sat header, every day falls in its own weekday's column |
| History.GridKeys | components/HistoryModal.tsx:73 | Day keys have the `LogEntry.date` shape, and two days of a month share a key only when they are the same day |
| History.SelectedLogs | components/HistoryModal.tsx:102 | With no selection, nothing. Otherwise the selected day's logs in order, which is nothing when it has none |
| History.MarkMeansDetails | components/HistoryModal.tsx:74-102 | A day is marked exactly when selecting it lists some logs |
| History.ChangeMonth | components/HistoryModal.tsx:50-56 | As written: the month moves by the offset, but one further when the day does not exist in the target month |
| History.ChangeMonthSkips | components/HistoryModal.tsx:50-56 | As written, "next" from 31 January 2025 shows March, and "previous" from 31 March 2025 stays on March |
| History.ChangeMonthEarlyDays | components/HistoryModal.tsx:50-56 | Up to the 28th, the month moves exactly by the offset |
| History.ChangeMonthFixed | components/HistoryModal.tsx:50-56 | Corrected: the first day of the month exactly the offset away |
| History.ChangeMonthFixedReturns | components/HistoryModal.tsx:50-56 | Corrected: "next" then "previous" returns to the month shown before |
| Progress.Tracked | src/utils/progress.ts:11-17 | A subunit tracks zero, one or two flags: those that are defined |
| Progress.Ticked | src/utils/progress.ts:13-17 | Only tracked flags that are true count as done |
| Progress.SyllabusCounts | src/utils/progress.ts:9-20 | A syllabus's done count never exceeds its tracked count |
| Progress.OverallProgress | src/utils/progress.ts:3-25 | 0 for a missing syllabus or one with no tracked flag. Otherwise a percentage within 0..100 lying within half a point of 100 times done over tracked, as any rounding to a nearest integer does; exact halves are taken upwards. It is 100 when every tracked flag is done and 0 when none is |
| Progress.OverallProgressMonotone | src/utils/progress.ts:9-24 | Ticking more flags never lowers the overall percentage |
| Progress.UnitProgress | components/SubunitChecklist.tsx:13-28 | 100 with no tracked flag. Otherwise a percentage within 0..100 lying within half a point of 100 times done over tracked; exact halves are taken upwards. It is 100 when all are done and 0 when none is |
| Progress.UnitCounts | src/components/SubunitChecklist.tsx:12-28 | A unit's done count never exceeds its tracked count |
| Progress.UnitProgressMonotone | src/components/SubunitChecklist.tsx:12-28 | Ticking more flags never lowers the unit percentage |
| Progress.ConventionsDiffer | src/components/SubunitChecklist.tsx:19 | The checklist and the overall progress agree on a one-unit syllabus that tracks flags; with none tracked the checklist shows 100 where the overall shows 0 |
| Progress.AllDone | components/SubunitChecklist.tsx:64 | For chemistry, the past-paper flag; for other subjects, both flags |
| Progress.AllDoneMeansComplete | src/components/SubunitChecklist.tsx:63 | A subunit shown as all done has every tracked flag done. The converse holds when its tracked flags are the ones its subject checks |
| Progress.Checkboxes | components/SubunitChecklist.tsx:81-102 | A checkbox is shown exactly for each defined flag, tutorial before past papers |
| Progress.OnCheck | src/components/SubunitChecklist.tsx:71-92 | A change is emitted only for a shown checkbox, carrying the unit id, subunit id, that flag and the new value |
| Progress.StatusLabel | components/SubunitChecklist.tsx:33-39 | Completed, Ongoing, and Not Started for any other or missing status |
| Progress.StatusLabelsDistinct | src/components/SubunitChecklist.tsx:32-38 | Different statuses get different labels, and a missing status reads like not started |
| Progress.SetFlag | pages/SubjectPage.tsx:73 | The chosen flag takes the value. The other flag and the subunit's id and names are unchanged |
| Progress.SetTrackedFlag | pages/SubjectPage.tsx:73 | Setting a shown flag keeps the checkboxes and tracked count. Ticking never lowers the done count and unticking never raises it. Setting the old value back restores the subunit |
| SubjectPage.CurrentSyllabus | pages/SubjectPage.tsx:28-35 | The shown syllabus has the subject's id, or on the combined page the pure or applied maths id the toggle picks. There is none exactly when no syllabus has that id |
| SubjectPage.ModeSelectsSyllabus | pages/SubjectPage.tsx:28-35 | The toggle matters only on the combined page, where its two positions never show the same syllabus |
| SubjectPage.SubunitChangeFrame | pages/SubjectPage.tsx:62-86 | Exactly the chosen flag of the chosen subunit, in the chosen unit of the shown syllabus, changes. Every syllabus, unit and other subunit keeps its place and contents |
| SubjectPage.TickMovesUnitProgress | pages/SubjectPage.tsx:93-109 | Ticking a shown checkbox never lowers the unit percentage and unticking never raises it; the tracked count stays |
| SubjectPage.StatusColor | pages/SubjectPage.tsx:111-117 | The badge is green where the checklist reads "Completed", blue where it reads "Ongoing" and slate where it reads "Not Started" |
| SubjectPage.StatusColorMatchesLabel | pages/SubjectPage.tsx:111-117 | The badge colour tells statuses apart exactly as the checklist's label does |
| SubjectPage.View | pages/SubjectPage.tsx:54-56 | "Subject not found" exactly when the subject or its shown syllabus is missing. Otherwise every panel is a percentage in the subject's colour |
| SubjectPage.PanelsFollowSyllabus | pages/SubjectPage.tsx:119-138 | The combined page shows pure and applied maths progress whichever half is toggled, and the toggled half reads the syllabus shown. Other pages show their own syllabus's progress |
| CircularProgress.RingColor | src/components/CircularProgress.tsx:14-20 | Green exactly at 100, yellow above it, and always one of the five ring colours |
| CircularProgress.RingColorBands | src/components/CircularProgress.tsx:15-19 | Up to 100 the colour only warms as the percentage grows, and changes exactly at 15, 30, 50 and 100 |
| CircularProgress.UnitRingColor | src/components/UnitSidePanel.tsx:13 | A unit's ring is green exactly when its checklist reads 100, which includes fully ticked units; a unit with tracked flags and none ticked is red |
| Cms.ManagedIsSelected | src/pages/CmsPage.tsx:32 | The editor's syllabus lookup finds the selected subject's syllabus |
| Cms.AddUnit | src/pages/CmsPage.tsx:34-35 | A unit is added exactly when both names are filled in and the selected subject has a syllabus |
| Cms.AddUnitSpec | src/pages/CmsPage.tsx:36-48 | The new unit goes last in the selected syllabus only. It has the typed names, status not started, no subunits and an id from the subject and the moment |
| Cms.AddUnitKeepsProgress | src/pages/CmsPage.tsx:36-48 | Adding a unit changes no syllabus's overall progress |
| Cms.NewSubunit | src/pages/CmsPage.tsx:57-68 | A chemistry subunit tracks only an unticked past-paper flag; any other subunit tracks both flags, unticked |
| Cms.AddSubunit | src/pages/CmsPage.tsx:53-55 | A subunit is added exactly when the unit's form exists with both names filled in and the selected subject has a syllabus |
| Cms.AddSubunitSpec | src/pages/CmsPage.tsx:70-83 | The subunit is appended to the matching unit of the selected syllabus, and nothing else changes. That unit gains tracked flags, keeps its done count, and its percentage does not rise |
| Cms.StatusChange | src/pages/CmsPage.tsx:88-89 | A status change applies exactly when the selected subject has a syllabus |
| Cms.StatusChangeSpec | src/pages/CmsPage.tsx:90-99 | Only the target unit's status changes, in the selected syllabus; every other field, unit and syllabus is unchanged |
| Cms.StatusChangeKeepsProgress | src/pages/CmsPage.tsx:88-99 | Changing a status changes no syllabus's overall progress |
| Cms.AddTest | src/pages/CmsPage.tsx:179-191 | A test is added exactly when name, date, score and total are filled in; it goes last with the form's fields and a "t-" id |
| Cms.DeleteTest | src/pages/CmsPage.tsx:193-195 | Exactly the tests with another id remain |
| Cms.DeleteKeepsOrder | src/pages/CmsPage.tsx:193-195 | Deleting keeps the remaining tests in order and is a no-op for an absent id |
| Cms.AddThenDeleteTest | src/pages/CmsPage.tsx:179-195 | Deleting a just-added test by its fresh id restores the list |
| Cms.AddClass | src/pages/CmsPage.tsx:250-266 | A class is added exactly when name, start and end are filled in; it goes last with the form's fields and a "c-" id |
| Cms.DeleteClass | src/pages/CmsPage.tsx:268-270 | Exactly the classes with another id remain |
| Cms.AddThenDeleteClass | src/pages/CmsPage.tsx:250-270 | Deleting a just-added class by its fresh id restores the list |
| JsMath.RoundDiv | App.tsx:91-97 | `Math.round(a / b)` for a positive divisor: the integer nearest the quotient, halves rounded up |
| JsMath.RoundPercentBounds | src/utils/progress.ts:24 | A rounded share of a whole is a percentage in 0..100 |
| JsMath.JsRem | pages/TodoPage.tsx:136-137 | JavaScript's `%`: truncating, taking the sign of the dividend, smaller than the divisor in size |
| Text.ReplaceFirst | src/services/apiService.ts:127 | `String.replace` with a string pattern replaces only the first occurrence, and returns the text unchanged when there is none |

## Left out

- Time zones: week keys are written with `toISOString` (UTC), and "today" is UTC too. Stored dates parse as UTC midnight while week starts are local midnight. The model uses one calendar of day numbers, so the mismatch near midnight is not modelled.
- Seconds and milliseconds: times are "HH:MM" minutes and moments carry a minute of the day. Sub-minute parts of `Math.round((end - start) / 60000)` vanish for "HH:MM" inputs. The pomodoro's raw milliseconds are kept.
- Time inputs are assumed to be what `<input type="time">` produces: empty or a valid "HH:MM". Invalid dates (`NaN`) are not modelled.
- Progress.OverallProgress: the percentage is computed on the exact fraction, so where `(completed / total) * 100` lands just below a half in floating point (23 of 40 gives 57.49999999999999, shown as 57) the model shows 58. The contract states the half-point bound that holds either way; the half-up clause is the exact-arithmetic reading.
- Progress.UnitProgress: the same floating-point ties as `Progress.OverallProgress`, in the checklist and on the subject page.
- Floating point: the analytics bar lengths are reals. Test-score percentages, chart data and the SVG ring geometry are left out.
- Cms.AddTest: score and total are taken as already-parsed integers, so `Number("")` and non-numeric `NaN` scores are not modelled.
- Cms.AddClass: the weekday is taken as an integer, not as the `Number` of the select's text.
- The order of `Object.entries` and `Object.keys` is insertion order for the string keys used here. It is modelled as first-seen order; integer-like keys, which JavaScript lists first, are not modelled.
- JavaScript prototype keys such as "constructor" as subject ids in the analytics category lookup.
- `Array.prototype.sort` sorting the log book's summaries in place and the content editor's class list in place (src/pages/CmsPage.tsx:303), mutating the props, is modelled as a new sorted list for the summaries; the class list's display order is not modelled.
- Flags set to `null` rather than left undefined are not modelled; a flag is absent, true or false.
- Styling classes beyond the colour choices, the month label, `toLocaleDateString` formatting and the history calendar's "today" styling text.
- Resetting form fields after a content-editor add, and the editor's initial subject choice (`subjects[0]?.id`): the selected subject is a parameter.
- The subject page's effect that refreshes the selected unit after an edit (pages/SubjectPage.tsx:41-51), and the effect that clears it on navigation: React state.
- The content editor's password gate (src/pages/CmsPage.tsx:322-330): a fixed shared secret compared in the UI.
- The network: `fetch`, the HTML-response check, JSON parsing and the save calls. The response is a parameter and saves are returned as values.
- AI helpers, modals, timers, the pomodoro timer, the Markdown renderer, image export and the pure presentation components.
- Duration.AnalyticsFormatDuration: only "0m" below one minute is stated for every input. The rest is stated through agreement on whole minutes and two concrete inputs, because reals below a minute boundary round in ways an integer contract cannot express compactly.

## Findings

| source | as written | input that shows it | evidently intended | confidence | as-written member | corrected member |
|---|---|---|---|---|---|---|
| pages/AnalyticsPage.tsx:23-31 | The minute part is rounded after taking the remainder, so it can round up to 60 | 59.5 minutes prints "60m"; 119.6 prints "1h 60m" | Round once, then format, giving "1h" and "2h" | high (not executed) | Duration.AnalyticsShowsSixtyMinutes | Duration.AnalyticsFixedReadsBack |
| pages/AnalyticsPage.tsx:225-241 | Stored per-day averages are added as if they were minutes, and each entry adds seven days | A stored week of 60 physics minutes a day gives 60 over 7 days, about 8.6 a day; two examined subjects give 120 over 14 days | Each week adds its category's minutes and its days once, so a steady rate is reported as that rate | high (not executed) | Analytics.HistoricalTallyMiscounts | Analytics.SteadyRateReported |
| pages/AnalyticsPage.tsx:238 | The current week counts `getDay() \|\| 7` days | On a Sunday, the first day of the week, seven days are counted; on Monday one is counted for a two-day-old week | The days since the week's Sunday, today included | high (not executed) | Analytics.CurrentDaysAsWrittenWrong | Analytics.CurrentDays |
| components/HistoryModal.tsx:50-56 | `setMonth` keeps the day of the month, which overflows into the following month | "Next" from 31 January 2025 shows March; "previous" from 31 March 2025 shows March again | Move to the month asked for, e.g. by going to its first day | high (not executed) | History.ChangeMonthSkips | History.ChangeMonthFixedReturns |

=== FILE: analytics.dfy ===
/**
 * The analytics page (pages/AnalyticsPage.tsx) and the syllabus panel it
 * shares with src/components/SyllabusAnalysis.tsx: the per-subject
 * syllabus progress items, this week's minutes per category (the pie
 * chart), the historical daily average per category (the bar chart), and
 * when the page shows its empty state instead.
 */
module Analytics {
  import opened Wrappers
  import opened Seqs
  import opened Types
  import opened Calendar
  import opened Categories
  import opened Progress
  import Rollup

  // ---------------------------------------------------------------------
  // Syllabus progress items
  // ---------------------------------------------------------------------

  datatype ProgressItem = ProgressItem(id: string, name: string, color: string, progress: int)

  function IsAcademic(s: Subject): bool {
    s.id in AcademicIds
  }

  /** The display position of an item id: physics, chemistry, pure maths, applied maths. */
  function ItemRank(id: string): int {
    if id == "physics" then 0
    else if id == "chemistry" then 1
    else if id == "combined-pure" then 2
    else if id == "combined-applied" then 3
    else 4
  }

  /** The syllabus an item's progress is read from. */
  function SyllabusIdOf(id: string): string {
    if id == "combined-pure" then "combined" else id
  }

  /** An item shows the overall progress of the syllabus its id reads. */
  predicate ReadsProgress(syllabi: seq<Syllabus>, it: ProgressItem) {
    it.progress == OverallProgress(SyllabusOf(syllabi, SyllabusIdOf(it.id)))
  }

  /** Some subject carries the id. */
  predicate Offers(subjects: seq<Subject>, id: string) {
    exists i :: 0 <= i < |subjects| && subjects[i].id == id
  }

  /** The item of a single-syllabus subject: the subject's fields and its syllabus progress. */
  function SubjectItem(subject: Option<Subject>, syllabi: seq<Syllabus>): (r: seq<ProgressItem>)
    ensures subject.Some? ==> r == [ProgressItem(subject.value.id, subject.value.name, subject.value.color, OverallProgress(SyllabusOf(syllabi, subject.value.id)))]
    ensures subject.None? ==> r == []
  {
    if subject.None? then []
    else
      var s := subject.value;
      [ProgressItem(s.id, s.name, s.color, OverallProgress(SyllabusOf(syllabi, s.id)))]
  }

  /** The two items of combined maths, both in the combined subject's colour. */
  function CombinedItems(subject: Option<Subject>, syllabi: seq<Syllabus>): (r: seq<ProgressItem>)
    ensures subject.None? ==> r == []
    ensures subject.Some? ==> Ids(r) == ["combined-pure", "combined-applied"]
    ensures forall it :: it in r ==>
      it.color == subject.value.color && ItemRank(it.id) >= 2 && ReadsProgress(syllabi, it)
  {
    if subject.None? then []
    else
      [ ProgressItem("combined-pure", "Pure Maths", subject.value.color, OverallProgress(SyllabusOf(syllabi, "combined"))),
        ProgressItem("combined-applied", "Applied Maths", subject.value.color, OverallProgress(SyllabusOf(syllabi, "combined-applied")))]
  }

  /** The item of physics or chemistry, present exactly when the subject is offered. */
  lemma AcademicItem(subjects: seq<Subject>, syllabi: seq<Syllabus>, id: string)
    requires id == "physics" || id == "chemistry"
    ensures var r := SubjectItem(First(Filter(subjects, IsAcademic), HasId(id)), syllabi);
      Ids(r) == ItemIds(Offers(subjects, id), [id])
      && forall it :: it in r ==> ItemRank(it.id) < 2 && ReadsProgress(syllabi, it)
  {
    var found := First(Filter(subjects, IsAcademic), HasId(id));
    FindAcademic(subjects, id);
    FoundItem(found, syllabi, id);
  }

  /** The item of a subject found under `id`, or none when nothing was found. */
  lemma FoundItem(found: Option<Subject>, syllabi: seq<Syllabus>, id: string)
    requires id == "physics" || id == "chemistry"
    requires found.Some? ==> found.value.id == id
    ensures var r := SubjectItem(found, syllabi);
      Ids(r) == ItemIds(found.Some?, [id])
      && forall it :: it in r ==> ItemRank(it.id) < 2 && ReadsProgress(syllabi, it)
  {
    var r := SubjectItem(found, syllabi);
    if found.Some? {
      var it := ProgressItem(id, found.value.name, found.value.color, OverallProgress(SyllabusOf(syllabi, id)));
      assert r == [it];
      assert Ids(r) == [id];
      assert ReadsProgress(syllabi, it);
    }
  }

  /** Finding an examined subject among the examined subjects finds it among all subjects. */
  lemma FindAcademic(subjects: seq<Subject>, id: string)
    requires id in AcademicIds
    ensures First(Filter(subjects, IsAcademic), HasId(id)).Some? <==> Offers(subjects, id)
    ensures First(Filter(subjects, IsAcademic), HasId(id)).Some? ==>
      First(Filter(subjects, IsAcademic), HasId(id)).value.id == id && First(Filter(subjects, IsAcademic), HasId(id)).value in subjects
  {
    var academic := Filter(subjects, IsAcademic);
    var r := First(academic, HasId(id));
    if Offers(subjects, id) {
      var i :| 0 <= i < |subjects| && subjects[i].id == id;
      assert subjects[i] in academic;
      var k :| 0 <= k < |academic| && academic[k] == subjects[i];
      assert HasId(id)(academic[k]);
    }
    if r.Some? {
      var k :| 0 <= k < |academic| && academic[k] == r.value && HasId(id)(academic[k]);
      assert academic[k] in subjects;
    }
  }

  function IdOf(item: ProgressItem): string {
    item.id
  }

  /** The ids of the items, in order. */
  function Ids(items: seq<ProgressItem>): (r: seq<string>)
    ensures |r| == |items|
    ensures forall i :: 0 <= i < |items| ==> r[i] == items[i].id
  {
    if |items| == 0 then [] else Ids(items[..|items| - 1]) + [items[|items| - 1].id]
  }

  lemma {:induction false} IdsAppend(a: seq<ProgressItem>, b: seq<ProgressItem>)
    ensures Ids(a + b) == Ids(a) + Ids(b)
  {
    assert forall i :: 0 <= i < |a + b| ==> Ids(a + b)[i] == (Ids(a) + Ids(b))[i];
  }

  /** The ids the items of one subject carry. */
  function ItemIds(offered: bool, ids: seq<string>): seq<string> {
    if offered then ids else []
  }

  /**
   * `getProgressData`, shared by the analytics page and the syllabus
   * panel: an item for physics and one for chemistry when the subject
   * exists, and two for combined maths (pure and applied) when it does, in
   * that order, each with the overall progress of the first syllabus of
   * its id, the combined items in the combined subject's colour.
   */
  function ProgressData(subjects: seq<Subject>, syllabi: seq<Syllabus>): seq<ProgressItem> {
    var academic := Filter(subjects, IsAcademic);
    SubjectItem(First(academic, HasId("physics")), syllabi)
    + SubjectItem(First(academic, HasId("chemistry")), syllabi)
    + CombinedItems(First(academic, HasId("combined")), syllabi)
  }

  /**
   * An item for physics exactly when physics is offered, then one for
   * chemistry exactly when chemistry is, then pure and applied maths
   * exactly when combined maths is.
   */
  lemma ProgressDataIds(subjects: seq<Subject>, syllabi: seq<Syllabus>)
    ensures Ids(ProgressData(subjects, syllabi))
      == ItemIds(Offers(subjects, "physics"), ["physics"])
      + ItemIds(Offers(subjects, "chemistry"), ["chemistry"])
      + ItemIds(Offers(subjects, "combined"), ["combined-pure", "combined-applied"])
  {
    var academic := Filter(subjects, IsAcademic);
    var a := SubjectItem(First(academic, HasId("physics")), syllabi);
    var b := SubjectItem(First(academic, HasId("chemistry")), syllabi);
    var d := CombinedItems(First(academic, HasId("combined")), syllabi);
    assert ProgressData(subjects, syllabi) == a + b + d;
    AcademicItem(subjects, syllabi, "physics");
    AcademicItem(subjects, syllabi, "chemistry");
    FindAcademic(subjects, "combined");
    IdsAppend(a, b);
    IdsAppend(a + b, d);
  }

  /** Every item shows the overall progress of its own syllabus, a percentage. */
  lemma ProgressDataReads(subjects: seq<Subject>, syllabi: seq<Syllabus>)
    ensures forall it :: it in ProgressData(subjects, syllabi) ==>
      ReadsProgress(syllabi, it) && 0 <= it.progress <= 100
  {
    var academic := Filter(subjects, IsAcademic);
    var a := SubjectItem(First(academic, HasId("physics")), syllabi);
    var b := SubjectItem(First(academic, HasId("chemistry")), syllabi);
    var d := CombinedItems(First(academic, HasId("combined")), syllabi);
    assert ProgressData(subjects, syllabi) == a + b + d;
    AcademicItem(subjects, syllabi, "physics");
    AcademicItem(subjects, syllabi, "chemistry");
    forall it | it in a + b + d
      ensures ReadsProgress(syllabi, it) && 0 <= it.progress <= 100
    {
      assert it in a || it in b || it in d;
      assert ReadsProgress(syllabi, it);
    }
  }

  /** The maths items are drawn in the colour of the combined-maths subject. */
  lemma ProgressDataColour(subjects: seq<Subject>, syllabi: seq<Syllabus>)
    ensures forall it :: it in ProgressData(subjects, syllabi) && ItemRank(it.id) >= 2 ==>
      exists s :: s in subjects && s.id == "combined" && s.color == it.color
  {
    var academic := Filter(subjects, IsAcademic);
    var a := SubjectItem(First(academic, HasId("physics")), syllabi);
    var b := SubjectItem(First(academic, HasId("chemistry")), syllabi);
    var d := CombinedItems(First(academic, HasId("combined")), syllabi);
    assert ProgressData(subjects, syllabi) == a + b + d;
    AcademicItem(subjects, syllabi, "physics");
    AcademicItem(subjects, syllabi, "chemistry");
    FindAcademic(subjects, "combined");
    forall it: ProgressItem | it in a + b + d && ItemRank(it.id) >= 2
      ensures exists s :: s in subjects && s.id == "combined" && s.color == it.color
    {
      assert it in d;
    }
  }

  /** The ids are in display order: physics, chemistry, pure maths, applied maths. */
  lemma ProgressItemsOrdered(subjects: seq<Subject>, syllabi: seq<Syllabus>)
    ensures var items := ProgressData(subjects, syllabi);
      |items| <= 4 && forall i, j :: 0 <= i < j < |items| ==> ItemRank(items[i].id) < ItemRank(items[j].id)
  {
    var items := ProgressData(subjects, syllabi);
    var ids := Ids(items);
    ProgressDataIds(subjects, syllabi);
    OrderedIds(Offers(subjects, "physics"), Offers(subjects, "chemistry"), Offers(subjects, "combined"));
    assert forall i :: 0 <= i < |items| ==> items[i].id == ids[i];
  }

  lemma OrderedIds(p: bool, c: bool, m: bool)
    ensures var ids := ItemIds(p, ["physics"]) + ItemIds(c, ["chemistry"]) + ItemIds(m, ["combined-pure", "combined-applied"]);
      |ids| <= 4 && forall i, j :: 0 <= i < j < |ids| ==> ItemRank(ids[i]) < ItemRank(ids[j])
  {
    var ids := ItemIds(p, ["physics"]) + ItemIds(c, ["chemistry"]) + ItemIds(m, ["combined-pure", "combined-applied"]);
    var ranks := seq(|ids|, i requires 0 <= i < |ids| => ItemRank(ids[i]));
    assert ranks == (if p then [0] else []) + (if c then [1] else []) + (if m then [2, 3] else []);
  }

  // ---------------------------------------------------------------------
  // This week's minutes per category (the pie chart)
  // ---------------------------------------------------------------------

  /**
   * `currentWeekData`: the minutes of the current week's logs per
   * category; a category appears exactly when some log falls in it.
   */
  function CurrentWeekData(logs: seq<LogEntry>): (m: map<Category, int>)
    ensures forall c :: c in m <==> c in DistinctKeys(logs, AnalyticsCategoryOf)
    ensures forall c :: c in m ==> m[c] == SumBy(Select(logs, AnalyticsCategoryOf, c), Duration)
  {
    TotalsSpec(logs, AnalyticsCategoryOf, Duration);
    Totals(logs, AnalyticsCategoryOf, Duration)
  }

  /** The slices for the listed categories, each with its minutes. */
  function Slices(m: map<Category, int>, keys: seq<Category>): (r: seq<(Category, int)>)
    requires forall k :: k in keys ==> k in m
    ensures |r| == |keys|
    ensures forall i :: 0 <= i < |keys| ==> r[i] == (keys[i], m[keys[i]])
  {
    if |keys| == 0 then [] else Slices(m, keys[..|keys| - 1]) + [(keys[|keys| - 1], m[keys[|keys| - 1]])]
  }

  /** `pieData`: one slice per category present, in the order categories first occur. */
  function PieData(logs: seq<LogEntry>): (r: seq<(Category, int)>)
    ensures |r| == |DistinctKeys(logs, AnalyticsCategoryOf)|
    ensures forall i :: 0 <= i < |r| ==> r[i].0 == DistinctKeys(logs, AnalyticsCategoryOf)[i]
    ensures forall i :: 0 <= i < |r| ==> r[i].1 == SumBy(Select(logs, AnalyticsCategoryOf, r[i].0), Duration)
  {
    Slices(CurrentWeekData(logs), DistinctKeys(logs, AnalyticsCategoryOf))
  }

  function SliceValue(s: (Category, int)): int {
    s.1
  }

  lemma {:induction false} SlicesSum(logs: seq<LogEntry>, keys: seq<Category>)
    requires forall k :: k in keys ==> k in CurrentWeekData(logs)
    ensures SumBy(Slices(CurrentWeekData(logs), keys), SliceValue) == SumOverKeys(keys, logs, AnalyticsCategoryOf, Duration)
  {
    if |keys| > 0 {
      var r := Slices(CurrentWeekData(logs), keys);
      assert r[..|r| - 1] == Slices(CurrentWeekData(logs), keys[..|keys| - 1]);
      SlicesSum(logs, keys[..|keys| - 1]);
    }
  }

  /**
   * The pie's slices add up to the total minutes of the current week's
   * logs, the `totalMinutes` the page reports for the current week: every
   * log counts in exactly one category.
   */
  lemma PieAddsUp(logs: seq<LogEntry>)
    ensures SumBy(PieData(logs), SliceValue) == SumBy(logs, Duration)
  {
    var keys := DistinctKeys(logs, AnalyticsCategoryOf);
    SlicesSum(logs, keys);
    KeysCover(logs, AnalyticsCategoryOf);
    PartitionSum(keys, logs, AnalyticsCategoryOf, Duration);
  }

  // ---------------------------------------------------------------------
  // The historical daily average per category (the bar chart)
  // ---------------------------------------------------------------------

  /**
   * One week of `historicalData`: its `subjectAverages` entries in the
   * order `Object.entries` lists them, and whether it is the entry the
   * page appends for the current week (whose values are the week's raw
   * minutes per subject, not averages).
   */
  datatype WeekEntries = WeekEntries(current: bool, entries: seq<(string, int)>)

  /** `entries` lists the map `m`: each key once, with its value. */
  predicate ListsMap(entries: seq<(string, int)>, m: map<string, int>) {
    (forall i, j :: 0 <= i < j < |entries| ==> entries[i].0 != entries[j].0)
    && (forall i :: 0 <= i < |entries| ==> entries[i].0 in m && m[entries[i].0] == entries[i].1)
    && (forall k :: k in m ==> exists i :: 0 <= i < |entries| && entries[i].0 == k)
  }

  /** The weeks the bar chart folds over: every stored summary, then the current week. */
  function HistoricalWeeks(pastEntries: seq<seq<(string, int)>>, currentEntries: seq<(string, int)>): (r: seq<WeekEntries>)
    ensures |r| == |pastEntries| + 1
    ensures forall i :: 0 <= i < |pastEntries| ==> r[i] == WeekEntries(false, pastEntries[i])
    ensures r[|pastEntries|] == WeekEntries(true, currentEntries)
  {
    seq(|pastEntries|, i requires 0 <= i < |pastEntries| => WeekEntries(false, pastEntries[i])) + [WeekEntries(true, currentEntries)]
  }

  /** The running `{ total, days }` of one category. */
  datatype Tally = Tally(total: int, days: int)

  function InCategory(c: Category): ((string, int)) -> bool {
    (e: (string, int)) => AnalyticsCategory(e.0) == c
  }

  function Minutes(e: (string, int)): int {
    e.1
  }

  /** `new Date().getDay() || 7`. */
  function CurrentDaysAsWritten(today: DayNumber): (n: int)
    ensures 1 <= n <= 7
    ensures Weekday(today) == 0 ==> n == 7
    ensures Weekday(today) != 0 ==> n == Weekday(today)
  {
    var w := Weekday(today);
    if w == 0 then 7 else w
  }

  /**
   * The `forEach` over one week's entries as written: every entry of the
   * category adds its minutes to the total and `perEntry` days to the day
   * count.
   */
  function EntriesTally(entries: seq<(string, int)>, c: Category, perEntry: int): Tally {
    if |entries| == 0 then Tally(0, 0)
    else
      var t := EntriesTally(entries[..|entries| - 1], c, perEntry);
      var e := entries[|entries| - 1];
      if AnalyticsCategory(e.0) == c then Tally(t.total + e.1, t.days + perEntry) else t
  }

  /** A week's entries add up the minutes of the entries in the category. */
  lemma {:induction false} EntriesTallyMinutes(entries: seq<(string, int)>, c: Category, perEntry: int)
    ensures EntriesTally(entries, c, perEntry).total == SumBy(Filter(entries, InCategory(c)), Minutes)
  {
    if |entries| > 0 {
      var entries', e := entries[..|entries| - 1], entries[|entries| - 1];
      var kept := Filter(entries', InCategory(c));
      var tail := if InCategory(c)(e) then [e] else [];
      assert Filter(entries, InCategory(c)) == kept + tail;
      assert [e][..0] == [];
      assert SumBy(tail, Minutes) == if InCategory(c)(e) then e.1 else 0;
      SumAppend(kept, tail, Minutes);
      EntriesTallyMinutes(entries', c, perEntry);
    }
  }

  /** A week's entries count `perEntry` days for each entry in the category. */
  lemma {:induction false} EntriesTallyDays(entries: seq<(string, int)>, c: Category, perEntry: int)
    ensures EntriesTally(entries, c, perEntry).days == perEntry * |Filter(entries, InCategory(c))|
  {
    if |entries| > 0 {
      var entries', e := entries[..|entries| - 1], entries[|entries| - 1];
      var kept := Filter(entries', InCategory(c));
      var step := if InCategory(c)(e) then 1 else 0;
      assert |Filter(entries, InCategory(c))| == |kept| + step;
      EntriesTallyDays(entries', c, perEntry);
      var t' := EntriesTally(entries', c, perEntry);
      var inc := if InCategory(c)(e) then perEntry else 0;
      assert EntriesTally(entries, c, perEntry).days == t'.days + inc;
      assert inc == perEntry * step;
      AddRates(perEntry, t'.days, |kept|, inc, step, |Filter(entries, InCategory(c))|);
    }
  }

  /**
   * As written, `historicalData` for one category: every entry adds its
   * value, and seven days for a stored week or `getDay() || 7` for the
   * current one, however many entries a week has in the category.
   */
  function HistoricalTally(weeks: seq<WeekEntries>, c: Category, today: DayNumber): Tally
  {
    if |weeks| == 0 then Tally(0, 0)
    else
      var t := HistoricalTally(weeks[..|weeks| - 1], c, today);
      var w := weeks[|weeks| - 1];
      var e := EntriesTally(w.entries, c, if w.current then CurrentDaysAsWritten(today) else 7);
      Tally(t.total + e.total, t.days + e.days)
  }

  /** `data.days > 0 ? data.total / data.days : 0`, the bar's length. */
  function DailyAverage(t: Tally): (a: real)
    ensures t.days > 0 ==> a * t.days as real == t.total as real
    ensures t.days <= 0 ==> a == 0.0
  {
    if t.days > 0 then t.total as real / t.days as real else 0.0
  }

  /**
   * As written, the bar chart under-reports: a stored week averaging 60
   * minutes a day of physics shows about 8.6 minutes a day, two examined
   * subjects in one stored week count fourteen days, and on a Sunday the
   * current week counts seven days although it is one day old.
   */
  lemma HistoricalTallyMiscounts()
    ensures HistoricalTally([WeekEntries(false, [("physics", 60)])], Study, 0) == Tally(60, 7)
    ensures DailyAverage(Tally(60, 7)) < 9.0
    ensures HistoricalTally([WeekEntries(false, [("physics", 60), ("chemistry", 60)])], Study, 0) == Tally(120, 14)
    ensures Weekday(3) == 0 && HistoricalTally([WeekEntries(true, [("physics", 60)])], Study, 3) == Tally(60, 7)
  {
    assert AnalyticsCategory("physics") == Study;
    assert AnalyticsCategory("chemistry") == Study;
    assert [("physics", 60), ("chemistry", 60)][..1] == [("physics", 60)];
    assert [WeekEntries(false, [("physics", 60)])][..0] == [];
    assert [WeekEntries(true, [("physics", 60)])][..0] == [];
    assert [WeekEntries(false, [("physics", 60), ("chemistry", 60)])][..0] == [];
    assert [("physics", 60)][..0] == [];
  }

  /**
   * `getDay() || 7` is never the age in days of a week that starts on
   * Sunday: it is one short on Monday to Saturday and six too many on
   * Sunday.
   */
  lemma CurrentDaysAsWrittenWrong(today: DayNumber)
    ensures CurrentDaysAsWritten(today) != today - WeekStartOfDay(today) + 1
  {
  }

  /** The days the current week has run, today included. */
  function CurrentDays(today: DayNumber): (n: int)
    ensures 1 <= n <= 7
    ensures n == today - WeekStartOfDay(today) + 1
  {
    Weekday(today) + 1
  }

  /**
   * The evidently intended contribution of one week to a category: a
   * stored week's per-day averages count for seven days of minutes and
   * seven days, the current week its minutes and the days it has run; a
   * week without the category adds nothing.
   */
  function WeekTallyFixed(w: WeekEntries, c: Category, today: DayNumber): (t: Tally)
    ensures Filter(w.entries, InCategory(c)) == [] ==> t == Tally(0, 0)
    ensures Filter(w.entries, InCategory(c)) != [] ==>
      t.days == (if w.current then CurrentDays(today) else 7)
      && t.total == (if w.current then 1 else 7) * SumBy(Filter(w.entries, InCategory(c)), Minutes)
  {
    var e := EntriesTally(w.entries, c, 1);
    EntriesTallyMinutes(w.entries, c, 1);
    EntriesTallyDays(w.entries, c, 1);
    if e.days == 0 then Tally(0, 0)
    else if w.current then Tally(e.total, CurrentDays(today))
    else Tally(7 * e.total, 7)
  }

  /** The corrected tally over the weeks, oldest first. */
  function HistoricalTallyFixed(weeks: seq<WeekEntries>, c: Category, today: DayNumber): (t: Tally)
    ensures t.days >= 0
  {
    if |weeks| == 0 then Tally(0, 0)
    else
      var t := HistoricalTallyFixed(weeks[..|weeks| - 1], c, today);
      var w := WeekTallyFixed(weeks[|weeks| - 1], c, today);
      Tally(t.total + w.total, t.days + w.days)
  }

  /** A week recorded nothing in the category. */
  predicate Unrecorded(w: WeekEntries, c: Category) {
    Filter(w.entries, InCategory(c)) == []
  }

  /** One week adds days exactly when it recorded the category. */
  lemma WeekDaysRecorded(w: WeekEntries, c: Category, today: DayNumber)
    ensures WeekTallyFixed(w, c, today).days == 0 <==> Unrecorded(w, c)
  {
  }

  /** The last week's days add to those of the weeks before it. */
  lemma TallyDaysSnoc(weeks: seq<WeekEntries>, c: Category, today: DayNumber)
    requires |weeks| > 0
    ensures var t := HistoricalTallyFixed(weeks[..|weeks| - 1], c, today);
      var w := WeekTallyFixed(weeks[|weeks| - 1], c, today);
      HistoricalTallyFixed(weeks, c, today).days == t.days + w.days && t.days >= 0 && w.days >= 0
  {
  }

  /**
   * The corrected tally counts days exactly when some week recorded the
   * category, so its daily average is only ever taken over data.
   */
  lemma {:induction false} TallyCountsRecordedWeeks(weeks: seq<WeekEntries>, c: Category, today: DayNumber)
    ensures HistoricalTallyFixed(weeks, c, today).days == 0
        <==> forall i :: 0 <= i < |weeks| ==> Unrecorded(weeks[i], c)
  {
    if |weeks| > 0 {
      var init, last := weeks[..|weeks| - 1], weeks[|weeks| - 1];
      TallyCountsRecordedWeeks(init, c, today);
      var t, w := HistoricalTallyFixed(init, c, today), WeekTallyFixed(last, c, today);
      var days := HistoricalTallyFixed(weeks, c, today).days;
      TallyDaysSnoc(weeks, c, today);
      WeekDaysRecorded(last, c, today);
      if forall i :: 0 <= i < |weeks| ==> Unrecorded(weeks[i], c) {
        forall i | 0 <= i < |init| ensures Unrecorded(init[i], c) { assert init[i] == weeks[i]; }
        assert days == 0;
      } else {
        var k :| 0 <= k < |weeks| && !Unrecorded(weeks[k], c);
        if k < |init| { assert init[k] == weeks[k]; assert t.days != 0; } else { assert weeks[k] == last; }
        assert days != 0;
      }
    }
  }

  /** The category's minutes a week records: per-day averages for a stored week, raw minutes for the current one. */
  function CategoryMinutes(w: WeekEntries, c: Category): int {
    SumBy(Filter(w.entries, InCategory(c)), Minutes)
  }

  /**
   * A steady rate of `a` minutes a day: every stored week with the
   * category averages `a` a day in it, and the current week, if it has
   * the category, holds `a` for each day it has run.
   */
  predicate SteadyRate(weeks: seq<WeekEntries>, c: Category, today: DayNumber, a: int) {
    forall i :: 0 <= i < |weeks| && Filter(weeks[i].entries, InCategory(c)) != [] ==>
      CategoryMinutes(weeks[i], c) == (if weeks[i].current then a * CurrentDays(today) else a)
  }

  /** The corrected tally reports a steady rate as that rate. */
  lemma {:induction false} SteadyRateReported(weeks: seq<WeekEntries>, c: Category, today: DayNumber, a: int)
    requires SteadyRate(weeks, c, today, a)
    ensures HistoricalTallyFixed(weeks, c, today).total == a * HistoricalTallyFixed(weeks, c, today).days
    ensures HistoricalTallyFixed(weeks, c, today).days > 0 ==> DailyAverage(HistoricalTallyFixed(weeks, c, today)) == a as real
  {
    SteadyTotal(weeks, c, today, a);
    var t := HistoricalTallyFixed(weeks, c, today);
    if t.days > 0 {
      RateOfProduct(a, t.days);
    }
  }

  lemma {:induction false} SteadyTotal(weeks: seq<WeekEntries>, c: Category, today: DayNumber, a: int)
    requires SteadyRate(weeks, c, today, a)
    ensures HistoricalTallyFixed(weeks, c, today).total == a * HistoricalTallyFixed(weeks, c, today).days
  {
    if |weeks| == 0 {
      assert HistoricalTallyFixed(weeks, c, today) == Tally(0, 0);
    } else {
      SteadyPrefix(weeks, c, today, a);
      SteadyTotal(weeks[..|weeks| - 1], c, today, a);
      SteadyWeek(weeks[|weeks| - 1], c, today, a);
      SteadyStep(weeks, c, today, a);
    }
  }

  /** The fold step keeps the total at rate `a`. */
  lemma SteadyStep(weeks: seq<WeekEntries>, c: Category, today: DayNumber, a: int)
    requires |weeks| > 0
    requires var t' := HistoricalTallyFixed(weeks[..|weeks| - 1], c, today); t'.total == a * t'.days
    requires var w := WeekTallyFixed(weeks[|weeks| - 1], c, today); w.total == a * w.days
    ensures HistoricalTallyFixed(weeks, c, today).total == a * HistoricalTallyFixed(weeks, c, today).days
  {
    var t' := HistoricalTallyFixed(weeks[..|weeks| - 1], c, today);
    var w := WeekTallyFixed(weeks[|weeks| - 1], c, today);
    var t := HistoricalTallyFixed(weeks, c, today);
    FixedLast(weeks, c, today);
    AddRates(a, t'.total, t'.days, w.total, w.days, t.days);
  }

  /** Two amounts at rate `a` add up to an amount at rate `a`. */
  lemma AddRates(a: int, x1: int, y1: int, x2: int, y2: int, y: int)
    requires x1 == a * y1 && x2 == a * y2 && y == y1 + y2
    ensures x1 + x2 == a * y
  {
    Distribute(a, y1, y2);
  }

  /** One step of the corrected fold. */
  lemma FixedLast(weeks: seq<WeekEntries>, c: Category, today: DayNumber)
    requires |weeks| > 0
    ensures var t' := HistoricalTallyFixed(weeks[..|weeks| - 1], c, today);
      var w := WeekTallyFixed(weeks[|weeks| - 1], c, today);
      HistoricalTallyFixed(weeks, c, today) == Tally(t'.total + w.total, t'.days + w.days)
  {
  }

  lemma SteadyPrefix(weeks: seq<WeekEntries>, c: Category, today: DayNumber, a: int)
    requires |weeks| > 0 && SteadyRate(weeks, c, today, a)
    ensures SteadyRate(weeks[..|weeks| - 1], c, today, a)
    ensures var w := weeks[|weeks| - 1];
      Filter(w.entries, InCategory(c)) != [] ==> CategoryMinutes(w, c) == (if w.current then a * CurrentDays(today) else a)
  {
    var weeks' := weeks[..|weeks| - 1];
    forall i | 0 <= i < |weeks'| ensures weeks'[i] == weeks[i] {
    }
  }

  lemma SteadyWeek(w: WeekEntries, c: Category, today: DayNumber, a: int)
    requires Filter(w.entries, InCategory(c)) != [] ==> CategoryMinutes(w, c) == (if w.current then a * CurrentDays(today) else a)
    ensures WeekTallyFixed(w, c, today).total == a * WeekTallyFixed(w, c, today).days
  {
  }

  lemma Distribute(a: int, x: int, y: int)
    ensures a * x + a * y == a * (x + y)
  {
  }

  lemma RateOfProduct(a: int, n: int)
    requires n > 0
    ensures DailyAverage(Tally(a * n, n)) == a as real
  {
    assert (a * n) as real == a as real * n as real;
  }

  /** The corrected tally on the same examples as `HistoricalTallyMiscounts`. */
  lemma HistoricalTallyFixedExamples()
    ensures HistoricalTallyFixed([WeekEntries(false, [("physics", 60)])], Study, 0) == Tally(420, 7)
    ensures HistoricalTallyFixed([WeekEntries(false, [("physics", 60), ("chemistry", 60)])], Study, 0) == Tally(840, 7)
    ensures HistoricalTallyFixed([WeekEntries(true, [("physics", 60)])], Study, 3) == Tally(60, 1)
  {
    assert AnalyticsCategory("physics") == Study;
    assert AnalyticsCategory("chemistry") == Study;
    assert [("physics", 60), ("chemistry", 60)][..1] == [("physics", 60)];
    assert [WeekEntries(false, [("physics", 60)])][..0] == [];
    assert [WeekEntries(true, [("physics", 60)])][..0] == [];
    assert [WeekEntries(false, [("physics", 60), ("chemistry", 60)])][..0] == [];
    assert [("physics", 60)][..0] == [];
  }

  // ---------------------------------------------------------------------
  // The empty state
  // ---------------------------------------------------------------------

  /** The time analysis shows its empty state when there are neither logs nor stored summaries. */
  predicate ShowsEmptyState(logs: seq<LogEntry>, summaries: seq<WeeklySummary>) {
    |logs| == 0 && |summaries| == 0
  }

  /**
   * The empty state is shown exactly when both charts would be empty: no
   * slice and, for every category, nothing in the bar chart.
   */
  lemma EmptyStateMeansNoData(logs: seq<LogEntry>, summaries: seq<WeeklySummary>,
                              pastEntries: seq<seq<(string, int)>>, currentEntries: seq<(string, int)>)
    requires |pastEntries| == |summaries|
    requires forall i :: 0 <= i < |summaries| ==> ListsMap(pastEntries[i], summaries[i].subjectAverages)
    requires ListsMap(currentEntries, Totals(logs, Rollup.SubjectOf, Duration))
    ensures ShowsEmptyState(logs, summaries) ==>
      PieData(logs) == [] && forall c, today :: HistoricalTally(HistoricalWeeks(pastEntries, currentEntries), c, today) == Tally(0, 0)
    ensures !ShowsEmptyState(logs, summaries) ==> |logs| > 0 || |HistoricalWeeks(pastEntries, currentEntries)| > 1
  {
    if ShowsEmptyState(logs, summaries) {
      assert Totals(logs, Rollup.SubjectOf, Duration) == map[];
      NoEntries(currentEntries);
      NothingToTally(pastEntries, currentEntries);
    }
  }

  /** Listing the empty map gives no entries. */
  lemma NoEntries(entries: seq<(string, int)>)
    requires ListsMap(entries, map[])
    ensures entries == []
  {
    FirstListed(entries, map[]);
  }

  /** The first entry of a listing names a key of the map. */
  lemma FirstListed(entries: seq<(string, int)>, m: map<string, int>)
    requires ListsMap(entries, m)
    ensures |entries| == 0 || entries[0].0 in m
  {
    if |entries| > 0 {
      assert entries[0].0 in m;
    }
  }

  /** With no stored week and an empty current week, every category tallies nothing. */
  lemma NothingToTally(pastEntries: seq<seq<(string, int)>>, currentEntries: seq<(string, int)>)
    requires pastEntries == [] && currentEntries == []
    ensures forall c, today :: HistoricalTally(HistoricalWeeks(pastEntries, currentEntries), c, today) == Tally(0, 0)
  {
    var weeks := HistoricalWeeks(pastEntries, currentEntries);
    assert weeks == [WeekEntries(true, [])];
    assert weeks[..0] == [];
  }
}

=== FILE: api_service.dfy ===
/**
 * The decisions of the data service (src/services/apiService.ts): whether
 * the spreadsheet backend is configured, which value a `get…` call yields
 * for each kind of backend answer, and the day rollover of the to-do list.
 * The HTTP exchange itself is abstracted to the answer it produced.
 */
module ApiService {
  import opened Wrappers
  import opened JsMath
  import opened Text
  import opened Seqs
  import opened Types

  /** `isSheetsConfigured()`: a non-empty URL that starts with "https://". */
  function IsSheetsConfigured(url: string): (r: bool)
    ensures r <==> |url| >= 8 && url[..8] == "https://"
  {
    Truthy(url) && StartsWith(url, "https://")
  }

  /** A JavaScript value that may be `null` or `undefined`. */
  datatype Payload<T> = Null | Undefined | Value(value: T)

  /**
   * What the backend answered, as far as `fetchData` looks at it: the fetch
   * threw, the status was not ok, the body was an HTML page, the JSON could
   * not be read, or a JSON object with a `success` flag and a `data` field.
   */
  datatype Response<T> =
    | Unreachable
    | NotOk
    | Html
    | Malformed
    | Answer(success: bool, data: Payload<T>)

  /** A `saveData(action, data)` call. */
  datatype SaveCall<T> = SaveCall(action: string, data: Payload<T>)

  datatype Fetched<T> = Fetched(value: Payload<T>, save: Option<SaveCall<T>>)

  /** `action.replace('get', 'save')`: the first "get" becomes "save". */
  function SaveAction(action: string): string {
    ReplaceFirst(action, "get", "save")
  }

  /**
   * `fetchData(action, mockData)`. The mock data stands in whenever the
   * backend is not configured or anything goes wrong; a successful answer
   * with `null` data initialises the backend from the mock data (unless the
   * mock itself is `null`); any other successful answer is returned.
   */
  function FetchData<T>(configured: bool, action: string, mock: Payload<T>, response: Response<T>): (r: Fetched<T>)
    ensures r.save.Some? ==> configured && response == Answer(true, Null) && mock != Null
    ensures r.save.Some? ==> r.save.value == SaveCall(SaveAction(action), mock)
    ensures r.value != mock ==> configured && response.Answer? && response.success && r.value == response.data
    ensures configured && response.Answer? && response.success && response.data != Null ==> r.value == response.data
    ensures configured && response == Answer(true, Null) ==> r.value == mock
    ensures configured && response == Answer(true, Null) && mock != Null ==> r.save.Some?
  {
    if !configured then Fetched(mock, None)
    else match response
      case Answer(true, data) =>
        if data == Null then
          Fetched(mock, if mock != Null then Some(SaveCall(SaveAction(action), mock)) else None)
        else Fetched(data, None)
      case _ => Fetched(mock, None)
  }

  /**
   * Initialisation settles: once the backend holds what a `null` answer made
   * the client save, the next fetch returns that data and saves nothing.
   */
  lemma FetchAfterInitialisation<T>(action: string, mock: Payload<T>)
    requires mock != Null
    ensures var first := FetchData(true, action, mock, Answer(true, Null));
      first.save.Some?
      && FetchData(true, action, mock, Answer(true, first.save.value.data)) == Fetched(first.value, None)
  {
  }

  /** Every `get…` action of the service is renamed to its `save…` twin. */
  lemma SaveActionOfGet(rest: string)
    ensures SaveAction("get" + rest) == "save" + rest
  {
    var s := "get" + rest;
    assert OccursAt(s, "get", 0) by { assert s[0..3] == "get"; }
    assert s[3..] == rest;
  }

  /** The rename used when the log list is initialised: getLogs becomes saveLogs. */
  lemma SaveLogsAction()
    ensures SaveAction("getLogs") == "saveLogs"
  {
    SaveActionOf("getLogs", "Logs", "saveLogs");
  }

  /** `SaveActionOfGet` for an action spelled out in full. */
  lemma SaveActionOf(action: string, rest: string, saved: string)
    requires action == "get" + rest && saved == "save" + rest
    ensures SaveAction(action) == saved
  {
    SaveActionOfGet(rest);
  }

  /** `item => !item.done`. */
  function NotDone(item: TodoItem): bool {
    !item.done
  }

  /** The day the app starts with, and whether it was saved as a new day. */
  datatype TodayTodos = TodayTodos(day: Day, saved: bool)

  /**
   * `getTodayTodos`, given today's date and what `fetchData('getTodayTodos',
   * null)` yielded: today's saved record is returned untouched; anything
   * else starts a new day for today that carries over exactly the previous
   * day's unfinished items, and saves it.
   */
  function GetTodayTodos(today: DayNumber, previous: Payload<Day>): (r: TodayTodos)
    ensures previous.Value? && previous.value.date == today ==> r == TodayTodos(previous.value, false)
    ensures !(previous.Value? && previous.value.date == today) ==>
      r.saved && r.day.date == today
      && (forall i :: 0 <= i < |r.day.items| ==> !r.day.items[i].done)
      && (previous.Value? ==>
            |r.day.items| <= |previous.value.items|
            && forall item :: item in r.day.items <==> item in previous.value.items && !item.done)
      && (!previous.Value? ==> r.day.items == [])
  {
    if previous.Value? && previous.value.date == today then TodayTodos(previous.value, false)
    else
      var unfinished := if previous.Value? then Filter(previous.value.items, NotDone) else [];
      assert forall i :: 0 <= i < |unfinished| ==> unfinished[i] in unfinished;
      TodayTodos(Day(today, unfinished), true)
  }

  /**
   * The carried-over items are the previous list with the ticked items
   * removed: ticked items are dropped, and the unfinished ones keep their
   * relative order.
   */
  lemma RolloverDropsTicked(today: DayNumber, previous: Day, extra: TodoItem)
    requires previous.date != today
    ensures GetTodayTodos(today, Value(Day(previous.date, previous.items + [extra]))).day.items
      == GetTodayTodos(today, Value(previous)).day.items + (if extra.done then [] else [extra])
  {
    var items := previous.items + [extra];
    assert items[..|items| - 1] == previous.items;
  }

  /** A freshly rolled-over day satisfies the central invariant whatever the logs. */
  lemma RolloverConsistent(today: DayNumber, previous: Payload<Day>, logs: seq<LogEntry>)
    requires GetTodayTodos(today, previous).saved
    ensures Consistent(GetTodayTodos(today, previous).day, logs)
  {
  }

  /** Loading again on the same day returns the day that was saved, and saves nothing. */
  lemma RolloverSettles(today: DayNumber, previous: Payload<Day>)
    ensures var first := GetTodayTodos(today, previous);
      GetTodayTodos(today, Value(first.day)) == TodayTodos(first.day, false)
  {
  }
}

=== FILE: calendar.dfy ===
/**
 * The calendar of the planner: weekdays and week starts over day numbers
 * (App.tsx `getStartOfWeek`), the proleptic Gregorian month lengths and day
 * numbers behind `new Date(year, month, day)`, the "YYYY-MM-DD" day keys of
 * the history calendar, and "HH:MM" times of day.
 */
module Calendar {
  import opened Wrappers
  import opened Text

  const MinutesPerDay := 1440

  /** `Date.getDay()`: 0 for Sunday through 6 for Saturday; day 0 (1970-01-01) was a Thursday. */
  function Weekday(d: int): (w: int)
    ensures 0 <= w < 7
  {
    (d + 4) % 7
  }

  /** A local moment: a day number and the minutes since that day's midnight. */
  datatype DateTime = DateTime(day: int, minute: int) {
    predicate Valid() {
      0 <= minute < MinutesPerDay
    }

    /** `a.getTime() < b.getTime()`. */
    predicate Before(other: DateTime) {
      day < other.day || (day == other.day && minute < other.minute)
    }
  }

  /**
   * `getStartOfWeek`: the Sunday on or before the given moment, at midnight.
   */
  function StartOfWeek(t: DateTime): (r: DateTime)
    ensures r.Valid() && r.minute == 0
    ensures Weekday(r.day) == 0
    ensures r.day <= t.day < r.day + 7
  {
    DateTime(t.day - Weekday(t.day), 0)
  }

  /** The week start of a calendar day (a day taken at midnight). */
  function WeekStartOfDay(d: int): (s: int)
    ensures Weekday(s) == 0 && s <= d < s + 7
  {
    StartOfWeek(DateTime(d, 0)).day
  }

  /** A Sunday is its own week start. */
  lemma {:induction false} StartOfSunday(d: int)
    requires Weekday(d) == 0
    ensures StartOfWeek(DateTime(d, 0)) == DateTime(d, 0)
  {
  }

  /** `getStartOfWeek(getStartOfWeek(t)) == getStartOfWeek(t)`. */
  lemma StartOfWeekIdempotent(t: DateTime)
    ensures StartOfWeek(StartOfWeek(t)) == StartOfWeek(t)
  {
    StartOfSunday(StartOfWeek(t).day);
  }

  /** Any two moments in the same Sunday-to-Saturday span have the same week start. */
  lemma SameWeekSameStart(a: DateTime, b: DateTime)
    requires StartOfWeek(a).day <= b.day < StartOfWeek(a).day + 7
    ensures StartOfWeek(b) == StartOfWeek(a)
  {
    var s := StartOfWeek(a).day;
    assert Weekday(b.day) == b.day - s by {
      assert (s + 4) % 7 == 0;
      assert b.day + 4 == (s + 4) + (b.day - s);
    }
  }

  /** The week start never moves backwards when the day moves forwards. */
  lemma WeekStartMonotone(a: int, b: int)
    requires a <= b
    ensures WeekStartOfDay(a) <= WeekStartOfDay(b)
  {
    var sa, sb := WeekStartOfDay(a), WeekStartOfDay(b);
    // Both are Sundays, so if sb < sa they would be at least seven days apart,
    // and then b < sb + 7 <= sa <= a.
  }

  // ---------------------------------------------------------------------
  // Civil dates (proleptic Gregorian), as `new Date(year, monthIndex, day)`
  // counts them; months here are 1..12.
  // ---------------------------------------------------------------------

  predicate IsLeapYear(y: int) {
    y % 4 == 0 && (y % 100 != 0 || y % 400 == 0)
  }

  /** `new Date(y, m, 0).getDate()` for a 1-based month `m`: the month's length. */
  function DaysInMonth(y: int, m: int): (n: int)
    requires 1 <= m <= 12
    ensures 28 <= n <= 31
    ensures n == 29 <==> m == 2 && IsLeapYear(y)
  {
    if m == 2 then (if IsLeapYear(y) then 29 else 28)
    else if m == 4 || m == 6 || m == 9 || m == 11 then 30
    else 31
  }

  /** Days in the months of year `y` before month `m`. */
  function DaysBeforeMonth(y: int, m: int): int
    requires 1 <= m <= 12
  {
    [0, 31, 59, 90, 120, 151, 181, 212, 243, 273, 304, 334][m - 1]
      + (if m > 2 && IsLeapYear(y) then 1 else 0)
  }

  /** Leap days in the years 1 .. y-1 (floor division, also for years before 1). */
  function LeapDaysBefore(y: int): int {
    (y - 1) / 4 - (y - 1) / 100 + (y - 1) / 400
  }

  /** The day number of January 1st of year `y`. */
  function DaysBeforeYear(y: int): int {
    365 * (y - 1970) + LeapDaysBefore(y) - LeapDaysBefore(1970)
  }

  /** The day number of the civil date y-m-d. */
  function DayNumberOf(y: int, m: int, d: int): int
    requires 1 <= m <= 12
  {
    DaysBeforeYear(y) + DaysBeforeMonth(y, m) + d - 1
  }

  /** 1970-01-01 is day 0 and a Thursday. */
  lemma Epoch()
    ensures DayNumberOf(1970, 1, 1) == 0
    ensures Weekday(0) == 4
  {
  }

  /** Consecutive days of a month have consecutive day numbers. */
  lemma NextDay(y: int, m: int, d: int)
    requires 1 <= m <= 12
    ensures DayNumberOf(y, m, d + 1) == DayNumberOf(y, m, d) + 1
  {
  }

  /** The first of the next month follows the last day of this one. */
  lemma NextMonth(y: int, m: int)
    requires 1 <= m < 12
    ensures DayNumberOf(y, m + 1, 1) == DayNumberOf(y, m, DaysInMonth(y, m)) + 1
  {
  }

  /** January 1st follows December 31st: a year has 365 days plus its leap day. */
  lemma NextYear(y: int)
    ensures DayNumberOf(y + 1, 1, 1) == DayNumberOf(y, 12, 31) + 1
  {
    LeapStep(y);
    assert DaysBeforeYear(y + 1) - DaysBeforeYear(y) == 365 + (if IsLeapYear(y) then 1 else 0);
  }

  /** Passing year `y` adds one leap day exactly when `y` is a leap year. */
  lemma LeapStep(y: int)
    ensures LeapDaysBefore(y + 1) - LeapDaysBefore(y) == if IsLeapYear(y) then 1 else 0
  {
    FloorStep(y - 1, 4);
    FloorStep(y - 1, 100);
    FloorStep(y - 1, 400);
    MultipleOf(y, 4, 25);
    MultipleOf(y, 100, 4);
  }

  /** A multiple of `a * b` is a multiple of `a`. */
  lemma MultipleOf(y: int, a: int, b: int)
    requires a > 0 && b > 0
    ensures y % (a * b) == 0 ==> y % a == 0
  {
    if y % (a * b) == 0 {
      var q := y / (a * b);
      assert y == a * (b * q) + 0;
      DivUnique(y, a, b * q, 0);
    }
  }

  /** `(x + 1) / k - x / k` is 1 exactly when k divides x + 1. */
  lemma FloorStep(x: int, k: int)
    requires k > 0
    ensures (x + 1) / k - x / k == if (x + 1) % k == 0 then 1 else 0
  {
    var q, r := x / k, x % k;
    assert x == k * q + r && 0 <= r < k;
    if r == k - 1 {
      assert x + 1 == k * (q + 1) + 0;
      DivUnique(x + 1, k, q + 1, 0);
    } else {
      assert x + 1 == k * q + (r + 1);
      DivUnique(x + 1, k, q, r + 1);
    }
  }

  lemma DivUnique(a: int, k: int, q: int, r: int)
    requires k > 0 && a == k * q + r && 0 <= r < k
    ensures a / k == q && a % k == r
  {
    var q', r' := a / k, a % k;
    assert a == k * q' + r' && 0 <= r' < k;
    assert k * (q - q') == r' - r;
    if q > q' {
      MulAtLeast(k, q - q');
    } else if q < q' {
      MulAtLeast(k, q' - q);
    }
  }

  lemma MulAtLeast(k: int, t: int)
    requires k > 0 && t >= 1
    ensures k * t >= k
  {
  }

  // ---------------------------------------------------------------------
  // Day keys: `${year}-${String(month).padStart(2,'0')}-${String(day).padStart(2,'0')}`.
  // ---------------------------------------------------------------------

  /** The history calendar's key for y-m-d (month 1-based). */
  function DateKey(y: nat, m: nat, d: nat): string {
    NatToString(y) + "-" + Pad2(m) + "-" + Pad2(d)
  }

  /** The "YYYY-MM-DD" shape of `LogEntry.date`. */
  predicate IsIsoDate(s: string) {
    |s| == 10 && s[4] == '-' && s[7] == '-'
    && AllDigits(s[..4]) && AllDigits(s[5..7]) && AllDigits(s[8..])
  }

  datatype CivilDate = CivilDate(year: nat, month: nat, day: nat)

  /** Reads a "YYYY-MM-DD" text back into its fields. */
  function ParseIsoDate(s: string): CivilDate
    requires IsIsoDate(s)
  {
    CivilDate(ParseDigits(s[..4]), ParseDigits(s[5..7]), ParseDigits(s[8..]))
  }

  /**
   * For four-digit years the key has the "YYYY-MM-DD" shape of
   * `LogEntry.date`, and reading it back gives the same year, month and day,
   * so distinct calendar cells have distinct keys.
   */
  lemma DateKeyRoundTrip(y: nat, m: nat, d: nat)
    requires 1000 <= y <= 9999 && 1 <= m <= 12 && 1 <= d <= 31
    ensures IsIsoDate(DateKey(y, m, d))
    ensures ParseIsoDate(DateKey(y, m, d)) == CivilDate(y, m, d)
  {
    var ys := NatToString(y);
    assert |ys| == 4 by { NatToStringLength4(y); }
    var s := DateKey(y, m, d);
    assert s == ys + "-" + Pad2(m) + "-" + Pad2(d);
    assert s[..4] == ys;
    assert s[5..7] == Pad2(m);
    assert s[8..] == Pad2(d);
    ParseNatToString(y);
    ParsePad2(m);
    ParsePad2(d);
  }

  lemma NatToStringLength4(y: nat)
    requires 1000 <= y <= 9999
    ensures |NatToString(y)| == 4
  {
    assert |NatToString(y / 1000)| == 1;
    assert |NatToString(y / 100)| == 2;
    assert |NatToString(y / 10)| == 3;
  }

  // ---------------------------------------------------------------------
  // Times of day, as `<input type="time">` produces them.
  // ---------------------------------------------------------------------

  /** A valid "HH:MM" text (00:00 .. 23:59). */
  predicate IsClockText(s: string) {
    |s| == 5 && s[2] == ':' && AllDigits(s[..2]) && AllDigits(s[3..])
    && ParseDigits(s[..2]) < 24 && ParseDigits(s[3..]) < 60
  }

  /** Minutes since midnight of an "HH:MM" text, as `new Date('1970-01-01T' + s)` reads it. */
  function ClockMinutes(s: string): (t: int)
    requires IsClockText(s)
    ensures 0 <= t < MinutesPerDay
  {
    60 * ParseDigits(s[..2]) + ParseDigits(s[3..])
  }

  /** `date.toTimeString().slice(0, 5)` for a minute of the day. */
  function ClockText(t: int): (s: string)
    requires 0 <= t < MinutesPerDay
  {
    Pad2(t / 60) + ":" + Pad2(t % 60)
  }

  /** Formatting a minute of the day gives a valid time that reads back as the same minute. */
  lemma ClockTextRoundTrip(t: int)
    requires 0 <= t < MinutesPerDay
    ensures IsClockText(ClockText(t))
    ensures ClockMinutes(ClockText(t)) == t
  {
    var s := ClockText(t);
    assert s[..2] == Pad2(t / 60);
    assert s[3..] == Pad2(t % 60);
    ParsePad2(t / 60);
    ParsePad2(t % 60);
  }

  /** Reading then formatting a valid time gives back the same text. */
  lemma ClockMinutesRoundTrip(s: string)
    requires IsClockText(s)
    ensures ClockText(ClockMinutes(s)) == s
  {
    var h, m := ParseDigits(s[..2]), ParseDigits(s[3..]);
    DivUnique(60 * h + m, 60, h, m);
    TwoDigits(s[..2]);
    TwoDigits(s[3..]);
  }

  /** A two-digit text is the zero-padded rendering of its value. */
  lemma TwoDigits(s: string)
    requires |s| == 2 && AllDigits(s)
    ensures Pad2(ParseDigits(s)) == s
  {
    var a, b := DigitValue(s[0]), DigitValue(s[1]);
    ParseTwo(s);
    var n := ParseDigits(s);
    assert s == [DigitChar(a)] + [DigitChar(b)];
    if a == 0 {
      assert Pad2(n) == "0" + [DigitChar(b)];
    } else {
      DivUnique(n, 10, a, b);
      assert NatToString(n) == NatToString(a) + [DigitChar(b)];
    }
  }

  /** The value of a two-digit text. */
  lemma ParseTwo(s: string)
    requires |s| == 2 && AllDigits(s)
    ensures ParseDigits(s) == 10 * DigitValue(s[0]) + DigitValue(s[1])
  {
    var first := s[..1];
    assert s[..|s| - 1] == first && s[|s| - 1] == s[1];
    assert first[..0] == [] && first[0] == s[0];
    assert ParseDigits(first) == DigitValue(s[0]);
  }
}

=== FILE: categories.dfy ===
/**
 * The four activity categories the log views file time under, and the two
 * slightly different ways the log book (src/pages/LogBookPage.tsx) and the
 * analytics page (pages/AnalyticsPage.tsx) map a subject id to one.
 */
module Categories {
  import opened Types

  datatype Category = Study | Exercise | Entertainment | Personal

  /** The key a category is stored under. */
  function Name(c: Category): string {
    match c
    case Study => "study"
    case Exercise => "exercise"
    case Entertainment => "entertainment"
    case Personal => "personal"
  }

  /** The display order study, exercise, entertainment, personal. */
  const Order: seq<Category> := [Study, Exercise, Entertainment, Personal]

  /** `order.indexOf(c)`. */
  function Rank(c: Category): (r: int)
    ensures 0 <= r < |Order| && Order[r] == c
  {
    match c
    case Study => 0
    case Exercise => 1
    case Entertainment => 2
    case Personal => 3
  }

  /**
   * The log book's rule: an examined subject is study time; the exercise,
   * entertainment and personal subjects are their own category; anything
   * else is personal.
   */
  function LogBookCategory(subjectId: string): (c: Category)
    ensures c == Study <==> subjectId in AcademicIds
    ensures c == Exercise <==> subjectId == "exercise"
    ensures c == Entertainment <==> subjectId == "entertainment"
    ensures c == Personal <==> subjectId !in AcademicIds && subjectId != "exercise" && subjectId != "entertainment"
  {
    if subjectId in AcademicIds then Study
    else if subjectId == "exercise" then Exercise
    else if subjectId == "entertainment" then Entertainment
    else Personal
  }

  /**
   * The analytics page's rule: an examined subject is study time; an id
   * that is itself a category key (or the empty id, read as "personal")
   * is that category; anything else is personal.
   */
  function AnalyticsCategory(subjectId: string): (c: Category)
    ensures subjectId in AcademicIds ==> c == Study
    ensures subjectId !in AcademicIds ==> (Name(c) == subjectId || (c == Personal && subjectId !in ["study", "exercise", "entertainment"]))
  {
    if subjectId in AcademicIds then Study
    else
      var key := if |subjectId| > 0 then subjectId else "personal";
      if key == "study" then Study
      else if key == "exercise" then Exercise
      else if key == "entertainment" then Entertainment
      else Personal
  }

  /**
   * The two rules agree on every subject id except the literal id
   * "study", which the analytics page counts as study time and the log
   * book as personal time.
   */
  lemma CategoriesAgree(subjectId: string)
    ensures subjectId != "study" ==> AnalyticsCategory(subjectId) == LogBookCategory(subjectId)
    ensures AnalyticsCategory("study") == Study && LogBookCategory("study") == Personal
  {
    assert "study" !in AcademicIds;
  }

  /** `log => category(log.subjectId)` for the log book. */
  function LogBookCategoryOf(log: LogEntry): Category {
    LogBookCategory(log.subjectId)
  }

  /** `log => category(log.subjectId)` for the analytics page. */
  function AnalyticsCategoryOf(log: LogEntry): Category {
    AnalyticsCategory(log.subjectId)
  }
}

=== FILE: circular_progress.dfy ===
/**
 * The colour of the circular unit-progress ring
 * (src/components/CircularProgress.tsx), which the unit side panel draws
 * for a unit's checklist percentage.
 */
module CircularProgress {
  import opened Types
  import opened Progress

  /** `getColor()`: green only at exactly 100, then red, orange, amber and yellow by threshold. */
  function RingColor(percent: int): (c: string)
    ensures percent == 100 <==> c == "text-green-500"
    ensures percent > 100 ==> c == "text-yellow-400"
    ensures c in ["text-green-500", "text-red-500", "text-orange-500", "text-amber-500", "text-yellow-400"]
  {
    if percent == 100 then "text-green-500"
    else if percent < 15 then "text-red-500"
    else if percent < 30 then "text-orange-500"
    else if percent < 50 then "text-amber-500"
    else "text-yellow-400"
  }

  /** The colours from least to most done. */
  function Warmth(c: string): int {
    if c == "text-red-500" then 0
    else if c == "text-orange-500" then 1
    else if c == "text-amber-500" then 2
    else if c == "text-yellow-400" then 3
    else 4
  }

  /**
   * Up to 100 the colour never goes back as the percentage grows, and it
   * changes exactly where a band starts: at 15, 30, 50 and 100.
   */
  lemma RingColorBands(a: int, b: int)
    requires a <= b <= 100
    ensures Warmth(RingColor(a)) <= Warmth(RingColor(b))
    ensures Warmth(RingColor(a)) < Warmth(RingColor(b)) <==>
      (a < 15 <= b) || (a < 30 <= b) || (a < 50 <= b) || (a < 100 == b)
  {
  }

  /**
   * A unit whose flags are all ticked, or that tracks none, shows a green
   * ring; a unit that tracks flags and has none ticked shows a red one.
   */
  lemma UnitRingColor(u: Unit)
    ensures UnitTicked(u) == UnitTracked(u) ==> RingColor(UnitProgress(u)) == "text-green-500"
    ensures UnitTracked(u) > 0 && UnitTicked(u) == 0 ==> RingColor(UnitProgress(u)) == "text-red-500"
    ensures RingColor(UnitProgress(u)) == "text-green-500" <==> UnitProgress(u) == 100
  {
  }
}

=== FILE: cms.dfy ===
/**
 * The content editor (src/pages/CmsPage.tsx): adding units and subunits
 * to the managed syllabus, changing a unit's status, and adding and
 * deleting test results and weekly classes. Each edit either leaves the
 * data alone (`None`: the handler returns before calling its change
 * callback) or yields the new list (`Some`). The `Date.now()` part of a
 * new id is the parameter `stamp`.
 */
module Cms {
  import opened Wrappers
  import opened JsMath
  import opened Seqs
  import opened Types
  import opened Progress
  import opened SyllabusEdits

  /** The two name fields of the unit and subunit forms; an untouched field reads as "". */
  datatype NameForm = NameForm(english: string, sinhala: string)

  /** Both names are filled in. */
  predicate Filled(form: NameForm) {
    Truthy(form.english) && Truthy(form.sinhala)
  }

  /** The editor's syllabus test: the selected id, or 'combined' when 'combined' is selected. */
  function Manages(selected: string): Syllabus -> bool {
    (s: Syllabus) => s.subjectId == selected || (selected == "combined" && s.subjectId == "combined")
  }

  /** `currentSyllabus` of the editor. */
  function ManagedSyllabus(syllabi: seq<Syllabus>, selected: string): Option<Syllabus> {
    First(syllabi, Manages(selected))
  }

  /** The editor's extra 'combined' case is already covered: it manages exactly the selected subject's syllabus. */
  lemma ManagedIsSelected(syllabi: seq<Syllabus>, selected: string)
    ensures ManagedSyllabus(syllabi, selected) == SyllabusOf(syllabi, selected)
  {
    FirstSame(syllabi, Manages(selected), ForSubject(selected));
  }

  // ---------------------------------------------------------------------
  // Units
  // ---------------------------------------------------------------------

  /** The unit `handleAddUnit` creates: not started, with no subunits. */
  function NewUnit(subjectId: string, form: NameForm, stamp: string): Unit {
    Unit(subjectId + "-u" + stamp, form.english, form.sinhala, [], Some(NotStarted))
  }

  /** `units => [...units, unit]`. */
  function Append(u: Unit): seq<Unit> -> seq<Unit> {
    (us: seq<Unit>) => us + [u]
  }

  /**
   * `handleAddUnit`: with both names filled in and a managed syllabus,
   * every syllabus of that subject gets the new unit at its end.
   */
  function AddUnit(syllabi: seq<Syllabus>, selected: string, form: NameForm, stamp: string): (r: Option<seq<Syllabus>>)
    ensures r.Some? <==> Filled(form) && ManagedSyllabus(syllabi, selected).Some?
  {
    var current := ManagedSyllabus(syllabi, selected);
    if !Truthy(form.english) || !Truthy(form.sinhala) || current.None? then None
    else Some(EditSyllabi(syllabi, current.value.subjectId, Append(NewUnit(current.value.subjectId, form, stamp))))
  }

  /**
   * A new unit goes at the end of the managed subject's syllabi and nowhere
   * else, is not started, has no subunits and is named from the form.
   */
  lemma AddUnitSpec(syllabi: seq<Syllabus>, selected: string, form: NameForm, stamp: string)
    requires AddUnit(syllabi, selected, form, stamp).Some?
    ensures var r := AddUnit(syllabi, selected, form, stamp).value;
      var id := ManagedSyllabus(syllabi, selected).value.subjectId;
      && id == selected
      && |r| == |syllabi|
      && forall i :: 0 <= i < |r| ==>
           && r[i].subjectId == syllabi[i].subjectId
           && (syllabi[i].subjectId != id ==> r[i] == syllabi[i])
           && (syllabi[i].subjectId == id ==>
                 var us := r[i].units;
                 && |us| == |syllabi[i].units| + 1
                 && us[..|us| - 1] == syllabi[i].units
                 && us[|us| - 1].name == form.english && us[|us| - 1].sinhalaName == form.sinhala
                 && us[|us| - 1].status == Some(NotStarted) && us[|us| - 1].subunits == []
                 && us[|us| - 1].id == id + "-u" + stamp)
  {
    var r := AddUnit(syllabi, selected, form, stamp).value;
    var id := ManagedSyllabus(syllabi, selected).value.subjectId;
    ManagedIsSelected(syllabi, selected);
    var u := NewUnit(id, form, stamp);
    forall i | 0 <= i < |r| && syllabi[i].subjectId == id ensures r[i].units == syllabi[i].units + [u] {
    }
  }

  /** A new unit tracks no flags, so no syllabus's overall progress moves. */
  lemma AddUnitKeepsProgress(syllabi: seq<Syllabus>, selected: string, form: NameForm, stamp: string)
    requires AddUnit(syllabi, selected, form, stamp).Some?
    ensures var r := AddUnit(syllabi, selected, form, stamp).value;
      forall i :: 0 <= i < |r| ==> OverallProgress(Some(r[i])) == OverallProgress(Some(syllabi[i]))
  {
    var r := AddUnit(syllabi, selected, form, stamp).value;
    var id := ManagedSyllabus(syllabi, selected).value.subjectId;
    var u := NewUnit(id, form, stamp);
    forall i | 0 <= i < |r| ensures OverallProgress(Some(r[i])) == OverallProgress(Some(syllabi[i])) {
      if syllabi[i].subjectId == id {
        assert r[i] == syllabi[i].(units := syllabi[i].units + [u]);
        AppendEmptyUnit(syllabi[i], u);
      }
    }
  }

  /** A unit without subunits adds nothing to a syllabus's counts. */
  lemma AppendEmptyUnit(s: Syllabus, u: Unit)
    requires u.subunits == []
    ensures SyllabusTracked(s.(units := s.units + [u])) == SyllabusTracked(s)
    ensures SyllabusTicked(s.(units := s.units + [u])) == SyllabusTicked(s)
  {
    var us := s.units + [u];
    assert us[..|us| - 1] == s.units;
  }

  /** `units.map(u => u.id === unitId ? { ...u, status } : u)`. */
  function SetStatus(unitId: string, status: UnitStatus): seq<Unit> -> seq<Unit> {
    (us: seq<Unit>) => seq(|us|, j requires 0 <= j < |us| => if us[j].id == unitId then us[j].(status := Some(status)) else us[j])
  }

  /** `handleStatusChange(unitId, status)`: the status picked in the unit's drop-down. */
  function StatusChange(syllabi: seq<Syllabus>, selected: string, unitId: string, status: UnitStatus): (r: Option<seq<Syllabus>>)
    ensures r.Some? <==> ManagedSyllabus(syllabi, selected).Some?
  {
    var current := ManagedSyllabus(syllabi, selected);
    if current.None? then None
    else Some(EditSyllabi(syllabi, current.value.subjectId, SetStatus(unitId, status)))
  }

  /**
   * Only the status of the chosen unit of the managed subject changes:
   * syllabi, units and subunits keep their places and contents.
   */
  lemma StatusChangeSpec(syllabi: seq<Syllabus>, selected: string, unitId: string, status: UnitStatus)
    requires StatusChange(syllabi, selected, unitId, status).Some?
    ensures var r := StatusChange(syllabi, selected, unitId, status).value;
      && |r| == |syllabi|
      && (forall i :: 0 <= i < |r| ==> r[i] == syllabi[i].(units := r[i].units) && |r[i].units| == |syllabi[i].units|)
      && forall i, j :: 0 <= i < |r| && 0 <= j < |r[i].units| ==>
           r[i].units[j] ==
             if syllabi[i].subjectId == selected && syllabi[i].units[j].id == unitId
             then syllabi[i].units[j].(status := Some(status)) else syllabi[i].units[j]
  {
    var r := StatusChange(syllabi, selected, unitId, status).value;
    ManagedIsSelected(syllabi, selected);
    forall i | 0 <= i < |r| && syllabi[i].subjectId == selected
      ensures r[i].units == SetStatus(unitId, status)(syllabi[i].units)
    {
    }
  }

  /** A status change moves no syllabus's overall progress: only subunit flags count. */
  lemma StatusChangeKeepsProgress(syllabi: seq<Syllabus>, selected: string, unitId: string, status: UnitStatus)
    requires StatusChange(syllabi, selected, unitId, status).Some?
    ensures var r := StatusChange(syllabi, selected, unitId, status).value;
      forall i :: 0 <= i < |r| ==> OverallProgress(Some(r[i])) == OverallProgress(Some(syllabi[i]))
  {
    var r := StatusChange(syllabi, selected, unitId, status).value;
    StatusChangeSpec(syllabi, selected, unitId, status);
    forall i | 0 <= i < |r| ensures OverallProgress(Some(r[i])) == OverallProgress(Some(syllabi[i])) {
      SameSubunits(syllabi[i], r[i]);
    }
  }

  /** Two syllabi whose units hold the same subunits, one for one, have the same counts. */
  lemma SameSubunits(s: Syllabus, s': Syllabus)
    requires |s'.units| == |s.units|
    requires forall j :: 0 <= j < |s.units| ==> s'.units[j].subunits == s.units[j].subunits
    ensures SyllabusTracked(s') == SyllabusTracked(s) && SyllabusTicked(s') == SyllabusTicked(s)
  {
    var us, us' := s.units, s'.units;
    SumPointwise(us, UnitTracked, us', UnitTracked);
    SumPointwise(us', UnitTracked, us, UnitTracked);
    SumPointwise(us, UnitTicked, us', UnitTicked);
    SumPointwise(us', UnitTicked, us, UnitTicked);
  }

  // ---------------------------------------------------------------------
  // Subunits
  // ---------------------------------------------------------------------

  /**
   * The subunit `handleAddSubunit` creates: a chemistry subunit tracks only
   * its past papers, any other subunit its tutorial and its past papers;
   * both start unticked.
   */
  function NewSubunit(subjectId: string, unitId: string, form: NameForm, stamp: string): (s: Subunit)
    ensures subjectId == "chemistry" ==> Checkboxes(s) == [PastDone]
    ensures subjectId != "chemistry" ==> Checkboxes(s) == [TuteDone, PastDone]
    ensures Ticked(s) == 0 && !AllDone(subjectId, s)
    ensures subjectId == "chemistry" ==> s.tuteDone.None?
  {
    if subjectId == "chemistry" then Subunit(unitId + "-su" + stamp, form.english, form.sinhala, None, Some(false))
    else Subunit(unitId + "-su" + stamp, form.english, form.sinhala, Some(false), Some(false))
  }

  /** The unit list after appending `s` to the units with id `unitId`. */
  function AppendSubunit(unitId: string, s: Subunit): seq<Unit> -> seq<Unit> {
    (us: seq<Unit>) => EditUnits(us, unitId, (ss: seq<Subunit>) => ss + [s])
  }

  /**
   * `handleAddSubunit(unitId)`: with the unit's form present and both names
   * filled in, and a managed syllabus, the new subunit goes at the end of
   * every unit with that id in that subject's syllabi.
   */
  function AddSubunit(syllabi: seq<Syllabus>, selected: string, unitId: string, forms: map<string, NameForm>, stamp: string): (r: Option<seq<Syllabus>>)
    ensures r.Some? <==> unitId in forms && Filled(forms[unitId]) && ManagedSyllabus(syllabi, selected).Some?
  {
    var current := ManagedSyllabus(syllabi, selected);
    if unitId !in forms || !Truthy(forms[unitId].english) || !Truthy(forms[unitId].sinhala) || current.None? then None
    else
      var id := current.value.subjectId;
      Some(EditSyllabi(syllabi, id, AppendSubunit(unitId, NewSubunit(id, unitId, forms[unitId], stamp))))
  }

  /**
   * A new subunit goes at the end of the chosen unit of the managed subject
   * and nowhere else; it adds its tracked flags to the unit and no ticked
   * one, so the unit's percentage never rises.
   */
  lemma AddSubunitSpec(syllabi: seq<Syllabus>, selected: string, unitId: string, forms: map<string, NameForm>, stamp: string)
    requires AddSubunit(syllabi, selected, unitId, forms, stamp).Some?
    ensures var r := AddSubunit(syllabi, selected, unitId, forms, stamp).value;
      var s := NewSubunit(selected, unitId, forms[unitId], stamp);
      && |r| == |syllabi|
      && (forall i :: 0 <= i < |r| ==> r[i] == syllabi[i].(units := r[i].units) && |r[i].units| == |syllabi[i].units|)
      && forall i, j :: 0 <= i < |r| && 0 <= j < |r[i].units| ==>
           var u, u' := syllabi[i].units[j], r[i].units[j];
           if syllabi[i].subjectId == selected && u.id == unitId then
             && u' == u.(subunits := u.subunits + [s])
             && UnitTracked(u') == UnitTracked(u) + Tracked(s)
             && UnitTicked(u') == UnitTicked(u)
             && UnitProgress(u') <= UnitProgress(u)
           else u' == u
  {
    var r := AddSubunit(syllabi, selected, unitId, forms, stamp).value;
    var s := NewSubunit(selected, unitId, forms[unitId], stamp);
    ManagedIsSelected(syllabi, selected);
    forall i | 0 <= i < |r| && syllabi[i].subjectId == selected
      ensures r[i].units == AppendSubunit(unitId, s)(syllabi[i].units)
    {
    }
    forall i, j | 0 <= i < |r| && 0 <= j < |r[i].units| && syllabi[i].subjectId == selected && syllabi[i].units[j].id == unitId
      ensures r[i].units[j] == syllabi[i].units[j].(subunits := syllabi[i].units[j].subunits + [s])
    {
    }
    forall i, j | 0 <= i < |r| && 0 <= j < |r[i].units| && syllabi[i].subjectId == selected && syllabi[i].units[j].id == unitId
      ensures UnitTracked(r[i].units[j]) == UnitTracked(syllabi[i].units[j]) + Tracked(s)
      ensures UnitTicked(r[i].units[j]) == UnitTicked(syllabi[i].units[j])
      ensures UnitProgress(r[i].units[j]) <= UnitProgress(syllabi[i].units[j])
    {
      AppendUntickedSubunit(syllabi[i].units[j], s);
    }
  }

  /** An unticked subunit adds its tracked flags to a unit and never raises its percentage. */
  lemma AppendUntickedSubunit(u: Unit, s: Subunit)
    requires Ticked(s) == 0 && Tracked(s) > 0
    ensures var u' := u.(subunits := u.subunits + [s]);
      && UnitTracked(u') == UnitTracked(u) + Tracked(s)
      && UnitTicked(u') == UnitTicked(u)
      && UnitProgress(u') <= UnitProgress(u)
  {
    var u' := u.(subunits := u.subunits + [s]);
    assert u'.subunits[..|u'.subunits| - 1] == u.subunits;
    UnitCounts(u);
    var t, c := UnitTracked(u), UnitTicked(u);
    if t > 0 {
      ShareShrinks(c, t, t + Tracked(s));
    }
  }

  /** Spreading the same ticked count over more tracked flags never rounds to a larger percentage. */
  lemma ShareShrinks(c: int, t: int, t': int)
    requires 0 <= c && 0 < t <= t'
    ensures RoundDiv(100 * c, t') <= RoundDiv(100 * c, t)
  {
    var p, p' := RoundDiv(100 * c, t), RoundDiv(100 * c, t');
    var k := 2 * p' - 1;
    if k >= 0 {
      MulNonNegative(t' - t, k);
      assert t * k <= 200 * c;
      var d := 2 * p + 1 - k;
      assert t * d > 0;
      MulSign(t, d);
    } else if p <= -2 {
      MulSign(2 * t, p + 1);
    }
  }

  lemma MulNonNegative(a: int, b: int)
    requires a >= 0 && b >= 0
    ensures a * b >= 0
  {
  }

  // ---------------------------------------------------------------------
  // Tests and classes
  // ---------------------------------------------------------------------

  /**
   * The test form. A number field reads as "" until something numeric is
   * typed, so an empty score or total is `None`, and a filled one its value.
   */
  datatype TestForm = TestForm(name: string, subjectId: string, date: string, score: Option<int>, total: Option<int>)

  /** `handleAddTest`: name, date, score and total must all be filled in. */
  function AddTest(tests: seq<Test>, form: TestForm, stamp: string): (r: Option<seq<Test>>)
    ensures r.Some? <==> Truthy(form.name) && Truthy(form.date) && form.score.Some? && form.total.Some?
    ensures r.Some? ==> |r.value| == |tests| + 1 && r.value[..|tests|] == tests
    ensures r.Some? ==> r.value[|tests|] == Test("t-" + stamp, form.name, form.subjectId, form.date, form.score.value, form.total.value)
  {
    if !Truthy(form.name) || !Truthy(form.date) || form.score.None? || form.total.None? then None
    else Some(tests + [Test("t-" + stamp, form.name, form.subjectId, form.date, form.score.value, form.total.value)])
  }

  /** The class form: the weekday comes from a Sunday-to-Saturday drop-down as its index. */
  datatype ClassForm = ClassForm(name: string, weekday: int, start: string, end: string)

  /** `handleAddClass`: name, start and end must all be filled in. */
  function AddClass(classes: seq<Class>, form: ClassForm, stamp: string): (r: Option<seq<Class>>)
    ensures r.Some? <==> Truthy(form.name) && Truthy(form.start) && Truthy(form.end)
    ensures r.Some? ==> |r.value| == |classes| + 1 && r.value[..|classes|] == classes
    ensures r.Some? ==> r.value[|classes|] == Class("c-" + stamp, form.name, form.weekday, form.start, form.end)
  {
    if !Truthy(form.name) || !Truthy(form.start) || !Truthy(form.end) then None
    else Some(classes + [Class("c-" + stamp, form.name, form.weekday, form.start, form.end)])
  }

  /** `t => t.id !== id`. */
  function OtherTest(id: string): Test -> bool {
    (t: Test) => t.id != id
  }

  /** `c => c.id !== id`. */
  function OtherClass(id: string): Class -> bool {
    (c: Class) => c.id != id
  }

  /** `handleDeleteTest(id)`. */
  function DeleteTest(tests: seq<Test>, id: string): (r: seq<Test>)
    ensures forall t :: t in r <==> t in tests && t.id != id
  {
    Filter(tests, OtherTest(id))
  }

  /** `handleDeleteClass(id)`. */
  function DeleteClass(classes: seq<Class>, id: string): (r: seq<Class>)
    ensures forall c :: c in r <==> c in classes && c.id != id
  {
    Filter(classes, OtherClass(id))
  }

  /**
   * Deleting keeps the other entries in their order: deleting an id nobody
   * has changes nothing, and deleting from two lists one after the other
   * is deleting from each.
   */
  lemma DeleteKeepsOrder(tests: seq<Test>, more: seq<Test>, id: string)
    ensures (forall i :: 0 <= i < |tests| ==> tests[i].id != id) ==> DeleteTest(tests, id) == tests
    ensures DeleteTest(tests + more, id) == DeleteTest(tests, id) + DeleteTest(more, id)
  {
    FilterAppend(tests, more, OtherTest(id));
    if forall i :: 0 <= i < |tests| ==> tests[i].id != id {
      FilterAll(tests, OtherTest(id));
    }
  }

  /** Deleting a test just added, under an id nobody had, gives back the list as it was. */
  lemma AddThenDeleteTest(tests: seq<Test>, form: TestForm, stamp: string)
    requires forall i :: 0 <= i < |tests| ==> tests[i].id != "t-" + stamp
    requires AddTest(tests, form, stamp).Some?
    ensures DeleteTest(AddTest(tests, form, stamp).value, "t-" + stamp) == tests
  {
    var r := AddTest(tests, form, stamp).value;
    assert r == tests + [r[|tests|]];
    DeleteKeepsOrder(tests, [r[|tests|]], "t-" + stamp);
    FilterNone([r[|tests|]], OtherTest("t-" + stamp));
  }

  /** Deleting a class just added, under an id nobody had, gives back the list as it was. */
  lemma AddThenDeleteClass(classes: seq<Class>, form: ClassForm, stamp: string)
    requires forall i :: 0 <= i < |classes| ==> classes[i].id != "c-" + stamp
    requires AddClass(classes, form, stamp).Some?
    ensures DeleteClass(AddClass(classes, form, stamp).value, "c-" + stamp) == classes
  {
    var r := AddClass(classes, form, stamp).value;
    var p := OtherClass("c-" + stamp);
    assert r == classes + [r[|classes|]];
    FilterAppend(classes, [r[|classes|]], p);
    FilterAll(classes, p);
    FilterNone([r[|classes|]], p);
  }
}

=== FILE: duration.dfy ===
/**
 * `formatDuration`, as the log book and the history calendar write it
 * (src/pages/LogBookPage.tsx, components/HistoryModal.tsx) for whole
 * minutes, and as the analytics page writes it (pages/AnalyticsPage.tsx)
 * for the fractional minutes its charts produce.
 */
module Duration {
  import opened Wrappers
  import opened JsMath
  import opened Text

  /**
   * Whole minutes: "0m" below one minute, "Nm" below an hour, otherwise
   * "Hh Mm", or "Hh" on the hour.
   */
  function FormatDuration(minutes: int): (s: string)
    ensures minutes < 1 ==> s == "0m"
    ensures 1 <= minutes < 60 ==> s == NatToString(minutes) + "m"
    ensures minutes >= 60 && minutes % 60 == 0 ==> s == NatToString(minutes / 60) + "h"
    ensures minutes >= 60 && minutes % 60 != 0 ==>
      s == NatToString(minutes / 60) + "h " + NatToString(minutes % 60) + "m"
  {
    if minutes < 1 then "0m"
    else if minutes < 60 then NatToString(minutes) + "m"
    else
      var h, m := minutes / 60, JsRem(minutes, 60);
      if m > 0 then NatToString(h) + "h " + NatToString(m) + "m" else NatToString(h) + "h"
  }

  /** The number of leading decimal digits of `s`. */
  function LeadingDigits(s: string): (n: nat)
    ensures n <= |s| && AllDigits(s[..n])
    ensures n < |s| ==> !IsDigit(s[n])
  {
    if |s| == 0 || !IsDigit(s[0]) then 0
    else
      var n := 1 + LeadingDigits(s[1..]);
      assert s[..n] == [s[0]] + s[1..][..n - 1];
      n
  }

  lemma {:induction false} LeadingDigitsOf(d: string, rest: string)
    requires AllDigits(d)
    requires |rest| > 0 && !IsDigit(rest[0])
    ensures LeadingDigits(d + rest) == |d|
  {
    if |d| > 0 {
      assert (d + rest)[1..] == d[1..] + rest;
      LeadingDigitsOf(d[1..], rest);
    } else {
      assert d + rest == rest;
    }
  }

  /**
   * Reads a duration text back into minutes: "Nm", "Hh" or "Hh Mm" with
   * decimal numbers.
   */
  function ParseDuration(s: string): Option<int> {
    var i := LeadingDigits(s);
    if 0 < i && i + 1 == |s| && s[i] == 'm' then Some(ParseDigits(s[..i]))
    else if 0 < i && i + 1 == |s| && s[i] == 'h' then Some(60 * ParseDigits(s[..i]))
    else if 0 < i && i + 3 < |s| && s[i] == 'h' && s[i + 1] == ' ' && s[|s| - 1] == 'm'
            && AllDigits(s[i + 2..|s| - 1])
    then Some(60 * ParseDigits(s[..i]) + ParseDigits(s[i + 2..|s| - 1]))
    else None
  }

  lemma ParseMinutesText(n: nat)
    ensures ParseDuration(NatToString(n) + "m") == Some(n)
  {
    var d := NatToString(n);
    var s := d + "m";
    LeadingDigitsOf(d, "m");
    assert s[..|d|] == d && s[|d|] == 'm';
    ParseNatToString(n);
  }

  lemma ParseHoursText(h: nat)
    ensures ParseDuration(NatToString(h) + "h") == Some(60 * h)
  {
    var d := NatToString(h);
    var s := d + "h";
    LeadingDigitsOf(d, "h");
    assert s[..|d|] == d && s[|d|] == 'h';
    ParseNatToString(h);
  }

  lemma ParseHoursMinutesText(h: nat, m: nat)
    ensures ParseDuration(NatToString(h) + "h " + NatToString(m) + "m") == Some(60 * h + m)
  {
    var dh, dm := NatToString(h), NatToString(m);
    ParseHoursMinutesDigits(dh, dm, dh + "h " + dm + "m");
    ParseNatToString(h);
    ParseNatToString(m);
  }

  lemma ParseHoursMinutesDigits(dh: string, dm: string, s: string)
    requires AllDigits(dh) && AllDigits(dm) && |dh| > 0 && |dm| > 0
    requires s == dh + "h " + dm + "m"
    ensures ParseDuration(s) == Some(60 * ParseDigits(dh) + ParseDigits(dm))
  {
    HoursMinutesLayout(dh, dm);
    ParseHoursMinutesShape(s, |dh|);
  }

  /** Where the pieces of "Hh Mm" sit. */
  lemma HoursMinutesLayout(dh: string, dm: string)
    requires AllDigits(dh) && AllDigits(dm) && |dh| > 0 && |dm| > 0
    ensures var s := dh + "h " + dm + "m";
      LeadingDigits(s) == |dh| && |dh| + 3 < |s| && s[..|dh|] == dh
      && s[|dh|] == 'h' && s[|dh| + 1] == ' ' && s[|s| - 1] == 'm' && s[|dh| + 2..|s| - 1] == dm
  {
    var tail := "h " + dm + "m";
    var s := dh + "h " + dm + "m";
    assert s == dh + tail;
    LeadingDigitsOf(dh, tail);
    assert tail[2..|tail| - 1] == dm;
  }

  lemma ParseHoursMinutesShape(s: string, i: nat)
    requires LeadingDigits(s) == i && 0 < i && i + 3 < |s|
    requires s[i] == 'h' && s[i + 1] == ' ' && s[|s| - 1] == 'm' && AllDigits(s[i + 2..|s| - 1])
    ensures ParseDuration(s) == Some(60 * ParseDigits(s[..i]) + ParseDigits(s[i + 2..|s| - 1]))
  {
  }

  /** Every duration text reads back as the minutes it shows (anything below one minute as 0). */
  lemma ParseFormatDuration(minutes: int)
    ensures ParseDuration(FormatDuration(minutes)) == Some(if minutes < 1 then 0 else minutes)
  {
    if minutes < 1 {
      assert NatToString(0) == "0";
      ParseMinutesText(0);
    } else if minutes < 60 {
      ParseMinutesText(minutes);
    } else if minutes % 60 == 0 {
      ParseHoursText(minutes / 60);
    } else {
      ParseHoursMinutesText(minutes / 60, minutes % 60);
    }
  }

  /** Different whole-minute durations of at least a minute are never shown alike. */
  lemma FormatDurationInjective(a: int, b: int)
    requires a >= 1 && b >= 1
    requires FormatDuration(a) == FormatDuration(b)
    ensures a == b
  {
    ParseFormatDuration(a);
    ParseFormatDuration(b);
  }

  // ---------------------------------------------------------------------
  // The analytics page's version, over real minutes
  // ---------------------------------------------------------------------

  /** `x % 60` on a non-negative real: what is left after whole hours. */
  function RealRem60(x: real): (r: real)
    requires x >= 0.0
    ensures 0.0 <= r < 60.0
  {
    x - 60.0 * FloorReal(x / 60.0) as real
  }

  /**
   * As written in the analytics page: the minute remainder is rounded
   * after the hours are split off, so a remainder of 59.5 or more shows as
   * "60m", and below an hour a value of 59.5 or more shows as "60m".
   */
  function AnalyticsFormatDuration(minutes: real): (s: string)
    ensures minutes < 1.0 ==> s == "0m"
  {
    if minutes < 1.0 then "0m"
    else if minutes < 60.0 then IntToString(RoundReal(minutes)) + "m"
    else
      var h, m := FloorReal(minutes / 60.0), RoundReal(RealRem60(minutes));
      if m > 0 then IntToString(h) + "h " + IntToString(m) + "m" else IntToString(h) + "h"
  }

  /** On whole minutes the analytics version agrees with the log book's. */
  lemma AnalyticsAgreesOnWholeMinutes(minutes: int)
    ensures AnalyticsFormatDuration(minutes as real) == FormatDuration(minutes)
  {
    if minutes >= 60 {
      var x := minutes as real;
      var h := minutes / 60;
      assert (x / 60.0).Floor == h by {
        assert minutes == 60 * h + minutes % 60;
        assert x / 60.0 == h as real + (minutes % 60) as real / 60.0;
      }
      assert RealRem60(x) == (minutes % 60) as real;
      assert RoundReal((minutes % 60) as real) == minutes % 60;
    } else if minutes >= 1 {
      assert RoundReal(minutes as real) == minutes;
    }
  }

  /**
   * The analytics version can show "60m" and "1h 60m": 59.5 minutes and
   * 119.6 minutes. Neither is a text the whole-minute formatter ever
   * produces for those rounded values (60 shows as "1h", 120 as "2h").
   */
  lemma AnalyticsShowsSixtyMinutes()
    ensures AnalyticsFormatDuration(59.5) == "60m"
    ensures AnalyticsFormatDuration(119.6) == "1h 60m"
    ensures FormatDuration(60) == "1h" && FormatDuration(120) == "2h"
  {
    assert RoundReal(59.5) == 60;
    assert FloorReal(119.6 / 60.0) == 1;
    assert RealRem60(119.6) == 59.6;
    assert RoundReal(59.6) == 60;
    assert IntToString(60) == "60" by {
      assert NatToString(6) == "6";
    }
    assert NatToString(2) == "2";
  }

  /**
   * The evidently intended analytics display: round the minutes once,
   * then format them as whole minutes (values below one minute still show
   * as "0m").
   */
  function AnalyticsFormatDurationFixed(minutes: real): (s: string)
    ensures minutes < 1.0 ==> s == "0m"
    ensures minutes >= 1.0 ==> s == FormatDuration(RoundReal(minutes))
  {
    if minutes < 1.0 then "0m" else FormatDuration(RoundReal(minutes))
  }

  /**
   * The corrected display always reads back as the rounded minutes: the
   * minute part stays below 60 and agrees with the source on whole minutes.
   */
  lemma AnalyticsFixedReadsBack(minutes: real)
    ensures minutes >= 1.0 ==> ParseDuration(AnalyticsFormatDurationFixed(minutes)) == Some(RoundReal(minutes))
    ensures minutes < 1.0 ==> ParseDuration(AnalyticsFormatDurationFixed(minutes)) == Some(0)
    ensures minutes == minutes.Floor as real ==> AnalyticsFormatDurationFixed(minutes) == AnalyticsFormatDuration(minutes)
  {
    if minutes >= 1.0 {
      ParseFormatDuration(RoundReal(minutes));
    } else {
      ParseFormatDuration(0);
    }
    if minutes == minutes.Floor as real {
      WholeMinutesAgree(minutes.Floor);
    }
  }

  /** On whole minutes the corrected and the as-written analytics display agree. */
  lemma WholeMinutesAgree(n: int)
    ensures AnalyticsFormatDurationFixed(n as real) == AnalyticsFormatDuration(n as real)
  {
    AnalyticsAgreesOnWholeMinutes(n);
    if n >= 1 {
      assert RoundReal(n as real) == n;
    }
  }
}

=== FILE: history.dfy ===
/**
 * The history calendar (components/HistoryModal.tsx): a month grid that
 * starts on Sunday, one cell per day carrying its "YYYY-MM-DD" key and a
 * mark when logs exist for it, the logs of the selected day, and the
 * previous/next month buttons.
 *
 * Months are 1-based here; the component's `getMonth()` index is one less.
 * A day's key text and its day number name the same day: the key is
 * `Calendar.DateKey` of the day's year, month and day, which is injective.
 */
module History {
  import opened Wrappers
  import opened Seqs
  import opened Types
  import opened Calendar
  import LogBook

  /**
   * `logsByDate`: each log filed under exactly its own date, in the order
   * the logs arrive; the same grouping the log book uses.
   */
  lemma LogsByDateFilesEachLog(logs: seq<LogEntry>, d: DayNumber)
    ensures LogBook.GroupedByDate(logs) == GroupBy(logs, DateOf)
    ensures Lookup(LogBook.GroupedByDate(logs), d) == Select(logs, DateOf, d)
    ensures forall log :: log in Lookup(LogBook.GroupedByDate(logs), d) <==> log in logs && log.date == d
    ensures d in Keys(LogBook.GroupedByDate(logs)) <==> exists log :: log in logs && log.date == d
  {
  }

  /** `!!logsByDate[key]`: some log is dated `date`. */
  function HasLogs(logs: seq<LogEntry>, date: DayNumber): (b: bool)
    ensures b <==> exists log :: log in logs && log.date == date
  {
    var day := Lookup(LogBook.GroupedByDate(logs), date);
    assert |day| > 0 ==> day[0] in day;
    |day| > 0
  }

  // ---------------------------------------------------------------------
  // The month grid
  // ---------------------------------------------------------------------

  datatype Cell =
    | Padding
    | DayCell(day: int, key: string, date: DayNumber, hasLogs: bool, isSelected: bool, isToday: bool)

  /**
   * `c` is the cell of day `d` of month `m` of year `y`: it carries the
   * day, its key and day number, and is marked, selected or today exactly
   * when the day has logs, is the selected day or is today.
   */
  predicate DescribesDay(c: Cell, y: nat, m: nat, d: nat, logs: seq<LogEntry>, selected: Option<DayNumber>, today: DayNumber)
    requires 1 <= m <= 12
  {
    var date := DayNumberOf(y, m, d);
    c.DayCell? && c.day == d && c.key == DateKey(y, m, d) && c.date == date
    && (c.hasLogs <==> exists log :: log in logs && log.date == date)
    && (c.isSelected <==> selected == Some(date))
    && (c.isToday <==> today == date)
  }

  /** The cell of day `d` of month `m` of year `y`. */
  function DayOf(y: nat, m: nat, d: nat, logs: seq<LogEntry>, selected: Option<DayNumber>, today: DayNumber): (c: Cell)
    requires 1 <= m <= 12
    ensures DescribesDay(c, y, m, d, logs, selected, today)
  {
    var date := DayNumberOf(y, m, d);
    DayCell(d, DateKey(y, m, d), date, HasLogs(logs, date), selected == Some(date), today == date)
  }

  /** The cells of days 1 .. n. */
  function DayCells(y: nat, m: nat, n: nat, logs: seq<LogEntry>, selected: Option<DayNumber>, today: DayNumber): (cells: seq<Cell>)
    requires 1 <= m <= 12
    ensures |cells| == n
    ensures forall i :: 0 <= i < n ==> cells[i] == DayOf(y, m, i + 1, logs, selected, today)
  {
    if n == 0 then []
    else
      var prev := DayCells(y, m, n - 1, logs, selected, today);
      var cells := prev + [DayOf(y, m, n, logs, selected, today)];
      assert forall i :: 0 <= i < n - 1 ==> cells[i] == prev[i];
      cells
  }

  /** `new Date(y, m - 1, 1).getDay()`: how many empty cells precede the 1st. */
  function LeadingBlanks(y: nat, m: nat): (pad: int)
    requires 1 <= m <= 12
    ensures 0 <= pad < 7
  {
    Weekday(DayNumberOf(y, m, 1))
  }

  /** `n` empty cells. */
  function Blanks(n: nat): (r: seq<Cell>)
    ensures |r| == n && forall i :: 0 <= i < n ==> r[i].Padding?
  {
    if n == 0 then [] else Blanks(n - 1) + [Padding]
  }

  /** `generateCalendarGrid`. */
  function CalendarGrid(y: nat, m: nat, logs: seq<LogEntry>, selected: Option<DayNumber>, today: DayNumber): seq<Cell>
    requires 1 <= m <= 12
  {
    Blanks(LeadingBlanks(y, m)) + DayCells(y, m, DaysInMonth(y, m), logs, selected, today)
  }

  /**
   * The grid holds one empty cell per weekday before the 1st, then one
   * cell per day of the month with its key, whether logs exist for it,
   * whether it is the selected day and whether it is today.
   */
  lemma GridCells(y: nat, m: nat, logs: seq<LogEntry>, selected: Option<DayNumber>, today: DayNumber)
    requires 1 <= m <= 12
    ensures var cells := CalendarGrid(y, m, logs, selected, today);
      |cells| == LeadingBlanks(y, m) + DaysInMonth(y, m)
      && (forall i :: 0 <= i < LeadingBlanks(y, m) ==> cells[i].Padding?)
      && (forall i :: LeadingBlanks(y, m) <= i < |cells| ==>
            DescribesDay(cells[i], y, m, i - LeadingBlanks(y, m) + 1, logs, selected, today))
  {
    var pad := LeadingBlanks(y, m);
    var blanks := Blanks(pad);
    var days := DayCells(y, m, DaysInMonth(y, m), logs, selected, today);
    var cells := blanks + days;
    assert CalendarGrid(y, m, logs, selected, today) == cells;
    forall i | pad <= i < |cells|
      ensures DescribesDay(cells[i], y, m, i - pad + 1, logs, selected, today)
    {
      assert cells[i] == days[i - pad];
    }
  }

  /**
   * Under the header Sun .. Sat, every day of the month falls in the
   * column of its own weekday.
   */
  lemma GridColumns(y: nat, m: nat, logs: seq<LogEntry>, selected: Option<DayNumber>, today: DayNumber, d: nat)
    requires 1 <= m <= 12 && 1 <= d <= DaysInMonth(y, m)
    ensures var i := LeadingBlanks(y, m) + d - 1;
      i < |CalendarGrid(y, m, logs, selected, today)| && i % 7 == Weekday(DayNumberOf(y, m, d))
  {
    GridCells(y, m, logs, selected, today);
    var first := DayNumberOf(y, m, 1);
    var k: nat := d - 1;
    assert DayNumberOf(y, m, d) == first + k;
    assert LeadingBlanks(y, m) + d - 1 == Weekday(first) + k;
    WeekColumn(first, k);
    assert (Weekday(first) + k) % 7 == Weekday(first + k);
    assert Weekday(DayNumberOf(y, m, d)) == Weekday(first + k);
    assert (LeadingBlanks(y, m) + d - 1) % 7 == Weekday(first + k);
  }

  /** The cell `k` places after a day's falls in the column `k` weekdays later. */
  lemma WeekColumn(first: int, k: nat)
    ensures (Weekday(first) + k) % 7 == Weekday(first + k)
  {
    var q := (first + 4) / 7;
    assert first + 4 == 7 * q + Weekday(first);
    DivUnique(first + k + 4, 7, q + (Weekday(first) + k) / 7, (Weekday(first) + k) % 7);
  }

  /**
   * For four-digit years every day key has the "YYYY-MM-DD" shape of
   * `LogEntry.date`, and two days of the grid share a key only when they
   * are the same day.
   */
  lemma GridKeys(y: nat, m: nat, d: nat, d': nat)
    requires 1000 <= y <= 9999 && 1 <= m <= 12
    requires 1 <= d <= DaysInMonth(y, m) && 1 <= d' <= DaysInMonth(y, m)
    ensures IsIsoDate(DateKey(y, m, d))
    ensures DateKey(y, m, d) == DateKey(y, m, d') <==> d == d'
  {
    DateKeyRoundTrip(y, m, d);
    DateKeyRoundTrip(y, m, d');
  }

  // ---------------------------------------------------------------------
  // The details pane
  // ---------------------------------------------------------------------

  /**
   * `selectedLogs`: nothing when no day is selected; otherwise the
   * selected day's logs in their original order, nothing when it has none.
   */
  function SelectedLogs(logs: seq<LogEntry>, selected: Option<DayNumber>): (r: seq<LogEntry>)
    ensures selected.None? ==> r == []
    ensures selected.Some? ==> r == Select(logs, DateOf, selected.value)
    ensures selected.Some? && (forall log :: log in logs ==> log.date != selected.value) ==> r == []
  {
    if selected.None? then []
    else
      var r := Lookup(LogBook.GroupedByDate(logs), selected.value);
      assert |r| > 0 ==> r[0] in r;
      r
  }

  /** A day is marked in the grid exactly when selecting it lists some logs. */
  lemma MarkMeansDetails(y: nat, m: nat, logs: seq<LogEntry>, selected: Option<DayNumber>, today: DayNumber, d: nat)
    requires 1 <= m <= 12 && 1 <= d <= DaysInMonth(y, m)
    ensures var cells := CalendarGrid(y, m, logs, selected, today);
      var i := LeadingBlanks(y, m) + d - 1;
      i < |cells| && cells[i].DayCell? && (cells[i].hasLogs <==> SelectedLogs(logs, Some(cells[i].date)) != [])
  {
    GridCells(y, m, logs, selected, today);
    var date := DayNumberOf(y, m, d);
    var r := SelectedLogs(logs, Some(date));
    if |r| > 0 {
      assert r[0] in r;
    }
  }

  // ---------------------------------------------------------------------
  // Previous / next month
  // ---------------------------------------------------------------------

  /** The calendar's cursor, `currentDate`: a valid civil date. */
  datatype Cursor = Cursor(year: int, month: int, day: int) {
    predicate Valid() {
      1 <= month <= 12 && 1 <= day <= DaysInMonth(year, month)
    }

    /** Months since January of year 0, so that consecutive months differ by one. */
    function MonthIndex(): int {
      12 * year + month - 1
    }
  }

  /**
   * As written, `changeMonth`: `setMonth(getMonth() + offset)` keeps the
   * day of the month, and a day past the end of the target month spills
   * into the month after it, the way `new Date(y, m, d)` normalises.
   */
  function ChangeMonth(c: Cursor, offset: int): (r: Cursor)
    requires c.Valid()
    ensures r.Valid()
    ensures var target := c.MonthIndex() + offset;
      var t := Cursor(target / 12, target % 12 + 1, 1);
      (r.MonthIndex() == target <==> c.day <= DaysInMonth(t.year, t.month))
      && (r.MonthIndex() == target + 1 <==> c.day > DaysInMonth(t.year, t.month))
  {
    var target := c.MonthIndex() + offset;
    var y, m := target / 12, target % 12 + 1;
    if c.day <= DaysInMonth(y, m) then Cursor(y, m, c.day)
    else if m == 12 then Cursor(y + 1, 1, c.day - DaysInMonth(y, m))
    else Cursor(y, m + 1, c.day - DaysInMonth(y, m))
  }

  /**
   * On the 29th to the 31st the buttons can skip or stall: "next" from
   * 31 January 2025 shows March, and "previous" from 31 March 2025 shows
   * March again.
   */
  lemma ChangeMonthSkips()
    ensures ChangeMonth(Cursor(2025, 1, 31), 1) == Cursor(2025, 3, 3)
    ensures ChangeMonth(Cursor(2025, 3, 31), -1) == Cursor(2025, 3, 3)
  {
  }

  /** Early in the month, as written and as intended agree. */
  lemma ChangeMonthEarlyDays(c: Cursor, offset: int)
    requires c.Valid() && c.day <= 28
    ensures ChangeMonth(c, offset).MonthIndex() == c.MonthIndex() + offset
  {
  }

  /**
   * The evidently intended `changeMonth`: move to the first of the month
   * `offset` months away, so the grid always shows the month asked for.
   */
  function ChangeMonthFixed(c: Cursor, offset: int): (r: Cursor)
    requires c.Valid()
    ensures r.Valid() && r.day == 1
    ensures r.MonthIndex() == c.MonthIndex() + offset
  {
    var target := c.MonthIndex() + offset;
    Cursor(target / 12, target % 12 + 1, 1)
  }

  /** "Next" then "previous" returns to the month shown before. */
  lemma ChangeMonthFixedReturns(c: Cursor)
    requires c.Valid()
    ensures var back := ChangeMonthFixed(ChangeMonthFixed(c, 1), -1);
      back.year == c.year && back.month == c.month
  {
    var back := ChangeMonthFixed(ChangeMonthFixed(c, 1), -1);
    assert back.MonthIndex() == c.MonthIndex();
  }
}

=== FILE: js_math.dfy ===
/**
 * The few JavaScript number operations the planner relies on, written out
 * over unbounded integers and reals: `Math.round`, the truncating `%`
 * operator, and truthiness of strings.
 */
module JsMath {

  /**
   * `Math.round(a / b)` for an integer numerator and a positive integer
   * denominator: the nearest integer, halves rounded up (towards +infinity).
   */
  function RoundDiv(a: int, b: int): (r: int)
    requires b > 0
    ensures 2 * b * r <= 2 * a + b < 2 * b * r + 2 * b
  {
    var q := (2 * a + b) / (2 * b);
    assert 2 * a + b == 2 * b * q + (2 * a + b) % (2 * b);
    q
  }

  /** Rounding is monotone: a larger numerator never rounds lower. */
  lemma RoundDivMonotone(a: int, a': int, b: int)
    requires b > 0 && a <= a'
    ensures RoundDiv(a, b) <= RoundDiv(a', b)
  {
    var r, r' := RoundDiv(a, b), RoundDiv(a', b);
    MulSign(2 * b, r - r');
  }

  /** Multiplying by a positive factor keeps the sign of the other factor. */
  lemma MulSign(b: int, t: int)
    requires b > 0
    ensures t >= 1 ==> b * t >= b
    ensures t <= -1 ==> b * t <= -b
  {
  }

  /** An exact quotient rounds to itself. */
  lemma RoundDivExact(k: int, b: int)
    requires b > 0
    ensures RoundDiv(k * b, b) == k
  {
    var r := RoundDiv(k * b, b);
    assert 2 * (k * b) == 2 * b * k;
    assert 2 * b * r - 2 * b * k == 2 * b * (r - k);
    MulSign(2 * b, r - k);
  }

  /** Percentages: `Math.round(num / den * 100)` lies in 0..100 when 0 <= num <= den. */
  lemma RoundPercentBounds(num: int, den: int)
    requires 0 <= num <= den && den > 0
    ensures 0 <= RoundDiv(100 * num, den) <= 100
  {
    RoundDivMonotone(0, 100 * num, den);
    RoundDivMonotone(100 * num, 100 * den, den);
    RoundDivExact(0, den);
    RoundDivExact(100, den);
  }

  /**
   * JavaScript's `a % b` on integers: the remainder of truncating division,
   * which takes the sign of the dividend (unlike Dafny's Euclidean `%`).
   */
  function JsRem(a: int, b: int): (r: int)
    requires b != 0
    ensures r < Abs(b) && -r < Abs(b)
    ensures a >= 0 ==> r >= 0
    ensures a <= 0 ==> r <= 0
    ensures a >= 0 ==> r == a % Abs(b)
    ensures a < Abs(b) && -a < Abs(b) ==> r == a
  {
    var m := Abs(b);
    if a >= 0 then
      ModOfSmall(a, m);
      a % m
    else
      ModOfSmall(-a, m);
      -((-a) % m)
  }

  lemma ModOfSmall(a: int, m: int)
    requires 0 <= a && m > 0
    ensures 0 <= a % m < m
    ensures a < m ==> a % m == a
  {
    if a < m {
      assert a == m * 0 + a;
    }
  }

  /** The truncating remainder is odd in its dividend: `(-a) % b == -(a % b)`. */
  lemma JsRemOdd(a: int, b: int)
    requires b != 0
    ensures JsRem(-a, b) == -JsRem(a, b)
  {
  }

  function Abs(x: int): (r: nat)
    ensures r == x || r == -x
  {
    if x < 0 then -x else x
  }

  /** `Math.round(x)` on a real: floor(x + 1/2). */
  function RoundReal(x: real): (r: int)
    ensures r as real <= x + 0.5 < r as real + 1.0
  {
    (x + 0.5).Floor
  }

  /** `Math.floor(x)` on a real. */
  function FloorReal(x: real): (r: int)
    ensures r as real <= x < r as real + 1.0
  {
    x.Floor
  }

  /** A JavaScript string is truthy exactly when it is not empty. */
  predicate Truthy(s: string) {
    |s| > 0
  }
}

=== FILE: log_book.dfy ===
/**
 * The log book (src/pages/LogBookPage.tsx): the current week's logs filed
 * by date (newest first) and, within a date, by category (study, exercise,
 * entertainment, personal), with per-category minute totals; and the
 * weekly history, newest week first, each with its three busiest
 * subjects.
 */
module LogBook {
  import opened Seqs
  import opened Sorting
  import opened Types
  import opened Categories

  /** `groupedLogsByDate`: the logs filed by date, dates in order of first appearance. */
  function GroupedByDate(logs: seq<LogEntry>): (bs: seq<Bucket<DayNumber, LogEntry>>)
    ensures Keys(bs) == DistinctKeys(logs, DateOf)
    ensures forall d :: Lookup(bs, d) == Select(logs, DateOf, d)
  {
    GroupBySpec(logs, DateOf);
    GroupBy(logs, DateOf)
  }

  /** The sort key `new Date(b) - new Date(a)` orders by: later dates first. */
  function NewerFirst(d: DayNumber): int {
    -d
  }

  /** `sortedDates`: every date that has a log, once, newest first. */
  function SortedDates(logs: seq<LogEntry>): (ds: seq<DayNumber>)
    ensures forall i, j :: 0 <= i < j < |ds| ==> ds[i] > ds[j]
    ensures forall d :: d in ds <==> d in DistinctKeys(logs, DateOf)
  {
    var keys := Keys(GroupedByDate(logs));
    SortMembers(keys, NewerFirst);
    SortDistinct(keys, NewerFirst);
    var ds := SortBy(keys, NewerFirst);
    StrictlyNewerFirst(ds);
    ds
  }

  /** Sorted newest first without repeats means strictly newest first. */
  lemma StrictlyNewerFirst(ds: seq<DayNumber>)
    requires SortedBy(ds, NewerFirst) && Distinct(ds)
    ensures forall i, j :: 0 <= i < j < |ds| ==> ds[i] > ds[j]
  {
    forall i, j | 0 <= i < j < |ds| ensures ds[i] > ds[j] {
      assert NewerFirst(ds[i]) <= NewerFirst(ds[j]);
    }
  }

  /** `categorizedLogs`: one day's logs filed by category. */
  function Categorized(dailyLogs: seq<LogEntry>): (bs: seq<Bucket<Category, LogEntry>>)
    ensures Keys(bs) == DistinctKeys(dailyLogs, LogBookCategoryOf)
    ensures forall c :: Lookup(bs, c) == Select(dailyLogs, LogBookCategoryOf, c)
  {
    GroupBySpec(dailyLogs, LogBookCategoryOf);
    GroupBy(dailyLogs, LogBookCategoryOf)
  }

  /** `sortedCategoryKeys`: the day's categories, once each, in display order. */
  function SortedCategories(dailyLogs: seq<LogEntry>): (cs: seq<Category>)
    ensures forall i, j :: 0 <= i < j < |cs| ==> Rank(cs[i]) < Rank(cs[j])
    ensures forall c :: c in cs <==> c in DistinctKeys(dailyLogs, LogBookCategoryOf)
  {
    var keys := Keys(Categorized(dailyLogs));
    SortMembers(keys, Rank);
    SortDistinct(keys, Rank);
    var cs := SortBy(keys, Rank);
    StrictlyRanked(cs);
    cs
  }

  /** Sorted by rank without repeats means strictly by rank. */
  lemma StrictlyRanked(cs: seq<Category>)
    requires SortedBy(cs, Rank) && Distinct(cs)
    ensures forall i, j :: 0 <= i < j < |cs| ==> Rank(cs[i]) < Rank(cs[j])
  {
    forall i, j | 0 <= i < j < |cs| ensures Rank(cs[i]) < Rank(cs[j]) {
      assert cs[i] != cs[j];
    }
  }

  /** One category of one day: its logs and their total minutes. */
  datatype CategoryBlock = CategoryBlock(category: Category, logs: seq<LogEntry>, totalMinutes: int)

  /** One day of the current week, its categories in display order. */
  datatype DayBlock = DayBlock(date: DayNumber, categories: seq<CategoryBlock>)

  function Block(dailyLogs: seq<LogEntry>, c: Category): CategoryBlock {
    var logs := Lookup(Categorized(dailyLogs), c);
    CategoryBlock(c, logs, SumBy(logs, Duration))
  }

  function Blocks(dailyLogs: seq<LogEntry>, cs: seq<Category>): (bs: seq<CategoryBlock>)
    ensures |bs| == |cs|
    ensures forall i :: 0 <= i < |cs| ==> bs[i] == Block(dailyLogs, cs[i])
  {
    if |cs| == 0 then [] else Blocks(dailyLogs, cs[..|cs| - 1]) + [Block(dailyLogs, cs[|cs| - 1])]
  }

  function DayView(logs: seq<LogEntry>, date: DayNumber): DayBlock {
    var dailyLogs := Lookup(GroupedByDate(logs), date);
    DayBlock(date, Blocks(dailyLogs, SortedCategories(dailyLogs)))
  }

  function Days(logs: seq<LogEntry>, ds: seq<DayNumber>): (r: seq<DayBlock>)
    ensures |r| == |ds|
    ensures forall i :: 0 <= i < |ds| ==> r[i] == DayView(logs, ds[i])
  {
    seq(|ds|, i requires 0 <= i < |ds| => DayView(logs, ds[i]))
  }

  /** The current-week section: one block per date, newest first. */
  function CurrentWeek(logs: seq<LogEntry>): (r: seq<DayBlock>)
    ensures |r| == |SortedDates(logs)|
    ensures forall i :: 0 <= i < |r| ==> r[i].date == SortedDates(logs)[i]
  {
    Days(logs, SortedDates(logs))
  }

  /**
   * Every category block of the current week holds exactly the logs of
   * its date and category, in their original order; so each log is shown
   * under its own date and its own category only.
   */
  lemma CurrentWeekFilesEachLog(logs: seq<LogEntry>, i: int, j: int)
    requires 0 <= i < |CurrentWeek(logs)| && 0 <= j < |CurrentWeek(logs)[i].categories|
    ensures var day := CurrentWeek(logs)[i];
      var b := day.categories[j];
      b.logs == Select(Select(logs, DateOf, day.date), LogBookCategoryOf, b.category)
      && forall log :: log in b.logs <==> log in logs && log.date == day.date && LogBookCategory(log.subjectId) == b.category
  {
    var ds := SortedDates(logs);
    assert CurrentWeek(logs)[i] == DayView(logs, ds[i]);
    DayViewFilesEachLog(logs, ds[i], j);
  }

  /** A block of a day lists that day's logs of that category. */
  lemma DayViewFilesEachLog(logs: seq<LogEntry>, date: DayNumber, j: int)
    requires 0 <= j < |DayView(logs, date).categories|
    ensures var b := DayView(logs, date).categories[j];
      b.logs == Select(Select(logs, DateOf, date), LogBookCategoryOf, b.category)
      && forall log :: log in b.logs <==> log in logs && log.date == date && LogBookCategory(log.subjectId) == b.category
  {
    var daily := Lookup(GroupedByDate(logs), date);
    assert daily == Select(logs, DateOf, date);
    var cs := SortedCategories(daily);
    assert DayView(logs, date).categories[j] == Block(daily, cs[j]);
  }

  /** Every log is shown in the current week, under a block of its date and category. */
  lemma CurrentWeekShowsEveryLog(logs: seq<LogEntry>, log: LogEntry)
    requires log in logs
    ensures exists i, j ::
      0 <= i < |CurrentWeek(logs)| && 0 <= j < |CurrentWeek(logs)[i].categories|
      && log in CurrentWeek(logs)[i].categories[j].logs
  {
    var ds := SortedDates(logs);
    KeysCover(logs, DateOf);
    assert log.date in DistinctKeys(logs, DateOf);
    var i :| 0 <= i < |ds| && ds[i] == log.date;
    assert CurrentWeek(logs)[i] == DayView(logs, log.date);
    var j := DayViewShowsLog(logs, log);
    assert log in CurrentWeek(logs)[i].categories[j].logs;
  }

  /** The block of a log's category on the log's date. */
  lemma DayViewShowsLog(logs: seq<LogEntry>, log: LogEntry) returns (j: int)
    requires log in logs
    ensures 0 <= j < |DayView(logs, log.date).categories|
    ensures log in DayView(logs, log.date).categories[j].logs
  {
    var daily := Lookup(GroupedByDate(logs), log.date);
    assert log in daily;
    var cs := SortedCategories(daily);
    KeysCover(daily, LogBookCategoryOf);
    assert LogBookCategoryOf(log) in DistinctKeys(daily, LogBookCategoryOf);
    j :| 0 <= j < |cs| && cs[j] == LogBookCategory(log.subjectId);
    DayViewFilesEachLog(logs, log.date, j);
  }

  function BlockTotal(b: CategoryBlock): int {
    b.totalMinutes
  }

  function DayTotal(d: DayBlock): int {
    SumBy(d.categories, BlockTotal)
  }

  /** The category totals of a list of categories add up like per-key subtotals. */
  lemma {:induction false} BlocksSum(dailyLogs: seq<LogEntry>, cs: seq<Category>)
    ensures SumBy(Blocks(dailyLogs, cs), BlockTotal) == SumOverKeys(cs, dailyLogs, LogBookCategoryOf, Duration)
  {
    if |cs| > 0 {
      var bs := Blocks(dailyLogs, cs);
      assert bs[..|bs| - 1] == Blocks(dailyLogs, cs[..|cs| - 1]);
      BlocksSum(dailyLogs, cs[..|cs| - 1]);
    }
  }

  /** A day's category totals add up to the day's minutes. */
  lemma DayTotalSum(logs: seq<LogEntry>, d: DayNumber)
    ensures DayTotal(DayView(logs, d)) == SumBy(Select(logs, DateOf, d), Duration)
  {
    var daily := Lookup(GroupedByDate(logs), d);
    var cs := SortedCategories(daily);
    assert DayView(logs, d).categories == Blocks(daily, cs);
    BlocksSum(daily, cs);
    KeysCover(daily, LogBookCategoryOf);
    assert Distinct(cs);
    PartitionSum(cs, daily, LogBookCategoryOf, Duration);
  }

  /** The day totals of a list of dates add up like per-key subtotals. */
  lemma {:induction false} DaysSum(logs: seq<LogEntry>, ds: seq<DayNumber>)
    ensures SumBy(Days(logs, ds), DayTotal) == SumOverKeys(ds, logs, DateOf, Duration)
  {
    if |ds| > 0 {
      var r := Days(logs, ds);
      assert r[..|r| - 1] == Days(logs, ds[..|ds| - 1]);
      DaysSum(logs, ds[..|ds| - 1]);
      DayTotalSum(logs, ds[|ds| - 1]);
    }
  }

  /**
   * `currentWeekTotal`, the sum of all durations, is the sum of every
   * per-date, per-category total shown below it.
   */
  lemma WeekTotalAddsUp(logs: seq<LogEntry>)
    ensures SumBy(CurrentWeek(logs), DayTotal) == SumBy(logs, Duration)
  {
    var ds := SortedDates(logs);
    DaysSum(logs, ds);
    KeysCover(logs, DateOf);
    assert Distinct(ds);
    PartitionSum(ds, logs, DateOf, Duration);
  }

  // ---------------------------------------------------------------------
  // Weekly history
  // ---------------------------------------------------------------------

  /** The sort key `new Date(b.weekOf) - new Date(a.weekOf)` orders by: later weeks first. */
  function NewerWeekFirst(s: WeeklySummary): int {
    -s.weekOf
  }

  /** The history cards: all stored summaries, newest week first. */
  function HistoryOrder(summaries: seq<WeeklySummary>): (r: seq<WeeklySummary>)
    ensures forall i, j :: 0 <= i < j < |r| ==> r[i].weekOf >= r[j].weekOf
    ensures multiset(r) == multiset(summaries)
  {
    SortBy(summaries, NewerWeekFirst)
  }

  /**
   * The rollup never merges summaries of the same week; the history shows
   * such duplicates side by side, in the order they were stored.
   */
  lemma HistoryKeepsDuplicateWeeks(summaries: seq<WeeklySummary>, week: DayNumber)
    ensures Filter(HistoryOrder(summaries), KeyIs(NewerWeekFirst, -week))
         == Filter(summaries, KeyIs(NewerWeekFirst, -week))
  {
    SortStable(summaries, NewerWeekFirst, -week);
  }

  /** The sort key `(b - a)` orders subject entries by: larger averages first. */
  function LargerFirst(e: (string, int)): int {
    -e.1
  }

  /**
   * `Object.entries(subjectAverages).sort(...).slice(0, 3)`, the entries
   * given in the order the object lists them: at most three entries, the
   * largest averages in descending order, each entry shown at most as
   * often as it occurs, and none left out that beats one shown.
   */
  function TopSubjects(entries: seq<(string, int)>): (r: seq<(string, int)>)
    ensures |r| == if |entries| < 3 then |entries| else 3
    ensures forall i, j :: 0 <= i < j < |r| ==> r[i].1 >= r[j].1
    ensures forall e :: e in r ==> e in entries
    ensures forall e :: e in entries && e !in r ==> forall i :: 0 <= i < |r| ==> e.1 <= r[i].1
    ensures multiset(r) <= multiset(entries)
  {
    var sorted := SortBy(entries, LargerFirst);
    SortMembers(entries, LargerFirst);
    var n := if |entries| < 3 then |entries| else 3;
    PrefixMultiset(sorted, n);
    LargestFirst(sorted, n);
    sorted[..n]
  }

  /** In a list sorted largest first, whatever lies beyond a prefix is no larger than anything in it. */
  lemma LargestFirst(sorted: seq<(string, int)>, n: nat)
    requires n <= |sorted| && SortedBy(sorted, LargerFirst)
    ensures forall i, j :: 0 <= i < j < n ==> sorted[i].1 >= sorted[j].1
    ensures forall e :: e in sorted && e !in sorted[..n] ==> forall i :: 0 <= i < n ==> e.1 <= sorted[i].1
  {
    forall e | e in sorted && e !in sorted[..n]
      ensures forall i :: 0 <= i < n ==> e.1 <= sorted[i].1
    {
      assert forall i :: 0 <= i < n ==> sorted[..n][i] == sorted[i];
      var k :| 0 <= k < |sorted| && sorted[k] == e;
      assert k >= n;
      forall i | 0 <= i < n ensures e.1 <= sorted[i].1 {
        assert LargerFirst(sorted[i]) <= LargerFirst(sorted[k]);
      }
    }
    forall i, j | 0 <= i < j < n ensures sorted[i].1 >= sorted[j].1 {
      assert LargerFirst(sorted[i]) <= LargerFirst(sorted[j]);
    }
  }
}

=== FILE: log_creator.dfy ===
/**
 * The per-task time entry of the log creator (src/components/LogCreator.tsx):
 * a map from task id to the start and end texts typed so far.
 */
module LogCreator {
  import opened Wrappers
  import opened JsMath

  /** One task's entry; a field never typed into is missing. */
  datatype Entry = Entry(start: Option<string>, end: Option<string>)

  datatype Field = Start | End

  type Times = map<string, Entry>

  /**
   * `handleTimeChange(taskId, type, value)`: `{ ...prev, [taskId]: { ...prev[taskId], [type]: value } }`.
   * Spreading a missing entry contributes no fields.
   */
  function SetTime(times: Times, taskId: string, field: Field, value: string): (r: Times)
    ensures taskId in r && r.Keys == times.Keys + {taskId}
    ensures field == Start ==> r[taskId].start == Some(value)
    ensures field == End ==> r[taskId].end == Some(value)
    ensures field == Start ==> r[taskId].end == (if taskId in times then times[taskId].end else None)
    ensures field == End ==> r[taskId].start == (if taskId in times then times[taskId].start else None)
    ensures forall id :: id in times && id != taskId ==> r[id] == times[id]
  {
    var previous := if taskId in times then times[taskId] else Entry(None, None);
    var updated := match field
      case Start => previous.(start := Some(value))
      case End => previous.(end := Some(value));
    times[taskId := updated]
  }

  /** `times[task.id] || { start: '', end: '' }`, with a never-typed field shown empty. */
  function Shown(times: Times, taskId: string): (r: (string, string))
    ensures taskId !in times ==> r == ("", "")
    ensures taskId in times ==> r == (times[taskId].start.GetOr(""), times[taskId].end.GetOr(""))
  {
    if taskId in times then (times[taskId].start.GetOr(""), times[taskId].end.GetOr("")) else ("", "")
  }

  /** A call `onLogTask(taskId, start, end)`. */
  datatype LogCall = LogCall(taskId: string, start: string, end: string)

  /** `handleSubmit(taskId)`: hands that task's times over only when both are non-empty. */
  function Submit(times: Times, taskId: string): (r: Option<LogCall>)
    ensures r.Some? <==> taskId in times && times[taskId].start.Some? && times[taskId].end.Some?
                         && Truthy(times[taskId].start.value) && Truthy(times[taskId].end.value)
    ensures r.Some? ==> r.value == LogCall(taskId, Shown(times, taskId).0, Shown(times, taskId).1)
  {
    if taskId in times then
      var e := times[taskId];
      if e.start.Some? && e.end.Some? && Truthy(e.start.value) && Truthy(e.end.value) then
        Some(LogCall(taskId, e.start.value, e.end.value))
      else None
    else None
  }

  /** Typing both times of a task makes submitting hand over exactly what was typed. */
  lemma TypedTimesAreSubmitted(times: Times, taskId: string, start: string, end: string)
    requires Truthy(start) && Truthy(end)
    ensures Submit(SetTime(SetTime(times, taskId, Start, start), taskId, End, end), taskId)
      == Some(LogCall(taskId, start, end))
  {
  }

  /** What is shown for a task is what was typed last into each field. */
  lemma ShownAfterTyping(times: Times, taskId: string, field: Field, value: string)
    ensures var s := Shown(SetTime(times, taskId, field, value), taskId);
      (field == Start ==> s.0 == value && s.1 == Shown(times, taskId).1)
      && (field == End ==> s.1 == value && s.0 == Shown(times, taskId).0)
  {
  }
}

=== FILE: log_modals.dfy ===
/**
 * The two interval forms: the dialog that asks for the interval of a task
 * being ticked (src/components/LogTimeModal.tsx) and the dialog that edits
 * the interval of an existing log (components/EditLogModal.tsx). Both read
 * `<input type="time">` fields, which hold either "" or a valid "HH:MM".
 */
module LogModals {
  import opened Wrappers
  import opened JsMath
  import opened Types
  import opened Calendar
  import TodoPage

  /** What a time field can hold. */
  predicate TimeField(s: string) {
    s == "" || IsClockText(s)
  }

  /** The dialog's state: the two fields and the error line. */
  datatype Form = Form(startTime: string, endTime: string, error: string)

  const MissingTimes := "Both start and end times are required."
  const EndNotAfterStart := "End time must be after start time."

  /** A valid, non-empty interval: both times given and the end strictly after the start. */
  predicate ValidInterval(startTime: string, endTime: string) {
    IsClockText(startTime) && IsClockText(endTime) && ClockMinutes(startTime) < ClockMinutes(endTime)
  }

  // ---------------------------------------------------------------------
  // Asking for the interval of a task
  // ---------------------------------------------------------------------

  /** Selecting a task clears both fields and the error; clearing the selection keeps the form. */
  function OnTaskChange(task: Option<TodoItem>, form: Form): (r: Form)
    ensures task.Some? ==> r.startTime == "" && r.endTime == "" && r.error == ""
    ensures task.None? ==> r == form
  {
    if task.Some? then Form("", "", "") else form
  }

  /** What submitting a form does: nothing, show an error, or hand over an interval. */
  datatype Submission = NoAction | Rejected(form: Form) | Submitted(taskId: string, startTime: string, endTime: string, form: Form)

  /**
   * `handleSubmit` of the interval dialog: without a task nothing happens;
   * a missing time or an end not after the start shows the matching error
   * and submits nothing; otherwise the error is cleared and that task's id
   * is handed over with the two texts as typed.
   */
  function SubmitInterval(task: Option<TodoItem>, form: Form): (r: Submission)
    requires TimeField(form.startTime) && TimeField(form.endTime)
    ensures r.NoAction? <==> task.None?
    ensures r.Submitted? <==> task.Some? && ValidInterval(form.startTime, form.endTime)
    ensures r.Submitted? ==>
      r.taskId == task.value.id && r.startTime == form.startTime && r.endTime == form.endTime && r.form.error == ""
    ensures r.Rejected? ==> r.form.startTime == form.startTime && r.form.endTime == form.endTime
    ensures r.Rejected? ==> (r.form.error == MissingTimes <==> form.startTime == "" || form.endTime == "")
    ensures r.Rejected? && form.startTime != "" && form.endTime != "" ==> r.form.error == EndNotAfterStart
  {
    if task.None? then NoAction
    else if !Truthy(form.startTime) || !Truthy(form.endTime) then Rejected(form.(error := MissingTimes))
    else if ClockMinutes(form.endTime) <= ClockMinutes(form.startTime) then Rejected(form.(error := EndNotAfterStart))
    else Submitted(task.value.id, form.startTime, form.endTime, form.(error := ""))
  }

  /**
   * What the dialog hands over is logged for the item being ticked, and
   * the log it produces lasts a positive number of minutes.
   */
  lemma SubmittedIntervalLogsPositive(day: Day, logs: seq<LogEntry>, task: TodoItem, form: Form, logId: string)
    requires TimeField(form.startTime) && TimeField(form.endTime)
    requires task in day.items
    ensures var s := SubmitInterval(Some(task), form);
      s.Submitted? ==>
        var r := TodoPage.HandleLogSubmit(Some(day), logs, s.taskId, s.startTime, s.endTime, logId);
        r.Logged? && r.logs[|logs|].durationMinutes > 0 && r.logs[|logs|].todoItemId == task.id
  {
    var s := SubmitInterval(Some(task), form);
    if s.Submitted? {
      var k :| 0 <= k < |day.items| && day.items[k] == task;
      assert day.items[k].id == task.id;
    }
  }

  // ---------------------------------------------------------------------
  // Editing a log's interval
  // ---------------------------------------------------------------------

  /** Opening the editor on a log fills both fields from it and clears the error. */
  function OnLogChange(log: Option<LogEntry>, form: Form): (r: Form)
    ensures log.Some? ==> r.startTime == log.value.startTime && r.endTime == log.value.endTime && r.error == ""
    ensures log.None? ==> r == form
  {
    if log.Some? then Form(log.value.startTime, log.value.endTime, "") else form
  }

  datatype Edit = NoEdit | EditRejected(form: Form) | Update(log: LogEntry)

  /**
   * `handleSubmit` of the log editor: the same two checks as the interval
   * dialog, then the log with the new times and the recomputed duration.
   */
  function SubmitEdit(log: Option<LogEntry>, form: Form): (r: Edit)
    requires TimeField(form.startTime) && TimeField(form.endTime)
    ensures r.NoEdit? <==> log.None?
    ensures r.Update? <==> log.Some? && ValidInterval(form.startTime, form.endTime)
    ensures r.EditRejected? ==> (r.form.error == MissingTimes <==> form.startTime == "" || form.endTime == "")
    ensures r.EditRejected? && form.startTime != "" && form.endTime != "" ==> r.form.error == EndNotAfterStart
    ensures r.Update? ==>
      r.log.durationMinutes > 0
      && r.log.durationMinutes == ClockMinutes(form.endTime) - ClockMinutes(form.startTime)
      && r.log == log.value.(startTime := form.startTime, endTime := form.endTime, durationMinutes := r.log.durationMinutes)
  {
    if log.None? then NoEdit
    else if !Truthy(form.startTime) || !Truthy(form.endTime) then EditRejected(form.(error := MissingTimes))
    else if ClockMinutes(form.endTime) <= ClockMinutes(form.startTime) then EditRejected(form.(error := EndNotAfterStart))
    else
      var minutes := TodoPage.IntervalMinutes(form.startTime, form.endTime);
      Update(log.value.(startTime := form.startTime, endTime := form.endTime, durationMinutes := minutes))
  }

  /**
   * Saving the editor untouched gives back the same log when its stored
   * duration already matches its interval.
   */
  lemma EditUnchanged(log: LogEntry, form: Form)
    requires ValidInterval(log.startTime, log.endTime)
    requires log.durationMinutes == ClockMinutes(log.endTime) - ClockMinutes(log.startTime)
    ensures SubmitEdit(Some(log), OnLogChange(Some(log), form)) == Update(log)
  {
  }

  /**
   * Storing an edited log in place of the original keeps the central
   * invariant: an edit never changes which task and day a log records.
   */
  lemma EditKeepsConsistency(day: Day, logs: seq<LogEntry>, i: int, form: Form)
    requires 0 <= i < |logs|
    requires TimeField(form.startTime) && TimeField(form.endTime)
    requires Consistent(day, logs)
    ensures var e := SubmitEdit(Some(logs[i]), form);
      e.Update? ==> Consistent(day, logs[i := e.log])
  {
    var e := SubmitEdit(Some(logs[i]), form);
    if e.Update? {
      var logs' := logs[i := e.log];
      forall k | 0 <= k < |day.items| && day.items[k].done
        ensures HasLogOn(logs', day.items[k].id, day.date)
      {
        var j :| 0 <= j < |logs| && logs[j].todoItemId == day.items[k].id && logs[j].date == day.date;
        assert logs'[j].todoItemId == logs[j].todoItemId && logs'[j].date == logs[j].date;
      }
    }
  }
}

=== FILE: progress.dfy ===
/**
 * Syllabus progress: the overall percentage of a syllabus
 * (src/utils/progress.ts), the percentage of one unit shown by the
 * checklist (both copies of SubunitChecklist.tsx) and the subject page
 * (pages/SubjectPage.tsx), and the checklist's per-subunit rules.
 */
module Progress {
  import opened Wrappers
  import opened JsMath
  import opened Seqs
  import opened Types

  /** `s => s.id === id`, the subject lookup. */
  function HasId(id: string): Subject -> bool {
    (s: Subject) => s.id == id
  }

  /** `s => s.subjectId === subjectId`, the syllabus lookup. */
  function ForSubject(subjectId: string): Syllabus -> bool {
    (s: Syllabus) => s.subjectId == subjectId
  }

  /** `syllabusData.find(s => s.subjectId === subjectId)`. */
  function SyllabusOf(syllabi: seq<Syllabus>, subjectId: string): Option<Syllabus> {
    First(syllabi, ForSubject(subjectId))
  }

  /** The flags a subunit tracks: an absent flag is not counted. */
  function Tracked(s: Subunit): (n: int)
    ensures 0 <= n <= 2
  {
    (if s.tuteDone.Some? then 1 else 0) + (if s.pastDone.Some? then 1 else 0)
  }

  /** The flags a subunit has ticked. */
  function Ticked(s: Subunit): (n: int)
    ensures 0 <= n <= Tracked(s)
  {
    (if s.tuteDone == Some(true) then 1 else 0) + (if s.pastDone == Some(true) then 1 else 0)
  }

  function UnitTracked(u: Unit): int {
    SumBy(u.subunits, Tracked)
  }

  function UnitTicked(u: Unit): int {
    SumBy(u.subunits, Ticked)
  }

  /** A unit's ticked flags are among its tracked ones. */
  lemma UnitCounts(u: Unit)
    ensures 0 <= UnitTicked(u) <= UnitTracked(u)
  {
    SumMonotone(u.subunits, Ticked, Tracked);
    SumNonNegative(u.subunits, Ticked);
  }

  function SyllabusTracked(s: Syllabus): int {
    SumBy(s.units, UnitTracked)
  }

  function SyllabusTicked(s: Syllabus): int {
    SumBy(s.units, UnitTicked)
  }

  /** A syllabus's ticked flags are among its tracked ones. */
  lemma SyllabusCounts(s: Syllabus)
    ensures 0 <= SyllabusTicked(s) <= SyllabusTracked(s)
  {
    forall u | u in s.units ensures 0 <= UnitTicked(u) <= UnitTracked(u) {
      UnitCounts(u);
    }
    SumMonotone(s.units, UnitTicked, UnitTracked);
    SumNonNegative(s.units, UnitTicked);
  }

  /**
   * `calculateOverallProgress(syllabus)`: 0 for a missing syllabus or one
   * that tracks nothing, otherwise the rounded percentage of tracked flags
   * that are ticked. The source rounds a floating-point product; the first
   * bound below holds for any rounding to a nearest integer, the second
   * settles exact halves upwards, as the exact fraction would.
   */
  function OverallProgress(syllabus: Option<Syllabus>): (p: int)
    ensures 0 <= p <= 100
    ensures syllabus.None? ==> p == 0
    ensures syllabus.Some? && SyllabusTracked(syllabus.value) == 0 ==> p == 0
    ensures syllabus.Some? && SyllabusTracked(syllabus.value) > 0 ==>
      var t := SyllabusTracked(syllabus.value);
      2 * t * p <= 200 * SyllabusTicked(syllabus.value) + t < 2 * t * p + 2 * t
    ensures syllabus.Some? && SyllabusTracked(syllabus.value) > 0 ==>
      var t := SyllabusTracked(syllabus.value);
      t * (2 * p - 1) <= 200 * SyllabusTicked(syllabus.value) <= t * (2 * p + 1)
    ensures syllabus.Some? && 0 < SyllabusTicked(syllabus.value) == SyllabusTracked(syllabus.value) ==> p == 100
    ensures syllabus.Some? && SyllabusTicked(syllabus.value) == 0 ==> p == 0
  {
    if syllabus.None? then 0
    else
      var s := syllabus.value;
      SyllabusCounts(s);
      var total, completed := SyllabusTracked(s), SyllabusTicked(s);
      if total == 0 then 0
      else
        RoundPercentBounds(completed, total);
        if completed == total then RoundDivExact(100, total); assert 100 * total == total * 100; RoundDiv(100 * completed, total)
        else RoundDiv(100 * completed, total)
  }

  /**
   * `calculateProgress(unit)` of the checklist and the subject page: 100
   * for a unit that tracks nothing, otherwise the rounded percentage of
   * tracked flags that are ticked, with the same two rounding bounds as
   * `OverallProgress`.
   */
  function UnitProgress(u: Unit): (p: int)
    ensures 0 <= p <= 100
    ensures UnitTracked(u) == 0 ==> p == 100
    ensures UnitTracked(u) > 0 ==>
      var t := UnitTracked(u);
      2 * t * p <= 200 * UnitTicked(u) + t < 2 * t * p + 2 * t
    ensures UnitTracked(u) > 0 ==>
      var t := UnitTracked(u);
      t * (2 * p - 1) <= 200 * UnitTicked(u) <= t * (2 * p + 1)
    ensures UnitTicked(u) == UnitTracked(u) ==> p == 100
    ensures UnitTracked(u) > 0 && UnitTicked(u) == 0 ==> p == 0
  {
    UnitCounts(u);
    var total := UnitTracked(u);
    if total == 0 then 100
    else
      var completed := UnitTicked(u);
      RoundPercentBounds(completed, total);
      if completed == total then RoundDivExact(100, total); assert 100 * total == total * 100; RoundDiv(100 * completed, total)
      else RoundDiv(100 * completed, total)
  }

  /** With the same flags tracked, more ticked flags never show a lower unit percentage. */
  lemma UnitProgressMonotone(u: Unit, u': Unit)
    requires UnitTracked(u) == UnitTracked(u') && UnitTicked(u) <= UnitTicked(u')
    ensures UnitProgress(u) <= UnitProgress(u')
  {
    if UnitTracked(u) > 0 {
      RoundDivMonotone(100 * UnitTicked(u), 100 * UnitTicked(u'), UnitTracked(u));
    }
  }

  /** With the same flags tracked, more ticked flags never show a lower overall percentage. */
  lemma OverallProgressMonotone(s: Syllabus, s': Syllabus)
    requires SyllabusTracked(s) == SyllabusTracked(s') && SyllabusTicked(s) <= SyllabusTicked(s')
    ensures OverallProgress(Some(s)) <= OverallProgress(Some(s'))
  {
    if SyllabusTracked(s) > 0 {
      RoundDivMonotone(100 * SyllabusTicked(s), 100 * SyllabusTicked(s'), SyllabusTracked(s));
    }
  }

  /**
   * The two conventions differ only on a syllabus that tracks nothing: a
   * one-unit syllabus shows the unit's own percentage overall, except that
   * a unit with no flags is 100% done on its own and 0% done overall.
   */
  lemma ConventionsDiffer(subjectId: string, u: Unit)
    ensures UnitTracked(u) > 0 ==> OverallProgress(Some(Syllabus(subjectId, [u]))) == UnitProgress(u)
    ensures UnitTracked(u) == 0 ==> OverallProgress(Some(Syllabus(subjectId, [u]))) == 0 && UnitProgress(u) == 100
  {
    var s := Syllabus(subjectId, [u]);
    assert s.units[..0] == [];
    assert SumBy(s.units[..0], UnitTracked) == 0 && SumBy(s.units[..0], UnitTicked) == 0;
    assert SyllabusTracked(s) == UnitTracked(u);
    assert SyllabusTicked(s) == UnitTicked(u);
  }

  // ---------------------------------------------------------------------
  // The checklist's per-subunit rules
  // ---------------------------------------------------------------------

  /** The two flags of a subunit. */
  datatype Flag = TuteDone | PastDone

  /** The value of one flag. */
  function FlagOf(s: Subunit, f: Flag): Option<bool> {
    match f
    case TuteDone => s.tuteDone
    case PastDone => s.pastDone
  }

  /** `{ ...subunit, [field]: value }`: sets one flag, tracking it if it was not. */
  function SetFlag(s: Subunit, f: Flag, v: bool): (r: Subunit)
    ensures FlagOf(r, f) == Some(v)
    ensures forall g :: g != f ==> FlagOf(r, g) == FlagOf(s, g)
    ensures r.id == s.id && r.name == s.name && r.sinhalaName == s.sinhalaName
  {
    match f
    case TuteDone => s.(tuteDone := Some(v))
    case PastDone => s.(pastDone := Some(v))
  }

  /**
   * Setting a flag the subunit already tracks keeps its checkboxes and its
   * tracked count, moves its ticked count in the direction of the new
   * value, and setting the old value back restores the subunit.
   */
  lemma SetTrackedFlag(s: Subunit, f: Flag, v: bool)
    requires FlagOf(s, f).Some?
    ensures Checkboxes(SetFlag(s, f, v)) == Checkboxes(s)
    ensures Tracked(SetFlag(s, f, v)) == Tracked(s)
    ensures v ==> Ticked(SetFlag(s, f, v)) >= Ticked(s)
    ensures !v ==> Ticked(SetFlag(s, f, v)) <= Ticked(s)
    ensures SetFlag(SetFlag(s, f, v), f, FlagOf(s, f).value) == s
  {
  }

  /**
   * `allDone`: a chemistry subunit is done when its past papers are; any
   * other subunit when both its tutorial and its past papers are. An
   * absent flag counts as not done.
   */
  function AllDone(subjectId: string, s: Subunit): (r: bool)
    ensures subjectId == "chemistry" ==> (r <==> s.pastDone == Some(true))
    ensures subjectId != "chemistry" ==> (r <==> s.tuteDone == Some(true) && s.pastDone == Some(true))
  {
    if subjectId == "chemistry" then s.pastDone == Some(true)
    else s.tuteDone == Some(true) && s.pastDone == Some(true)
  }

  /**
   * A subunit shown as done has all its tracked flags ticked when it
   * tracks what the content editor gives its subject: past papers only in
   * chemistry, both flags elsewhere.
   */
  lemma AllDoneMeansComplete(subjectId: string, s: Subunit)
    requires subjectId == "chemistry" ==> s.tuteDone.None?
    ensures AllDone(subjectId, s) ==> Tracked(s) > 0 && Ticked(s) == Tracked(s)
    ensures Tracked(s) > 0 && Ticked(s) == Tracked(s) && (subjectId != "chemistry" ==> Tracked(s) == 2) ==> AllDone(subjectId, s)
  {
  }

  /** The checkboxes a subunit shows: one per tracked flag, tutorial first. */
  function Checkboxes(s: Subunit): (r: seq<Flag>)
    ensures forall f :: f in r <==> FlagOf(s, f).Some?
    ensures |r| == Tracked(s)
    ensures |r| == 2 ==> r == [TuteDone, PastDone]
  {
    (if s.tuteDone.Some? then [TuteDone] else []) + (if s.pastDone.Some? then [PastDone] else [])
  }

  /** `onSubunitChange(unitId, subunitId, field, value)`. */
  datatype Change = Change(unitId: string, subunitId: string, flag: Flag, value: bool)

  /** Clicking a checkbox reports its unit, subunit, flag and new state. */
  function OnCheck(u: Unit, s: Subunit, f: Flag, checked: bool): (c: Option<Change>)
    ensures c.Some? <==> f in Checkboxes(s)
    ensures c.Some? ==> c.value.unitId == u.id && c.value.subunitId == s.id && c.value.flag == f && c.value.value == checked
  {
    if FlagOf(s, f).Some? then Some(Change(u.id, s.id, f, checked)) else None
  }

  /** `getStatusInfo(status).text`. */
  function StatusLabel(status: Option<UnitStatus>): (text: string)
    ensures status == Some(Completed) ==> text == "Completed"
    ensures status == Some(Ongoing) ==> text == "Ongoing"
    ensures status != Some(Completed) && status != Some(Ongoing) ==> text == "Not Started"
  {
    match status
    case Some(Completed) => "Completed"
    case Some(Ongoing) => "Ongoing"
    case _ => "Not Started"
  }

  /** A missing status reads as not started, and the three statuses read differently. */
  lemma StatusLabelsDistinct(a: UnitStatus, b: UnitStatus)
    ensures StatusLabel(None) == StatusLabel(Some(NotStarted))
    ensures StatusLabel(Some(a)) == StatusLabel(Some(b)) <==> a == b
  {
  }
}

=== FILE: rollup.dfy ===
/**
 * The load-time weekly rollup of App.tsx: logs dated before the start of
 * the current week are grouped by the week they fall in, each group
 * becomes one `WeeklySummary` appended to the stored summaries, and only
 * the current week's logs are kept.
 */
module Rollup {
  import opened JsMath
  import opened Seqs
  import opened Types
  import opened Calendar

  /** The week a log belongs to: the Sunday that starts the week of its date. */
  function LogWeek(log: LogEntry): DayNumber {
    WeekStartOfDay(log.date)
  }

  function SubjectOf(log: LogEntry): string {
    log.subjectId
  }

  /** `log => new Date(log.date) < startOfThisWeek`. */
  function Stale(weekStart: DayNumber): LogEntry -> bool {
    (log: LogEntry) => log.date < weekStart
  }

  /** `log => new Date(log.date) >= startOfThisWeek`. */
  function Current(weekStart: DayNumber): LogEntry -> bool {
    (log: LogEntry) => log.date >= weekStart
  }

  /** `subjectAverages[s] = Math.round(subjectTotals[s] / 7)` for every subject seen. */
  function SubjectAverages(logs: seq<LogEntry>): map<string, int> {
    var totals := Totals(logs, SubjectOf, Duration);
    map s | s in totals :: RoundDiv(totals[s], 7)
  }

  /** The summary of one week's logs. */
  function Summarize(weekOf: DayNumber, logs: seq<LogEntry>): WeeklySummary {
    var total := SumBy(logs, Duration);
    WeeklySummary(weekOf, total, RoundDiv(total, 7), SubjectAverages(logs))
  }

  /**
   * A week's summary totals the week's minutes, averages them over seven
   * days, and lists exactly the week's subjects, each averaged over seven
   * days.
   */
  lemma SummarizeSpec(weekOf: DayNumber, logs: seq<LogEntry>)
    ensures Summarize(weekOf, logs).weekOf == weekOf
    ensures Summarize(weekOf, logs).totalMinutes == SumBy(logs, Duration)
    ensures var s := Summarize(weekOf, logs);
      2 * 7 * s.averageMinutesPerDay <= 2 * s.totalMinutes + 7 < 2 * 7 * s.averageMinutesPerDay + 2 * 7
    ensures forall s :: s in Summarize(weekOf, logs).subjectAverages <==> s in DistinctKeys(logs, SubjectOf)
    ensures forall s :: s in Summarize(weekOf, logs).subjectAverages ==>
      Summarize(weekOf, logs).subjectAverages[s] == RoundDiv(SumBy(Select(logs, SubjectOf, s), Duration), 7)
  {
    TotalsSpec(logs, SubjectOf, Duration);
  }

  /** `Object.entries(weeksToSummarize).map(...)`: one summary per bucket, in bucket order. */
  function NewSummaries(buckets: seq<Bucket<DayNumber, LogEntry>>): (r: seq<WeeklySummary>)
    ensures |r| == |buckets|
  {
    seq(|buckets|, i requires 0 <= i < |buckets| => Summarize(buckets[i].key, buckets[i].items))
  }

  function TotalOf(s: WeeklySummary): int {
    s.totalMinutes
  }

  /** What the load leaves in state (and saves): the logs, the summaries, and whether both were saved. */
  datatype Loaded = Loaded(logs: seq<LogEntry>, summaries: seq<WeeklySummary>, saved: bool)

  /**
   * The rollup run at load time, `now` being the current moment. The kept
   * logs are exactly the loaded ones of the current week; the stored
   * summaries are kept as a prefix, never deduplicated, and only followed by
   * summaries of earlier weeks; something is saved exactly when some log
   * predates the current week, and otherwise the loaded state is returned as is.
   */
  function WeeklyRollup(now: DateTime, logs: seq<LogEntry>, summaries: seq<WeeklySummary>): (r: Loaded)
    ensures var weekStart := StartOfWeek(now).day;
      forall log :: log in r.logs <==> log in logs && log.date >= weekStart
    ensures |summaries| <= |r.summaries| && r.summaries[..|summaries|] == summaries
    ensures r.saved <==> exists i :: 0 <= i < |logs| && logs[i].date < StartOfWeek(now).day
    ensures !r.saved ==> r == Loaded(logs, summaries, false)
    ensures r.saved ==> r.logs == Filter(logs, Current(StartOfWeek(now).day))
  {
    var weekStart := StartOfWeek(now).day;
    var stale := Filter(logs, Stale(weekStart));
    if |stale| > 0 then
      assert stale[0] in logs && stale[0].date < weekStart;
      Loaded(Filter(logs, Current(weekStart)), summaries + NewSummaries(GroupBy(stale, LogWeek)), true)
    else
      assert forall i :: 0 <= i < |logs| ==> logs[i] !in stale;
      Loaded(logs, summaries, false)
  }

  /** The weeks that get a new summary: the distinct weeks of the stale logs, first seen first. */
  function StaleWeeks(now: DateTime, logs: seq<LogEntry>): seq<DayNumber> {
    DistinctKeys(Filter(logs, Stale(StartOfWeek(now).day)), LogWeek)
  }

  /**
   * Every log ends up in exactly one of the two sets, in its original
   * order: the stale part and the kept part are complementary filters.
   */
  lemma RollupSplits(now: DateTime, logs: seq<LogEntry>, summaries: seq<WeeklySummary>)
    requires WeeklyRollup(now, logs, summaries).saved
    ensures var weekStart := StartOfWeek(now).day;
      multiset(Filter(logs, Stale(weekStart))) + multiset(WeeklyRollup(now, logs, summaries).logs) == multiset(logs)
  {
    var weekStart := StartOfWeek(now).day;
    FilterPartition(logs, Stale(weekStart), Current(weekStart));
  }

  /**
   * The new summaries are one per stale week, in order of first
   * appearance, each the summary of exactly the stale logs of that week.
   */
  lemma RollupSummaries(now: DateTime, logs: seq<LogEntry>, summaries: seq<WeeklySummary>)
    ensures var r := WeeklyRollup(now, logs, summaries);
      var weeks := StaleWeeks(now, logs);
      var stale := Filter(logs, Stale(StartOfWeek(now).day));
      |r.summaries| == |summaries| + |weeks|
      && (forall j :: 0 <= j < |weeks| ==>
            r.summaries[|summaries| + j] == Summarize(weeks[j], Select(stale, LogWeek, weeks[j])))
  {
    var weekStart := StartOfWeek(now).day;
    var stale := Filter(logs, Stale(weekStart));
    var weeks := StaleWeeks(now, logs);
    WeekBuckets(stale);
  }

  /** Each summarised week is a Sunday before the current week, and no week repeats. */
  lemma StaleWeeksEarlier(now: DateTime, logs: seq<LogEntry>)
    ensures forall w :: w in StaleWeeks(now, logs) ==> Weekday(w) == 0 && w < StartOfWeek(now).day
    ensures Distinct(StaleWeeks(now, logs))
  {
    var weekStart := StartOfWeek(now).day;
    var stale := Filter(logs, Stale(weekStart));
    forall w | w in StaleWeeks(now, logs) ensures Weekday(w) == 0 && w < weekStart {
      var log :| log in stale && LogWeek(log) == w;
    }
  }

  /** `Σ totalMinutes` over summaries. */
  function TotalMinutes(ss: seq<WeeklySummary>): int {
    SumBy(ss, TotalOf)
  }

  /**
   * No minute is lost or counted twice: the kept logs' minutes plus the
   * new summaries' totals equal the minutes of all loaded logs.
   */
  lemma RollupConservesMinutes(now: DateTime, logs: seq<LogEntry>, summaries: seq<WeeklySummary>)
    ensures var r := WeeklyRollup(now, logs, summaries);
      SumBy(r.logs, Duration) + TotalMinutes(r.summaries[|summaries|..]) == SumBy(logs, Duration)
  {
    var r := WeeklyRollup(now, logs, summaries);
    var weekStart := StartOfWeek(now).day;
    var stale := Filter(logs, Stale(weekStart));
    FilterSum(logs, Stale(weekStart), Current(weekStart), Duration);
    if r.saved {
      assert r.summaries[|summaries|..] == NewSummaries(GroupBy(stale, LogWeek));
      GroupedTotal(stale);
    } else {
      assert r.summaries[|summaries|..] == [];
      assert stale == [];
    }
  }

  /** The summaries of a grouping together total the minutes of the grouped logs. */
  lemma GroupedTotal(stale: seq<LogEntry>)
    ensures TotalMinutes(NewSummaries(GroupBy(stale, LogWeek))) == SumBy(stale, Duration)
  {
    var bs := GroupBy(stale, LogWeek);
    WeekBuckets(stale);
    SummariesTotal(bs, stale);
    KeysCover(stale, LogWeek);
    PartitionSum(Keys(bs), stale, LogWeek, Duration);
  }

  /** Each bucket of the grouping by week holds exactly the logs of its week. */
  lemma WeekBuckets(stale: seq<LogEntry>)
    ensures var bs := GroupBy(stale, LogWeek);
      Keys(bs) == DistinctKeys(stale, LogWeek)
      && forall j :: 0 <= j < |bs| ==> bs[j].items == Select(stale, LogWeek, bs[j].key)
  {
    var bs := GroupBy(stale, LogWeek);
    GroupBySpec(stale, LogWeek);
    forall j | 0 <= j < |bs| ensures bs[j].items == Select(stale, LogWeek, bs[j].key) {
      LookupAt(bs, j);
    }
  }

  /** The totals of per-bucket summaries add up to the per-key sums over the bucket keys. */
  lemma {:induction false} SummariesTotal(bs: seq<Bucket<DayNumber, LogEntry>>, xs: seq<LogEntry>)
    requires forall j :: 0 <= j < |bs| ==> bs[j].items == Select(xs, LogWeek, bs[j].key)
    ensures TotalMinutes(NewSummaries(bs)) == SumOverKeys(Keys(bs), xs, LogWeek, Duration)
  {
    if |bs| > 0 {
      var n := |bs| - 1;
      var bs', ss, ks := bs[..n], NewSummaries(bs), Keys(bs);
      assert ss[..n] == NewSummaries(bs');
      assert ks[..n] == Keys(bs');
      assert TotalOf(ss[n]) == SumBy(Select(xs, LogWeek, ks[n]), Duration);
      SummariesTotal(bs', xs);
    }
  }

  /**
   * Running the rollup again in the same week (a second load) changes
   * nothing: every kept log is already of the current week.
   */
  lemma RollupSettles(now: DateTime, later: DateTime, logs: seq<LogEntry>, summaries: seq<WeeklySummary>)
    requires StartOfWeek(later) == StartOfWeek(now)
    ensures var r := WeeklyRollup(now, logs, summaries);
      WeeklyRollup(later, r.logs, r.summaries) == Loaded(r.logs, r.summaries, false)
  {
    var r := WeeklyRollup(now, logs, summaries);
    assert forall i :: 0 <= i < |r.logs| ==> r.logs[i] in r.logs;
  }

  /**
   * The rollup keeps the central invariant of a current day that lies in
   * the current week: the logs that justify its ticked tasks are all kept.
   */
  lemma RollupKeepsConsistency(now: DateTime, day: Day, logs: seq<LogEntry>, summaries: seq<WeeklySummary>)
    requires Consistent(day, logs)
    requires day.date >= StartOfWeek(now).day
    ensures Consistent(day, WeeklyRollup(now, logs, summaries).logs)
  {
    var kept := WeeklyRollup(now, logs, summaries).logs;
    forall i | 0 <= i < |day.items| && day.items[i].done
      ensures HasLogOn(kept, day.items[i].id, day.date)
    {
      var j :| 0 <= j < |logs| && logs[j].todoItemId == day.items[i].id && logs[j].date == day.date;
      assert logs[j] in kept;
      var k :| 0 <= k < |kept| && kept[k] == logs[j];
    }
  }

  /** The calendar facts of the worked case below. */
  lemma ExampleDates()
    ensures DayNumberOf(2023, 12, 31) == 19722 && Weekday(19722) == 0
    ensures DayNumberOf(2024, 1, 1) == 19723 && DayNumberOf(2024, 1, 3) == 19725
    ensures DayNumberOf(2024, 1, 15) == 19737 && StartOfWeek(DateTime(19737, 600)).day == 19736
  {
  }

  /** Both logs of the worked case fall in the week of 2023-12-31. */
  lemma ExampleGroup(physics: LogEntry, chemistry: LogEntry)
    requires physics.date == 19723 && chemistry.date == 19725
    ensures GroupBy([physics, chemistry], LogWeek) == [Bucket(19722, [physics, chemistry])]
  {
    var logs := [physics, chemistry];
    assert LogWeek(physics) == 19722 && LogWeek(chemistry) == 19722;
    assert logs[..1] == [physics] && [physics][..0] == [];
    var one := [Bucket(19722, [physics])];
    assert GroupBy([physics], LogWeek) == one;
    assert GroupBy(logs, LogWeek) == Push(one, 19722, chemistry);
    assert one[1..] == [] && [physics] + [chemistry] == logs;
  }

  /** Both logs of the worked case predate the week of 2024-01-14. */
  lemma ExampleFilters(physics: LogEntry, chemistry: LogEntry)
    requires physics.date == 19723 && chemistry.date == 19725
    ensures Filter([physics, chemistry], Stale(19736)) == [physics, chemistry]
    ensures Filter([physics, chemistry], Current(19736)) == []
  {
    var logs := [physics, chemistry];
    FilterAll(logs, Stale(19736));
    FilterPartition(logs, Stale(19736), Current(19736));
  }

  /** The summary of the worked case's week. */
  lemma ExampleSummary(physics: LogEntry, chemistry: LogEntry)
    requires physics.subjectId == "physics" && physics.durationMinutes == 120
    requires chemistry.subjectId == "chemistry" && chemistry.durationMinutes == 60
    ensures Summarize(19722, [physics, chemistry])
      == WeeklySummary(19722, 180, 26, map["physics" := 17, "chemistry" := 9])
  {
    var logs := [physics, chemistry];
    assert logs[..1] == [physics] && [physics][..0] == [];
    assert SumBy([physics], Duration) == 120;
    assert SumBy(logs, Duration) == 180;
    assert Totals([physics], SubjectOf, Duration) == map["physics" := 120];
    assert Totals(logs, SubjectOf, Duration) == map["physics" := 120, "chemistry" := 60];
    assert RoundDiv(180, 7) == 26 && RoundDiv(120, 7) == 17 && RoundDiv(60, 7) == 9;
    assert SubjectAverages(logs) == map["physics" := 17, "chemistry" := 9];
  }

  /**
   * A worked case: 120 minutes of physics on Monday 2024-01-01 and 60 of
   * chemistry on 2024-01-03, loaded on 2024-01-15, become one summary for
   * the week of Sunday 2023-12-31 with 180 minutes, 26 a day, and subject
   * averages of 17 and 9; no log is kept.
   */
  lemma RollupExample()
    ensures var physics := LogEntry("l1", DayNumberOf(2024, 1, 1), "t1", "Waves", "physics", "08:00", "10:00", 120);
      var chemistry := LogEntry("l2", DayNumberOf(2024, 1, 3), "t2", "Acids", "chemistry", "09:00", "10:00", 60);
      WeeklyRollup(DateTime(DayNumberOf(2024, 1, 15), 600), [physics, chemistry], [])
        == Loaded([], [WeeklySummary(DayNumberOf(2023, 12, 31), 180, 26, map["physics" := 17, "chemistry" := 9])], true)
  {
    ExampleDates();
    var physics := LogEntry("l1", 19723, "t1", "Waves", "physics", "08:00", "10:00", 120);
    var chemistry := LogEntry("l2", 19725, "t2", "Acids", "chemistry", "09:00", "10:00", 60);
    var logs := [physics, chemistry];
    ExampleFilters(physics, chemistry);
    ExampleGroup(physics, chemistry);
    ExampleSummary(physics, chemistry);
    assert NewSummaries([Bucket(19722, logs)]) == [Summarize(19722, logs)];
    assert WeeklyRollup(DateTime(19737, 600), logs, []) == Loaded([], [Summarize(19722, logs)], true);
  }
}

=== FILE: seqs.dfy ===
/**
 * `Array.prototype.filter`, summing with `reduce`, and grouping into
 * per-key buckets with `reduce` + `push`, together with the facts the
 * views and the weekly rollup need about them: filters partition, sums
 * split over a partition, and each bucket holds exactly its own items in
 * their original order.
 */
module Seqs {
  import opened Wrappers

  /** `xs.filter(p)`: the elements satisfying `p`, in their original order. */
  function Filter<T(!new)>(xs: seq<T>, p: T -> bool): (r: seq<T>)
    ensures |r| <= |xs|
    ensures forall x :: x in r <==> x in xs && p(x)
  {
    if |xs| == 0 then [] else Filter(xs[..|xs| - 1], p) + (if p(xs[|xs| - 1]) then [xs[|xs| - 1]] else [])
  }

  lemma {:induction false} FilterAppend<T(!new)>(a: seq<T>, b: seq<T>, p: T -> bool)
    ensures Filter(a + b, p) == Filter(a, p) + Filter(b, p)
    decreases |b|
  {
    if |b| == 0 {
      assert a + b == a;
    } else {
      var b' := b[..|b| - 1];
      assert (a + b)[..|a + b| - 1] == a + b';
      FilterAppend(a, b', p);
    }
  }

  /**
   * Filtering by a predicate and by its negation splits `xs` into two parts
   * that together hold every element exactly once.
   */
  lemma {:induction false} FilterPartition<T(!new)>(xs: seq<T>, p: T -> bool, q: T -> bool)
    requires forall x :: q(x) == !p(x)
    ensures multiset(Filter(xs, p)) + multiset(Filter(xs, q)) == multiset(xs)
    ensures |Filter(xs, p)| + |Filter(xs, q)| == |xs|
  {
    if |xs| > 0 {
      var xs', x := xs[..|xs| - 1], xs[|xs| - 1];
      assert xs == xs' + [x];
      FilterPartition(xs', p, q);
      PartitionStep(xs', x, p, q);
    }
  }

  /** Appending one element adds it to exactly one side of the partition. */
  lemma PartitionStep<T(!new)>(xs: seq<T>, x: T, p: T -> bool, q: T -> bool)
    requires q(x) == !p(x)
    ensures multiset(Filter(xs + [x], p)) + multiset(Filter(xs + [x], q))
      == multiset(Filter(xs, p)) + multiset(Filter(xs, q)) + multiset{x}
  {
    var ys := xs + [x];
    assert ys[..|ys| - 1] == xs && ys[|ys| - 1] == x;
    if p(x) {
      assert Filter(ys, p) == Filter(xs, p) + [x] && Filter(ys, q) == Filter(xs, q);
      AddOneLeft(Filter(xs, p), Filter(xs, q), x);
    } else {
      assert Filter(ys, q) == Filter(xs, q) + [x] && Filter(ys, p) == Filter(xs, p);
      AddOneRight(Filter(xs, p), Filter(xs, q), x);
    }
  }

  /** A prefix holds each element at most as often as the whole sequence. */
  lemma PrefixMultiset<T>(xs: seq<T>, n: nat)
    requires n <= |xs|
    ensures multiset(xs[..n]) <= multiset(xs)
  {
    assert xs == xs[..n] + xs[n..];
  }

  lemma AddOneLeft<T>(a: seq<T>, b: seq<T>, x: T)
    ensures multiset(a + [x]) + multiset(b) == multiset(a) + multiset(b) + multiset{x}
  {
    assert multiset(a + [x]) == multiset(a) + multiset{x};
  }

  lemma AddOneRight<T>(a: seq<T>, b: seq<T>, x: T)
    ensures multiset(a) + multiset(b + [x]) == multiset(a) + multiset(b) + multiset{x}
  {
    assert multiset(b + [x]) == multiset(b) + multiset{x};
  }

  /** The two parts of a filter partition add up to the whole sum. */
  lemma {:induction false} FilterSum<T(!new)>(xs: seq<T>, p: T -> bool, q: T -> bool, f: T -> int)
    requires forall x :: q(x) == !p(x)
    ensures SumBy(Filter(xs, p), f) + SumBy(Filter(xs, q), f) == SumBy(xs, f)
  {
    if |xs| > 0 {
      var xs', x := xs[..|xs| - 1], xs[|xs| - 1];
      FilterSum(xs', p, q, f);
      SumAppend(Filter(xs', p), if p(x) then [x] else [], f);
      SumAppend(Filter(xs', q), if q(x) then [x] else [], f);
      assert [x][..0] == [];
    }
  }

  /** Filtering with an everywhere-true predicate keeps the sequence. */
  lemma {:induction false} FilterAll<T(!new)>(xs: seq<T>, p: T -> bool)
    requires forall x :: x in xs ==> p(x)
    ensures Filter(xs, p) == xs
  {
    if |xs| > 0 {
      var xs' := xs[..|xs| - 1];
      assert forall x :: x in xs' ==> x in xs;
      FilterAll(xs', p);
      assert xs == xs' + [xs[|xs| - 1]];
    }
  }

  /** Filtering with a predicate that holds nowhere leaves nothing. */
  lemma {:induction false} FilterNone<T(!new)>(xs: seq<T>, p: T -> bool)
    requires forall i :: 0 <= i < |xs| ==> !p(xs[i])
    ensures Filter(xs, p) == []
  {
    if |xs| > 0 {
      FilterNone(xs[..|xs| - 1], p);
    }
  }

  /** `xs.find(p)`: the first element satisfying `p`, if there is one. */
  function First<T>(xs: seq<T>, p: T -> bool): (r: Option<T>)
    ensures r.None? <==> forall i :: 0 <= i < |xs| ==> !p(xs[i])
    ensures r.Some? ==> exists i :: 0 <= i < |xs| && xs[i] == r.value && p(xs[i]) && forall j :: 0 <= j < i ==> !p(xs[j])
  {
    if |xs| == 0 then None
    else if p(xs[0]) then Some(xs[0])
    else
      var r := First(xs[1..], p);
      assert forall i :: 1 <= i < |xs| ==> xs[i] == xs[1..][i - 1];
      r
  }

  /** `find` with two predicates that agree on every element finds the same one. */
  lemma {:induction false} FirstSame<T>(xs: seq<T>, p: T -> bool, q: T -> bool)
    requires forall i :: 0 <= i < |xs| ==> p(xs[i]) == q(xs[i])
    ensures First(xs, p) == First(xs, q)
  {
    if |xs| > 0 && !p(xs[0]) {
      FirstSame(xs[1..], p, q);
    }
  }

  /** `xs.reduce((sum, x) => sum + f(x), 0)`. */
  function SumBy<T(!new)>(xs: seq<T>, f: T -> int): int {
    if |xs| == 0 then 0 else SumBy(xs[..|xs| - 1], f) + f(xs[|xs| - 1])
  }

  lemma {:induction false} SumAppend<T(!new)>(a: seq<T>, b: seq<T>, f: T -> int)
    ensures SumBy(a + b, f) == SumBy(a, f) + SumBy(b, f)
    decreases |b|
  {
    if |b| == 0 {
      assert a + b == a;
    } else {
      var b' := b[..|b| - 1];
      assert (a + b)[..|a + b| - 1] == a + b';
      SumAppend(a, b', f);
    }
  }

  /** A sum of non-negative terms is non-negative. */
  lemma {:induction false} SumNonNegative<T(!new)>(xs: seq<T>, f: T -> int)
    requires forall x :: x in xs ==> f(x) >= 0
    ensures SumBy(xs, f) >= 0
  {
    if |xs| > 0 {
      var xs' := xs[..|xs| - 1];
      assert forall x :: x in xs' ==> x in xs;
      SumNonNegative(xs', f);
    }
  }

  /** A pointwise smaller summand gives a smaller sum. */
  lemma {:induction false} SumMonotone<T(!new)>(xs: seq<T>, f: T -> int, g: T -> int)
    requires forall x :: x in xs ==> f(x) <= g(x)
    ensures SumBy(xs, f) <= SumBy(xs, g)
  {
    if |xs| > 0 {
      var xs' := xs[..|xs| - 1];
      assert forall x :: x in xs' ==> x in xs;
      SumMonotone(xs', f, g);
    }
  }

  /** Two equally long lists whose terms compare one by one have sums that compare too. */
  lemma {:induction false} SumPointwise<A(!new), B(!new)>(a: seq<A>, f: A -> int, b: seq<B>, g: B -> int)
    requires |a| == |b|
    requires forall i :: 0 <= i < |a| ==> f(a[i]) <= g(b[i])
    ensures SumBy(a, f) <= SumBy(b, g)
  {
    if |a| > 0 {
      SumPointwise(a[..|a| - 1], f, b[..|b| - 1], g);
    }
  }

  /** The items whose key is `k`, in their original order. */
  function Select<T(!new), K(==,!new)>(xs: seq<T>, key: T -> K, k: K): (r: seq<T>)
    ensures |r| <= |xs|
    ensures forall x :: x in r <==> x in xs && key(x) == k
  {
    if |xs| == 0 then []
    else Select(xs[..|xs| - 1], key, k) + (if key(xs[|xs| - 1]) == k then [xs[|xs| - 1]] else [])
  }

  /** The distinct keys of `xs` in order of first appearance. */
  function DistinctKeys<T(!new), K(==,!new)>(xs: seq<T>, key: T -> K): (ks: seq<K>)
    ensures Distinct(ks) && |ks| <= |xs|
    ensures forall k :: k in ks <==> exists x :: x in xs && key(x) == k
  {
    if |xs| == 0 then []
    else
      var ks := DistinctKeys(xs[..|xs| - 1], key);
      var k := key(xs[|xs| - 1]);
      assert forall x :: x in xs[..|xs| - 1] ==> x in xs;
      assert forall x :: x in xs ==> x in xs[..|xs| - 1] || x == xs[|xs| - 1];
      if k in ks then ks else ks + [k]
  }

  /** Every item's key is among the distinct keys. */
  lemma KeysCover<T(!new), K(!new)>(xs: seq<T>, key: T -> K)
    ensures forall x :: x in xs ==> key(x) in DistinctKeys(xs, key)
  {
    forall x | x in xs ensures key(x) in DistinctKeys(xs, key) {
      assert exists y :: y in xs && key(y) == key(x);
    }
  }

  /** A key that never occurs selects nothing. */
  lemma SelectAbsent<T(!new), K(!new)>(xs: seq<T>, key: T -> K, k: K)
    ensures k !in DistinctKeys(xs, key) ==> Select(xs, key, k) == []
  {
    var sel := Select(xs, key, k);
    if |sel| > 0 {
      assert sel[0] in sel;
    }
  }

  /**
   * `xs.reduce((acc, x) => { acc[key(x)] = (acc[key(x)] || 0) + f(x); return acc }, {})`:
   * the running total of `f` per key.
   */
  function Totals<T(!new), K(==,!new)>(xs: seq<T>, key: T -> K, f: T -> int): map<K, int> {
    if |xs| == 0 then map[]
    else
      var m := Totals(xs[..|xs| - 1], key, f);
      var x := xs[|xs| - 1];
      m[key(x) := (if key(x) in m then m[key(x)] else 0) + f(x)]
  }

  /** The totals hold exactly the keys that occur, each with the sum over its items. */
  lemma {:induction false} TotalsSpec<T(!new), K(!new)>(xs: seq<T>, key: T -> K, f: T -> int)
    ensures forall k :: k in Totals(xs, key, f) <==> k in DistinctKeys(xs, key)
    ensures forall k :: k in Totals(xs, key, f) ==> Totals(xs, key, f)[k] == SumBy(Select(xs, key, k), f)
  {
    if |xs| > 0 {
      var xs', x := xs[..|xs| - 1], xs[|xs| - 1];
      TotalsSpec(xs', key, f);
      forall k | k in Totals(xs, key, f)
        ensures Totals(xs, key, f)[k] == SumBy(Select(xs, key, k), f)
      {
        var tail := if key(x) == k then [x] else [];
        SumAppend(Select(xs', key, k), tail, f);
        assert [x][..0] == [];
        SelectAbsent(xs', key, k);
      }
    }
  }

  predicate Distinct<K(==)>(ks: seq<K>) {
    forall i, j :: 0 <= i < j < |ks| ==> ks[i] != ks[j]
  }

  /** The per-key subtotals of `xs`, added up over the listed keys. */
  function SumOverKeys<T(!new), K(==,!new)>(keys: seq<K>, xs: seq<T>, key: T -> K, f: T -> int): int {
    if |keys| == 0 then 0
    else SumOverKeys(keys[..|keys| - 1], xs, key, f) + SumBy(Select(xs, key, keys[|keys| - 1]), f)
  }

  /**
   * Summing per key over a list of distinct keys that covers every item
   * gives the plain total: each item is counted under exactly one key.
   */
  lemma {:induction false} PartitionSum<T(!new), K(!new)>(keys: seq<K>, xs: seq<T>, key: T -> K, f: T -> int)
    requires Distinct(keys)
    requires forall x :: x in xs ==> key(x) in keys
    ensures SumOverKeys(keys, xs, key, f) == SumBy(xs, f)
    decreases |xs|
  {
    if |xs| == 0 {
      SumOverKeysEmpty(keys, xs, key, f);
    } else {
      var xs' := xs[..|xs| - 1];
      var x := xs[|xs| - 1];
      assert xs == xs' + [x];
      assert key(x) in keys;
      forall y | y in xs' ensures key(y) in keys {
        assert y in xs;
      }
      PartitionSum(keys, xs', key, f);
      SumOverKeysSnoc(keys, xs', x, key, f);
    }
  }

  lemma {:induction false} SumOverKeysEmpty<T(!new), K(!new)>(keys: seq<K>, xs: seq<T>, key: T -> K, f: T -> int)
    requires |xs| == 0
    ensures SumOverKeys(keys, xs, key, f) == 0
  {
    if |keys| > 0 {
      SumOverKeysEmpty(keys[..|keys| - 1], xs, key, f);
    }
  }

  /** Appending one item adds its value once, under its own key. */
  lemma {:induction false} SumOverKeysSnoc<T(!new), K(!new)>(keys: seq<K>, xs: seq<T>, x: T, key: T -> K, f: T -> int)
    requires Distinct(keys)
    ensures SumOverKeys(keys, xs + [x], key, f)
         == SumOverKeys(keys, xs, key, f) + (if key(x) in keys then f(x) else 0)
  {
    if |keys| > 0 {
      var keys' := keys[..|keys| - 1];
      var k := keys[|keys| - 1];
      SumOverKeysSnoc(keys', xs, x, key, f);
      assert (xs + [x])[..|xs + [x]| - 1] == xs;
      var sel := Select(xs + [x], key, k);
      assert sel == Select(xs, key, k) + (if key(x) == k then [x] else []);
      SumAppend(Select(xs, key, k), if key(x) == k then [x] else [], f);
      assert [x][..0] == [];
      assert key(x) in keys <==> key(x) in keys' || key(x) == k;
      assert key(x) == k ==> key(x) !in keys';
    }
  }

  // ---------------------------------------------------------------------
  // Grouping: `xs.reduce((acc, x) => { (acc[key(x)] ||= []).push(x); return acc }, {})`,
  // kept as a list of buckets in the order their keys were first seen,
  // which is the order `Object.keys` / `Object.entries` report them in.
  // ---------------------------------------------------------------------

  datatype Bucket<K, T> = Bucket(key: K, items: seq<T>)

  function Keys<K(!new), T(!new)>(bs: seq<Bucket<K, T>>): (ks: seq<K>)
    ensures |ks| == |bs|
    ensures forall i :: 0 <= i < |bs| ==> ks[i] == bs[i].key
  {
    if |bs| == 0 then [] else [bs[0].key] + Keys(bs[1..])
  }

  /** `acc[k]` for a bucket list: the items filed under `k`, or none. */
  function Lookup<K(==,!new), T(!new)>(bs: seq<Bucket<K, T>>, k: K): seq<T> {
    if |bs| == 0 then [] else if bs[0].key == k then bs[0].items else Lookup(bs[1..], k)
  }

  /** `(acc[k] ||= []).push(x)`. */
  function Push<K(==,!new), T(!new)>(bs: seq<Bucket<K, T>>, k: K, x: T): (r: seq<Bucket<K, T>>)
    ensures |r| > 0
  {
    if |bs| == 0 then [Bucket(k, [x])]
    else if bs[0].key == k then [bs[0].(items := bs[0].items + [x])] + bs[1..]
    else [bs[0]] + Push(bs[1..], k, x)
  }

  /** Pushing under a known key keeps the key list; under a new key it appends the key. */
  lemma {:induction false} PushKeys<K(!new), T(!new)>(bs: seq<Bucket<K, T>>, k: K, x: T)
    ensures k in Keys(bs) ==> Keys(Push(bs, k, x)) == Keys(bs)
    ensures k !in Keys(bs) ==> Keys(Push(bs, k, x)) == Keys(bs) + [k]
  {
    var r := Push(bs, k, x);
    if |bs| > 0 {
      assert Keys(bs) == [bs[0].key] + Keys(bs[1..]);
      assert Keys(r) == [r[0].key] + Keys(r[1..]);
      if bs[0].key != k {
        PushKeys(bs[1..], k, x);
      } else {
        assert r[1..] == bs[1..];
      }
    }
  }

  /** Pushing adds the item to the end of its own bucket and touches no other bucket. */
  lemma {:induction false} PushLookup<K(!new), T(!new)>(bs: seq<Bucket<K, T>>, k: K, x: T, k': K)
    requires Distinct(Keys(bs))
    ensures Lookup(Push(bs, k, x), k') == Lookup(bs, k') + (if k' == k then [x] else [])
  {
    var r := Push(bs, k, x);
    if |bs| > 0 {
      assert Keys(bs) == [bs[0].key] + Keys(bs[1..]);
      if bs[0].key == k {
        assert r[1..] == bs[1..];
        if k' == k {
          LookupAbsent(bs[1..], k);
        }
      } else {
        assert r[1..] == Push(bs[1..], k, x);
        PushLookup(bs[1..], k, x, k');
      }
    }
  }

  lemma {:induction false} PushNonEmpty<K(!new), T(!new)>(bs: seq<Bucket<K, T>>, k: K, x: T)
    requires forall i :: 0 <= i < |bs| ==> |bs[i].items| > 0
    ensures forall i :: 0 <= i < |Push(bs, k, x)| ==> |Push(bs, k, x)[i].items| > 0
  {
    if |bs| > 0 && bs[0].key != k {
      PushNonEmpty(bs[1..], k, x);
    }
  }

  lemma {:induction false} LookupAbsent<K(!new), T(!new)>(bs: seq<Bucket<K, T>>, k: K)
    requires k !in Keys(bs)
    ensures Lookup(bs, k) == []
  {
    if |bs| > 0 {
      assert Keys(bs) == [bs[0].key] + Keys(bs[1..]);
      LookupAbsent(bs[1..], k);
    }
  }

  /** The buckets of `xs` by `key`. */
  function GroupBy<T(!new), K(==,!new)>(xs: seq<T>, key: T -> K): (bs: seq<Bucket<K, T>>)
    ensures Distinct(Keys(bs))
    ensures forall i :: 0 <= i < |bs| ==> |bs[i].items| > 0
  {
    if |xs| == 0 then []
    else
      var bs := GroupBy(xs[..|xs| - 1], key);
      var k, x := key(xs[|xs| - 1]), xs[|xs| - 1];
      PushKeys(bs, k, x);
      PushNonEmpty(bs, k, x);
      Push(bs, k, x)
  }

  /**
   * Grouping files every item under exactly its own key, keeping the
   * original order inside a bucket; the keys are the distinct keys of
   * `xs` in order of first appearance.
   */
  lemma {:induction false} GroupBySpec<T(!new), K(!new)>(xs: seq<T>, key: T -> K)
    ensures forall k :: Lookup(GroupBy(xs, key), k) == Select(xs, key, k)
    ensures Keys(GroupBy(xs, key)) == DistinctKeys(xs, key)
  {
    if |xs| > 0 {
      var xs' := xs[..|xs| - 1];
      GroupBySpec(xs', key);
      var bs := GroupBy(xs', key);
      var k, x := key(xs[|xs| - 1]), xs[|xs| - 1];
      PushKeys(bs, k, x);
      forall k' ensures Lookup(GroupBy(xs, key), k') == Select(xs, key, k') {
        PushLookup(bs, k, x, k');
      }
    }
  }

  /** In a bucket list with distinct keys, each bucket is what `Lookup` finds for its key. */
  lemma {:induction false} LookupAt<K(!new), T(!new)>(bs: seq<Bucket<K, T>>, i: int)
    requires Distinct(Keys(bs)) && 0 <= i < |bs|
    ensures Lookup(bs, bs[i].key) == bs[i].items
  {
    if i > 0 {
      assert Keys(bs[1..]) == Keys(bs)[1..];
      assert bs[0].key != bs[i].key by { assert Keys(bs)[0] != Keys(bs)[i]; }
      LookupAt(bs[1..], i - 1);
    }
  }
}

=== FILE: sorting.dfy ===
/**
 * The stable `Array.prototype.sort` with a numeric comparator
 * `(a, b) => key(a) - key(b)`, as an insertion sort over sequences.
 * A descending order is the ascending order of the negated key.
 */
module Sorting {
  import opened Seqs

  /** `xs` is in non-decreasing order of `key`. */
  predicate SortedBy<T>(xs: seq<T>, key: T -> int) {
    forall i, j :: 0 <= i < j < |xs| ==> key(xs[i]) <= key(xs[j])
  }

  /** Where `x` goes in a sorted `s`: after every element whose key is at most its own. */
  function InsertPos<T>(s: seq<T>, x: T, key: T -> int): (i: nat)
    requires SortedBy(s, key)
    ensures i <= |s|
    ensures forall j :: 0 <= j < i ==> key(s[j]) <= key(x)
    ensures forall j :: i <= j < |s| ==> key(x) < key(s[j])
  {
    if |s| == 0 || key(s[|s| - 1]) <= key(x) then |s|
    else InsertPos(s[..|s| - 1], x, key)
  }

  /** Inserts `x` into a sorted `s`, behind the elements with the same key. */
  function Insert<T>(s: seq<T>, x: T, key: T -> int): (r: seq<T>)
    requires SortedBy(s, key)
    ensures SortedBy(r, key)
    ensures multiset(r) == multiset(s) + multiset{x}
    ensures |r| == |s| + 1
  {
    var i := InsertPos(s, x, key);
    var lo, hi := s[..i], s[i..];
    assert s == lo + hi;
    InsertSorted(lo, hi, x, key);
    assert multiset(lo + [x] + hi) == multiset(lo) + multiset{x} + multiset(hi);
    lo + [x] + hi
  }

  /** Putting `x` between the smaller-or-equal and the larger keys keeps the order. */
  lemma InsertSorted<T>(lo: seq<T>, hi: seq<T>, x: T, key: T -> int)
    requires SortedBy(lo + hi, key)
    requires forall j :: 0 <= j < |lo| ==> key(lo[j]) <= key(x)
    requires forall j :: 0 <= j < |hi| ==> key(x) < key(hi[j])
    ensures SortedBy(lo + [x] + hi, key)
  {
    var s, r := lo + hi, lo + [x] + hi;
    forall a, b | 0 <= a < b < |r| ensures key(r[a]) <= key(r[b]) {
      if b < |lo| {
        assert r[a] == s[a] && r[b] == s[b];
      } else if b == |lo| {
        assert r[a] == lo[a];
      } else if a < |lo| {
        assert r[a] == s[a] && r[b] == s[b - 1];
      } else if a == |lo| {
        assert r[b] == hi[b - |lo| - 1];
      } else {
        assert r[a] == s[a - 1] && r[b] == s[b - 1];
      }
    }
  }

  /** `xs.slice().sort((a, b) => key(a) - key(b))`. */
  function SortBy<T(!new)>(xs: seq<T>, key: T -> int): (r: seq<T>)
    ensures SortedBy(r, key)
    ensures multiset(r) == multiset(xs)
    ensures |r| == |xs|
  {
    if |xs| == 0 then []
    else
      assert xs == xs[..|xs| - 1] + [xs[|xs| - 1]];
      Insert(SortBy(xs[..|xs| - 1], key), xs[|xs| - 1], key)
  }

  /** `y => key(y) == k`. */
  function KeyIs<T>(key: T -> int, k: int): T -> bool {
    (y: T) => key(y) == k
  }

  /** Insertion keeps equal-keyed elements in arrival order, the new one last. */
  lemma {:induction false} InsertStable<T(!new)>(s: seq<T>, x: T, key: T -> int, k: int)
    requires SortedBy(s, key)
    ensures Filter(Insert(s, x, key), KeyIs(key, k)) == Filter(s, KeyIs(key, k)) + Filter([x], KeyIs(key, k))
  {
    var i := InsertPos(s, x, key);
    var lo, hi := s[..i], s[i..];
    assert s == lo + hi;
    assert key(x) == k ==> forall j :: 0 <= j < |hi| ==> !KeyIs(key, k)(hi[j]);
    FilterInsertAt(lo, hi, x, KeyIs(key, k));
  }

  /**
   * Filtering a sequence with `x` put between `lo` and `hi` gives the
   * filtered `lo + hi` followed by `x`, when nothing in `hi` passes along
   * with `x`.
   */
  lemma {:induction false} FilterInsertAt<T(!new)>(lo: seq<T>, hi: seq<T>, x: T, p: T -> bool)
    requires p(x) ==> forall j :: 0 <= j < |hi| ==> !p(hi[j])
    ensures Filter(lo + [x] + hi, p) == Filter(lo + hi, p) + Filter([x], p)
  {
    FilterAround(lo, x, hi, p);
    FilterAppend(lo, hi, p);
    if p(x) {
      FilterNone(hi, p);
    }
    SwapEmpty(Filter(lo, p), Filter([x], p), Filter(hi, p));
  }

  /** `a + b + c == a + c + b` when one of `b`, `c` is empty. */
  lemma SwapEmpty<T>(a: seq<T>, b: seq<T>, c: seq<T>)
    requires b == [] || c == []
    ensures a + b + c == a + c + b
  {
  }

  lemma {:induction false} FilterAround<T(!new)>(lo: seq<T>, x: T, hi: seq<T>, p: T -> bool)
    ensures Filter(lo + [x] + hi, p) == Filter(lo, p) + Filter([x], p) + Filter(hi, p)
    ensures Filter([x], p) == if p(x) then [x] else []
  {
    assert Filter([x], p) == (if p(x) then [x] else []) by { assert [x][..0] == []; }
    FilterAppend(lo + [x], hi, p);
    FilterAppend(lo, [x], p);
  }

  /**
   * The sort is stable: for every key value, the elements carrying it
   * appear in the order they had in the input.
   */
  lemma {:induction false} SortStable<T(!new)>(xs: seq<T>, key: T -> int, k: int)
    ensures Filter(SortBy(xs, key), KeyIs(key, k)) == Filter(xs, KeyIs(key, k))
  {
    if |xs| > 0 {
      var xs', x := xs[..|xs| - 1], xs[|xs| - 1];
      assert xs == xs' + [x];
      var p := KeyIs(key, k);
      var sorted' := SortBy(xs', key);
      FilterAppend(xs', [x], p);
      SortByLast(xs, key);
      SortStable(xs', key, k);
      InsertStable(sorted', x, key, k);
      calc {
        Filter(SortBy(xs, key), p);
        Filter(Insert(sorted', x, key), p);
        Filter(sorted', p) + Filter([x], p);
        Filter(xs', p) + Filter([x], p);
        Filter(xs, p);
      }
    }
  }

  /** One step of the insertion sort. */
  lemma SortByLast<T(!new)>(xs: seq<T>, key: T -> int)
    requires |xs| > 0
    ensures SortBy(xs, key) == Insert(SortBy(xs[..|xs| - 1], key), xs[|xs| - 1], key)
  {
  }

  /** Sorting keeps exactly the elements it was given. */
  lemma SortMembers<T(!new)>(xs: seq<T>, key: T -> int)
    ensures forall y :: y in SortBy(xs, key) <==> y in xs
  {
    var r := SortBy(xs, key);
    forall y ensures y in r <==> y in xs {
      assert y in r <==> y in multiset(r);
      assert y in xs <==> y in multiset(xs);
    }
  }

  /** A permutation of a list without repeats has no repeats either. */
  lemma SortDistinct<T(!new)>(xs: seq<T>, key: T -> int)
    requires Distinct(xs)
    ensures Distinct(SortBy(xs, key))
  {
    var r := SortBy(xs, key);
    forall i, j | 0 <= i < j < |r| ensures r[i] != r[j] {
      if r[i] == r[j] {
        RepeatCount(r, i, j);
        DistinctCount(xs, r[i]);
      }
    }
  }

  /** A repeated element is counted at least twice. */
  lemma RepeatCount<T>(r: seq<T>, i: int, j: int)
    requires 0 <= i < j < |r| && r[i] == r[j]
    ensures multiset(r)[r[i]] >= 2
  {
    assert r == r[..j] + [r[j]] + r[j + 1..];
    assert r[..j][i] == r[i];
    assert multiset(r) == multiset(r[..j]) + multiset{r[j]} + multiset(r[j + 1..]);
  }

  /** In a list without repeats every element occurs at most once. */
  lemma {:induction false} DistinctCount<T>(xs: seq<T>, y: T)
    requires Distinct(xs)
    ensures multiset(xs)[y] <= 1
  {
    if |xs| > 0 {
      var xs' := xs[..|xs| - 1];
      assert xs == xs' + [xs[|xs| - 1]];
      assert Distinct(xs');
      DistinctCount(xs', y);
      if y == xs[|xs| - 1] {
        assert y !in xs';
      }
    }
  }
}

=== FILE: subject_page.dfy ===
/**
 * The subject page (pages/SubjectPage.tsx): which syllabus it shows, the
 * checkbox handler that ticks one flag of one subunit, the unit status
 * colour, and the overall-progress panels. The per-unit percentage it
 * shows is `Progress.UnitProgress`.
 */
module SubjectPage {
  import opened Wrappers
  import opened Seqs
  import opened Types
  import opened Progress
  import opened SyllabusEdits

  /** The combined-maths toggle: pure or applied maths. */
  datatype MathsMode = Pure | Applied

  /** The subject id of the syllabus shown for `subjectId` in `mode`. */
  function ShownSyllabusId(subjectId: string, mode: MathsMode): string {
    if subjectId == "combined" && mode == Applied then "combined-applied" else subjectId
  }

  /**
   * `currentSyllabus`: on the combined page the pure or the applied maths
   * syllabus, as the toggle says; on any other page the subject's own.
   */
  function CurrentSyllabus(syllabi: seq<Syllabus>, subjectId: string, mode: MathsMode): (r: Option<Syllabus>)
    ensures r.Some? ==> r.value in syllabi && r.value.subjectId == ShownSyllabusId(subjectId, mode)
    ensures r.None? <==> forall i :: 0 <= i < |syllabi| ==> syllabi[i].subjectId != ShownSyllabusId(subjectId, mode)
  {
    if subjectId == "combined" then
      var applied := SyllabusOf(syllabi, "combined-applied");
      var pure := SyllabusOf(syllabi, "combined");
      if mode == Pure then pure else applied
    else SyllabusOf(syllabi, subjectId)
  }

  /**
   * The toggle matters only on the combined page: elsewhere both modes show
   * the same syllabus, there the two modes never show the same one.
   */
  lemma ModeSelectsSyllabus(syllabi: seq<Syllabus>, subjectId: string)
    ensures subjectId != "combined" ==> CurrentSyllabus(syllabi, subjectId, Pure) == CurrentSyllabus(syllabi, subjectId, Applied)
    ensures subjectId == "combined" ==>
      var pure, applied := CurrentSyllabus(syllabi, subjectId, Pure), CurrentSyllabus(syllabi, subjectId, Applied);
      pure.Some? && applied.Some? ==> pure.value != applied.value
  {
  }

  // ---------------------------------------------------------------------
  // The checkbox handler
  // ---------------------------------------------------------------------

  /** `subunit => ({ ...subunit, [field]: value })`. */
  function Tick(f: Flag, v: bool): Subunit -> Subunit {
    (s: Subunit) => SetFlag(s, f, v)
  }

  /** The subunit list of a unit after the tick. */
  function TickSubunits(subunitId: string, f: Flag, v: bool): seq<Subunit> -> seq<Subunit> {
    (ss: seq<Subunit>) => EditSubunits(ss, subunitId, Tick(f, v))
  }

  /** The unit list of a syllabus after the tick. */
  function TickUnits(unitId: string, subunitId: string, f: Flag, v: bool): seq<Unit> -> seq<Unit> {
    (us: seq<Unit>) => EditUnits(us, unitId, TickSubunits(subunitId, f, v))
  }

  /**
   * `handleSubunitChange(unitId, subunitId, field, value)`: the syllabus
   * list with that flag set in the matching subunits of the matching units
   * of the syllabus the page shows.
   */
  function HandleSubunitChange(syllabi: seq<Syllabus>, subjectId: string, mode: MathsMode,
                               unitId: string, subunitId: string, f: Flag, v: bool): seq<Syllabus> {
    match CurrentSyllabus(syllabi, subjectId, mode)
    case None => syllabi
    case Some(current) => EditSyllabi(syllabi, current.subjectId, TickUnits(unitId, subunitId, f, v))
  }

  /**
   * The handler changes exactly the chosen flag of the chosen subunit of
   * the chosen unit in the shown syllabus: every syllabus, unit and other
   * subunit keeps its place and its contents, and the chosen subunit keeps
   * everything but that flag.
   */
  lemma SubunitChangeFrame(syllabi: seq<Syllabus>, subjectId: string, mode: MathsMode,
                           unitId: string, subunitId: string, f: Flag, v: bool)
    ensures var r := HandleSubunitChange(syllabi, subjectId, mode, unitId, subunitId, f, v);
      && SameOutline(syllabi, r)
      && forall i, j, k :: 0 <= i < |r| && 0 <= j < |r[i].units| && 0 <= k < |r[i].units[j].subunits| ==>
           r[i].units[j].subunits[k] ==
             var s := syllabi[i].units[j].subunits[k];
             if syllabi[i].subjectId == ShownSyllabusId(subjectId, mode) && syllabi[i].units[j].id == unitId && s.id == subunitId
             then SetFlag(s, f, v) else s
  {
    var r := HandleSubunitChange(syllabi, subjectId, mode, unitId, subunitId, f, v);
    var shown := ShownSyllabusId(subjectId, mode);
    if CurrentSyllabus(syllabi, subjectId, mode).None? {
      assert r == syllabi;
    } else {
      assert r == EditSyllabi(syllabi, shown, TickUnits(unitId, subunitId, f, v));
      forall i | 0 <= i < |r| && syllabi[i].subjectId == shown
        ensures r[i].units == TickUnits(unitId, subunitId, f, v)(syllabi[i].units)
      {
      }
      forall i | 0 <= i < |r| && syllabi[i].subjectId == shown {
        TickedUnits(syllabi[i].units, unitId, subunitId, f, v);
      }
    }
  }

  /** Within one unit list the tick changes the chosen flag of the chosen subunits and nothing else. */
  lemma TickedUnits(us: seq<Unit>, unitId: string, subunitId: string, f: Flag, v: bool)
    ensures var us' := TickUnits(unitId, subunitId, f, v)(us);
      && |us'| == |us|
      && (forall j :: 0 <= j < |us'| ==> us'[j] == us[j].(subunits := us'[j].subunits) && |us'[j].subunits| == |us[j].subunits|)
      && forall j, k :: 0 <= j < |us'| && 0 <= k < |us'[j].subunits| ==>
           us'[j].subunits[k] ==
             if us[j].id == unitId && us[j].subunits[k].id == subunitId then SetFlag(us[j].subunits[k], f, v) else us[j].subunits[k]
  {
    var us' := TickUnits(unitId, subunitId, f, v)(us);
    forall j | 0 <= j < |us'| && us[j].id == unitId
      ensures us'[j].subunits == EditSubunits(us[j].subunits, subunitId, Tick(f, v))
    {
    }
  }

  /**
   * Ticking a shown checkbox never lowers the unit's percentage, and
   * unticking one never raises it; either way the unit tracks the same
   * flags as before.
   */
  lemma TickMovesUnitProgress(u: Unit, subunitId: string, f: Flag, v: bool)
    requires forall k :: 0 <= k < |u.subunits| && u.subunits[k].id == subunitId ==> f in Checkboxes(u.subunits[k])
    ensures var u' := u.(subunits := TickSubunits(subunitId, f, v)(u.subunits));
      && UnitTracked(u') == UnitTracked(u)
      && (v ==> UnitProgress(u) <= UnitProgress(u'))
      && (!v ==> UnitProgress(u') <= UnitProgress(u))
  {
    var u' := u.(subunits := TickSubunits(subunitId, f, v)(u.subunits));
    var ss, ss' := u.subunits, u'.subunits;
    forall k | 0 <= k < |ss|
      ensures Tracked(ss'[k]) == Tracked(ss[k])
      ensures v ==> Ticked(ss[k]) <= Ticked(ss'[k])
      ensures !v ==> Ticked(ss'[k]) <= Ticked(ss[k])
    {
      if ss[k].id == subunitId {
        SetTrackedFlag(ss[k], f, v);
      }
    }
    SumPointwise(ss, Tracked, ss', Tracked);
    SumPointwise(ss', Tracked, ss, Tracked);
    if v {
      SumPointwise(ss, Ticked, ss', Ticked);
      UnitProgressMonotone(u, u');
    } else {
      SumPointwise(ss', Ticked, ss, Ticked);
      UnitProgressMonotone(u', u);
    }
  }

  // ---------------------------------------------------------------------
  // Status colour and progress panels
  // ---------------------------------------------------------------------

  /**
   * `getStatusColor(status)`: the badge colour of a unit status, green
   * where the checklist says "Completed", blue where it says "Ongoing" and
   * slate where it says "Not Started".
   */
  function StatusColor(status: Option<UnitStatus>): (c: string)
    ensures c == "bg-green-500" <==> StatusLabel(status) == "Completed"
    ensures c == "bg-blue-500" <==> StatusLabel(status) == "Ongoing"
    ensures c == "bg-slate-400" <==> StatusLabel(status) == "Not Started"
  {
    match status
    case Some(Completed) => "bg-green-500"
    case Some(Ongoing) => "bg-blue-500"
    case _ => "bg-slate-400"
  }

  /** The badge colour and the checklist's status label tell the same statuses apart. */
  lemma StatusColorMatchesLabel(a: Option<UnitStatus>, b: Option<UnitStatus>)
    ensures StatusColor(a) == StatusColor(b) <==> StatusLabel(a) == StatusLabel(b)
  {
  }

  /** One `ProgressDisplay`: a title, a percentage and the subject's colour. */
  datatype Panel = Panel(title: string, progress: int, color: string)

  /** What the page renders: "Subject not found", or the subject, its shown syllabus and its progress panels. */
  datatype PageView = NotFound | Found(subject: Subject, syllabus: Syllabus, panels: seq<Panel>)

  /**
   * The page of `subjectId`: not found unless both the subject and the
   * syllabus to show exist; the combined page shows the pure and the
   * applied maths progress side by side, any other page one overall
   * progress.
   */
  function View(subjects: seq<Subject>, syllabi: seq<Syllabus>, subjectId: string, mode: MathsMode): (v: PageView)
    ensures v.NotFound? <==> First(subjects, HasId(subjectId)).None? || CurrentSyllabus(syllabi, subjectId, mode).None?
    ensures v.Found? ==> v.subject.id == subjectId && v.syllabus.subjectId == ShownSyllabusId(subjectId, mode)
    ensures v.Found? ==> forall p :: p in v.panels ==> 0 <= p.progress <= 100 && p.color == v.subject.color
  {
    var subject := First(subjects, HasId(subjectId));
    var current := CurrentSyllabus(syllabi, subjectId, mode);
    if subject.None? || current.None? then NotFound
    else
      var color := subject.value.color;
      var panels :=
        if subjectId == "combined" then
          [ Panel("Pure Maths Progress", OverallProgress(SyllabusOf(syllabi, "combined")), color),
            Panel("Applied Maths Progress", OverallProgress(SyllabusOf(syllabi, "combined-applied")), color)]
        else [Panel("Overall Progress", OverallProgress(current), color)];
      Found(subject.value, current.value, panels)
  }

  /**
   * The combined page shows both maths halves whatever the toggle says,
   * and the half the toggle selects reads the progress of the syllabus
   * shown below it; any other page shows the progress of its own syllabus.
   */
  lemma PanelsFollowSyllabus(subjects: seq<Subject>, syllabi: seq<Syllabus>, subjectId: string, mode: MathsMode)
    ensures var v := View(subjects, syllabi, subjectId, mode);
      v.Found? ==>
        if subjectId == "combined" then
          && |v.panels| == 2
          && v.panels[if mode == Pure then 0 else 1].progress == OverallProgress(Some(v.syllabus))
          && v.panels[0].progress == OverallProgress(SyllabusOf(syllabi, "combined"))
          && v.panels[1].progress == OverallProgress(SyllabusOf(syllabi, "combined-applied"))
        else v.panels == [Panel("Overall Progress", OverallProgress(Some(v.syllabus)), v.subject.color)]
  {
  }
}

=== FILE: syllabus_edits.dfy ===
/**
 * The immutable updates the subject page and the content editor apply to
 * the syllabus list: map every syllabus of one subject, every unit with
 * one id, every subunit with one id, and leave everything else as it was.
 */
module SyllabusEdits {
  import opened Types

  /** `syllabi.map(s => s.subjectId === subjectId ? { ...s, units: edit(s.units) } : s)`. */
  function EditSyllabi(syllabi: seq<Syllabus>, subjectId: string, edit: seq<Unit> -> seq<Unit>): (r: seq<Syllabus>)
    ensures |r| == |syllabi|
    ensures forall i :: 0 <= i < |r| ==>
      r[i] == if syllabi[i].subjectId == subjectId then syllabi[i].(units := edit(syllabi[i].units)) else syllabi[i]
  {
    seq(|syllabi|, i requires 0 <= i < |syllabi| =>
      if syllabi[i].subjectId == subjectId then syllabi[i].(units := edit(syllabi[i].units)) else syllabi[i])
  }

  /** `units.map(u => u.id === unitId ? { ...u, subunits: edit(u.subunits) } : u)`. */
  function EditUnits(units: seq<Unit>, unitId: string, edit: seq<Subunit> -> seq<Subunit>): (r: seq<Unit>)
    ensures |r| == |units|
    ensures forall j :: 0 <= j < |r| ==>
      r[j] == if units[j].id == unitId then units[j].(subunits := edit(units[j].subunits)) else units[j]
  {
    seq(|units|, j requires 0 <= j < |units| =>
      if units[j].id == unitId then units[j].(subunits := edit(units[j].subunits)) else units[j])
  }

  /** `subunits.map(s => s.id === subunitId ? edit(s) : s)`. */
  function EditSubunits(subunits: seq<Subunit>, subunitId: string, edit: Subunit -> Subunit): (r: seq<Subunit>)
    ensures |r| == |subunits|
    ensures forall k :: 0 <= k < |r| ==> r[k] == if subunits[k].id == subunitId then edit(subunits[k]) else subunits[k]
  {
    seq(|subunits|, k requires 0 <= k < |subunits| =>
      if subunits[k].id == subunitId then edit(subunits[k]) else subunits[k])
  }

  /**
   * `b` has the outline of `a`: the same syllabi with the same subjects,
   * the same units with the same names and statuses, and the same number
   * of subunits in each; only the subunits themselves may differ.
   */
  predicate SameOutline(a: seq<Syllabus>, b: seq<Syllabus>) {
    && |b| == |a|
    && (forall i :: 0 <= i < |b| ==> b[i] == a[i].(units := b[i].units) && |b[i].units| == |a[i].units|)
    && (forall i, j :: 0 <= i < |b| && 0 <= j < |b[i].units| ==>
          b[i].units[j] == a[i].units[j].(subunits := b[i].units[j].subunits)
          && |b[i].units[j].subunits| == |a[i].units[j].subunits|)
  }
}

=== FILE: text.dfy ===
/**
 * Decimal rendering and parsing of numbers, `padStart(2, '0')`, and the
 * first-occurrence search behind `String.prototype.replace` with a string
 * pattern.
 */
module Text {
  import opened Wrappers

  predicate IsDigit(c: char) {
    '0' <= c <= '9'
  }

  predicate AllDigits(s: string) {
    forall i :: 0 <= i < |s| ==> IsDigit(s[i])
  }

  function DigitChar(d: int): (c: char)
    requires 0 <= d < 10
    ensures IsDigit(c)
  {
    (48 + d) as char
  }

  function DigitValue(c: char): (d: nat)
    requires IsDigit(c)
    ensures d < 10 && DigitChar(d) == c
  {
    c as int - 48
  }

  /** `${n}` for a non-negative integer: decimal digits, no leading zero. */
  function NatToString(n: nat): (s: string)
    ensures |s| >= 1 && AllDigits(s)
    ensures s[0] == '0' ==> n == 0
    decreases n
  {
    if n < 10 then [DigitChar(n)] else NatToString(n / 10) + [DigitChar(n % 10)]
  }

  /** `${n}` for any integer. */
  function IntToString(n: int): (s: string)
    ensures |s| >= 1
    ensures n >= 0 <==> IsDigit(s[0])
  {
    if n < 0 then "-" + NatToString(-n) else NatToString(n)
  }

  /** The value of a string of decimal digits ("" reads as 0, as `Number("")` does). */
  function ParseDigits(s: string): (n: nat)
    requires AllDigits(s)
  {
    if |s| == 0 then 0 else ParseDigits(s[..|s| - 1]) * 10 + DigitValue(s[|s| - 1])
  }

  /** Rendering then parsing a natural number gives it back. */
  lemma {:induction false} ParseNatToString(n: nat)
    ensures ParseDigits(NatToString(n)) == n
    decreases n
  {
    var s := NatToString(n);
    if n < 10 {
      assert s[..0] == [];
    } else {
      ParseNatToString(n / 10);
      assert s[..|s| - 1] == NatToString(n / 10);
    }
  }

  /** Different numbers render differently. */
  lemma NatToStringInjective(a: nat, b: nat)
    requires NatToString(a) == NatToString(b)
    ensures a == b
  {
    ParseNatToString(a);
    ParseNatToString(b);
  }

  /** `String(n).padStart(2, '0')`. */
  function Pad2(n: nat): (s: string)
    ensures AllDigits(s) && |s| >= 2
    ensures n < 100 ==> |s| == 2
  {
    if n < 10 then "0" + NatToString(n)
    else
      assert n < 100 ==> |NatToString(n / 10)| == 1;
      NatToString(n)
  }

  lemma ParsePad2(n: nat)
    ensures ParseDigits(Pad2(n)) == n
  {
    ParseNatToString(n);
    if n < 10 {
      var s := Pad2(n);
      assert s[..1] == "0";
      assert s[..0] == [];
    }
  }

  predicate StartsWith(s: string, prefix: string) {
    |prefix| <= |s| && s[..|prefix|] == prefix
  }

  predicate OccursAt(s: string, pat: string, i: int) {
    0 <= i && i + |pat| <= |s| && s[i..i + |pat|] == pat
  }

  /** The first index at or after `from` where `pat` occurs in `s`. */
  function IndexOfFrom(s: string, pat: string, from: nat): (r: Option<nat>)
    ensures r.Some? ==> from <= r.value && OccursAt(s, pat, r.value)
    ensures r.Some? ==> forall j :: from <= j < r.value ==> !OccursAt(s, pat, j)
    ensures r.None? ==> forall j :: from <= j ==> !OccursAt(s, pat, j)
    decreases |s| - from
  {
    if from + |pat| > |s| then None
    else if s[from..from + |pat|] == pat then Some(from)
    else IndexOfFrom(s, pat, from + 1)
  }

  /** `s.indexOf(pat)`, with `None` for -1. */
  function IndexOf(s: string, pat: string): (r: Option<nat>)
    ensures r.Some? ==> OccursAt(s, pat, r.value)
    ensures r.Some? ==> forall j :: 0 <= j < r.value ==> !OccursAt(s, pat, j)
    ensures r.None? ==> forall j :: !OccursAt(s, pat, j)
  {
    IndexOfFrom(s, pat, 0)
  }

  /** `s.replace(pat, rep)` with a string pattern: only the first occurrence is replaced. */
  function ReplaceFirst(s: string, pat: string, rep: string): (r: string)
    ensures IndexOf(s, pat).None? ==> r == s
    ensures IndexOf(s, pat).Some? ==>
      var i := IndexOf(s, pat).value;
      r == s[..i] + rep + s[i + |pat|..] && forall j :: 0 <= j < i ==> !OccursAt(s, pat, j)
  {
    match IndexOf(s, pat)
    case None => s
    case Some(i) => s[..i] + rep + s[i + |pat|..]
  }
}

=== FILE: todo_page.dfy ===
/**
 * The to-do page's controller (pages/TodoPage.tsx): ticking and unticking
 * tasks, adding suggested tasks, logging an interval for a task by hand or
 * from the pomodoro timer, the ordinal suffix of the date heading, the
 * exam countdown, and the list of today's remaining classes.
 */
module TodoPage {
  import opened Wrappers
  import opened JsMath
  import opened Text
  import opened Seqs
  import opened Types
  import opened Calendar

  // ---------------------------------------------------------------------
  // Ticking tasks
  // ---------------------------------------------------------------------

  /** `items.find(item => item.id === id)`: the first item with that id. */
  function FindItem(items: seq<TodoItem>, id: string): (r: Option<TodoItem>)
    ensures r.Some? ==> r.value in items && r.value.id == id
    ensures r.None? <==> forall i :: 0 <= i < |items| ==> items[i].id != id
  {
    if |items| == 0 then None
    else if items[0].id == id then Some(items[0])
    else FindItem(items[1..], id)
  }

  /** The item found is the first one carrying the id: no item before it has that id. */
  lemma {:induction false} FindItemFirst(items: seq<TodoItem>, id: string)
    ensures FindItem(items, id).Some? ==>
      exists k :: 0 <= k < |items| && items[k] == FindItem(items, id).value
        && forall j :: 0 <= j < k ==> items[j].id != id
  {
    if |items| > 0 && items[0].id != id && FindItem(items, id).Some? {
      FindItemFirst(items[1..], id);
      var k :| 0 <= k < |items[1..]| && items[1..][k] == FindItem(items, id).value
        && forall j :: 0 <= j < k ==> items[1..][j].id != id;
      assert items[k + 1] == FindItem(items, id).value;
      forall j | 0 <= j < k + 1 ensures items[j].id != id {
        if j > 0 { assert items[j] == items[1..][j - 1]; }
      }
    }
  }

  /** `items.map(item => item.id === id ? { ...item, done } : item)`. */
  function SetDone(items: seq<TodoItem>, id: string, done: bool): (r: seq<TodoItem>)
    ensures |r| == |items|
    ensures forall i :: 0 <= i < |items| ==>
      r[i] == if items[i].id == id then items[i].(done := done) else items[i]
  {
    seq(|items|, i requires 0 <= i < |items| => if items[i].id == id then items[i].(done := done) else items[i])
  }

  /** What `toggleTodo` does: update the day, ask for the interval of `task`, or nothing. */
  datatype Toggle = Updated(day: Day) | AskInterval(task: TodoItem) | Ignored

  /**
   * `toggleTodo(id)`. An unticked task is ticked at once only when a log
   * of it already exists for the day; otherwise the interval dialog is
   * opened for it and nothing changes. A ticked task is unticked and its
   * logs stay. Without a day, or for an unknown id, nothing happens.
   */
  function ToggleTodo(day: Option<Day>, logs: seq<LogEntry>, id: string): (r: Toggle)
    ensures r.Ignored? <==> day.None? || FindItem(day.value.items, id).None?
    ensures r.Updated? ==> day.Some? && r.day.date == day.value.date && |r.day.items| == |day.value.items|
    ensures r.Updated? ==> forall i :: 0 <= i < |r.day.items| ==>
      r.day.items[i] == day.value.items[i].(done := r.day.items[i].done)
      && (day.value.items[i].id != id ==> r.day.items[i] == day.value.items[i])
    ensures r.Updated? && FindItem(day.value.items, id).value.done ==>
      forall i :: 0 <= i < |r.day.items| && r.day.items[i].id == id ==> !r.day.items[i].done
    ensures r.Updated? && !FindItem(day.value.items, id).value.done ==>
      HasLogOn(logs, id, day.value.date)
      && forall i :: 0 <= i < |r.day.items| && r.day.items[i].id == id ==> r.day.items[i].done
    ensures r.AskInterval? ==>
      day.Some? && r.task in day.value.items && r.task.id == id && !r.task.done
      && !HasLogOn(logs, id, day.value.date)
    ensures r.AskInterval? ==> r.task == FindItem(day.value.items, id).value
    ensures day.Some? && FindItem(day.value.items, id).Some? && FindItem(day.value.items, id).value.done ==> r.Updated?
  {
    if day.None? then Ignored
    else match FindItem(day.value.items, id)
      case None => Ignored
      case Some(task) =>
        if !task.done then
          if HasLogOn(logs, id, day.value.date) then Updated(day.value.(items := SetDone(day.value.items, id, true)))
          else AskInterval(task)
        else Updated(day.value.(items := SetDone(day.value.items, id, false)))
  }

  /**
   * Ticking and unticking keep the central invariant: a task is only
   * ticked here when its log for the day already exists, and unticking
   * asks for nothing.
   */
  lemma ToggleKeepsConsistency(day: Day, logs: seq<LogEntry>, id: string)
    requires Consistent(day, logs)
    ensures var r := ToggleTodo(Some(day), logs, id);
      r.Updated? ==> Consistent(r.day, logs)
  {
    var r := ToggleTodo(Some(day), logs, id);
    if r.Updated? {
      forall i | 0 <= i < |r.day.items| && r.day.items[i].done
        ensures HasLogOn(logs, r.day.items[i].id, r.day.date)
      {
        if day.items[i].id != id {
          assert r.day.items[i] == day.items[i];
        }
      }
    }
  }

  /** Toggling twice restores a ticked task's day when its log is kept. */
  lemma ToggleTwice(day: Day, logs: seq<LogEntry>, id: string)
    requires Consistent(day, logs)
    requires forall i :: 0 <= i < |day.items| && day.items[i].id == id ==> day.items[i].done
    requires FindItem(day.items, id).Some?
    ensures var r := ToggleTodo(Some(day), logs, id);
      r.Updated? && ToggleTodo(Some(r.day), logs, id) == Updated(day)
  {
    var task := FindItem(day.items, id).value;
    var k :| 0 <= k < |day.items| && day.items[k] == task;
    var r := ToggleTodo(Some(day), logs, id);
    assert HasLogOn(logs, id, day.date);
    var first := FindItem(r.day.items, id);
    assert first.Some? by {
      assert r.day.items[k].id == id;
    }
    assert !first.value.done;
    var back := SetDone(r.day.items, id, true);
    assert back == day.items;
  }

  // ---------------------------------------------------------------------
  // Adding tasks
  // ---------------------------------------------------------------------

  /** A suggested task: each field may be missing. */
  datatype PartialTodo = PartialTodo(title: Option<string>, subjectId: Option<string>, note: Option<string>)

  /** `value || fallback` for an optional string. */
  function OrElse(value: Option<string>, fallback: string): (r: string)
    ensures value.Some? && Truthy(value.value) ==> r == value.value
    ensures !(value.Some? && Truthy(value.value)) ==> r == fallback
  {
    if value.Some? && Truthy(value.value) then value.value else fallback
  }

  /** `ai-${now}-${index}`. */
  function SuggestedId(now: int, index: nat): string {
    "ai-" + IntToString(now) + "-" + NatToString(index)
  }

  /** The full task made from the suggestion at position `index`. */
  function Complete(todo: PartialTodo, now: int, index: nat): (t: TodoItem)
    ensures !t.done && Truthy(t.title) && Truthy(t.subjectId)
  {
    TodoItem(
      SuggestedId(now, index),
      OrElse(todo.title, "Untitled AI Task"),
      OrElse(todo.subjectId, "personal"),
      OrElse(todo.note, ""),
      false)
  }

  /**
   * `addTodos(newTodos)`: the suggestions, completed with their defaults
   * and unticked, go after the existing tasks, which are kept as they are.
   */
  function AddTodos(day: Option<Day>, now: int, batch: seq<PartialTodo>): (r: Option<Day>)
    ensures r.Some? <==> day.Some?
    ensures r.Some? ==>
      r.value.date == day.value.date
      && |r.value.items| == |day.value.items| + |batch|
      && r.value.items[..|day.value.items|] == day.value.items
      && forall j :: 0 <= j < |batch| ==> r.value.items[|day.value.items| + j] == Complete(batch[j], now, j)
  {
    if day.None? then None
    else
      var added := seq(|batch|, j requires 0 <= j < |batch| => Complete(batch[j], now, j));
      Some(day.value.(items := day.value.items + added))
  }

  /** Added tasks are unticked, so the central invariant survives. */
  lemma AddTodosKeepsConsistency(day: Day, logs: seq<LogEntry>, now: int, batch: seq<PartialTodo>)
    requires Consistent(day, logs)
    ensures Consistent(AddTodos(Some(day), now, batch).value, logs)
  {
    var r := AddTodos(Some(day), now, batch).value;
    forall i | 0 <= i < |r.items| && r.items[i].done
      ensures HasLogOn(logs, r.items[i].id, r.date)
    {
      if i >= |day.items| {
        assert false;
      }
      assert r.items[i] == r.items[..|day.items|][i];
    }
  }

  /** Tasks of one batch get pairwise different ids. */
  lemma SuggestedIdsDistinct(now: int, a: nat, b: nat)
    requires a != b
    ensures SuggestedId(now, a) != SuggestedId(now, b)
  {
    var prefix := "ai-" + IntToString(now) + "-";
    assert SuggestedId(now, a) == prefix + NatToString(a);
    assert SuggestedId(now, b) == prefix + NatToString(b);
    if SuggestedId(now, a) == SuggestedId(now, b) {
      assert NatToString(a) == (prefix + NatToString(a))[|prefix|..];
      assert NatToString(b) == (prefix + NatToString(b))[|prefix|..];
      NatToStringInjective(a, b);
    }
  }

  // ---------------------------------------------------------------------
  // Logging an interval
  // ---------------------------------------------------------------------

  /** What a log handler leaves: the new day and the new log list, or nothing. */
  datatype Logged = Logged(day: Day, logs: seq<LogEntry>) | NotLogged

  /**
   * `Math.round((end.getTime() - start.getTime()) / 60000)` for two
   * "HH:MM" times read on the same day.
   */
  function IntervalMinutes(startTime: string, endTime: string): (m: int)
    requires IsClockText(startTime) && IsClockText(endTime)
    ensures m == ClockMinutes(endTime) - ClockMinutes(startTime)
  {
    var ms := 60000 * (ClockMinutes(endTime) - ClockMinutes(startTime));
    RoundDivExact(ClockMinutes(endTime) - ClockMinutes(startTime), 60000);
    assert ms == (ClockMinutes(endTime) - ClockMinutes(startTime)) * 60000;
    RoundDiv(ms, 60000)
  }

  /**
   * `handleLogSubmit(taskId, startTime, endTime)`, with the times as the
   * interval dialog hands them over and `logId` for `log-${Date.now()}`: a
   * log of that task dated the current day is appended and that task is
   * ticked. Without a day, or for an unknown task, nothing happens.
   */
  function HandleLogSubmit(day: Option<Day>, logs: seq<LogEntry>, taskId: string, startTime: string, endTime: string, logId: string): (r: Logged)
    requires IsClockText(startTime) && IsClockText(endTime)
    ensures r.NotLogged? <==> day.None? || FindItem(day.value.items, taskId).None?
    ensures r.Logged? ==>
      var task := FindItem(day.value.items, taskId).value;
      r.logs == logs + [LogEntry(logId, day.value.date, task.id, task.title, task.subjectId,
                                 startTime, endTime, ClockMinutes(endTime) - ClockMinutes(startTime))]
      && r.day == day.value.(items := SetDone(day.value.items, taskId, true))
  {
    if day.None? then NotLogged
    else match FindItem(day.value.items, taskId)
      case None => NotLogged
      case Some(task) =>
        var log := LogEntry(logId, day.value.date, task.id, task.title, task.subjectId,
                            startTime, endTime, IntervalMinutes(startTime, endTime));
        Logged(day.value.(items := SetDone(day.value.items, taskId, true)), logs + [log])
  }

  /** Ticking a task after logging it for the day keeps the central invariant. */
  lemma TickWithLogKeepsConsistency(day: Day, logs: seq<LogEntry>, newLog: LogEntry, id: string)
    requires Consistent(day, logs)
    requires newLog.todoItemId == id && newLog.date == day.date
    ensures Consistent(day.(items := SetDone(day.items, id, true)), logs + [newLog])
  {
    var items := SetDone(day.items, id, true);
    var all := logs + [newLog];
    forall i | 0 <= i < |items| && items[i].done
      ensures HasLogOn(all, items[i].id, day.date)
    {
      if items[i].id == id {
        assert all[|logs|] == newLog;
      } else {
        assert items[i] == day.items[i];
        var j :| 0 <= j < |logs| && logs[j].todoItemId == items[i].id && logs[j].date == day.date;
        assert all[j] == logs[j];
      }
    }
  }

  /** Logging by hand keeps the central invariant and leaves that task ticked with its log. */
  lemma LogSubmitKeepsConsistency(day: Day, logs: seq<LogEntry>, taskId: string, startTime: string, endTime: string, logId: string)
    requires IsClockText(startTime) && IsClockText(endTime)
    requires Consistent(day, logs)
    ensures var r := HandleLogSubmit(Some(day), logs, taskId, startTime, endTime, logId);
      r.Logged? ==> Consistent(r.day, r.logs) && HasLogOn(r.logs, taskId, day.date)
  {
    var r := HandleLogSubmit(Some(day), logs, taskId, startTime, endTime, logId);
    if r.Logged? {
      var task := FindItem(day.items, taskId).value;
      var newLog := r.logs[|logs|];
      TickWithLogKeepsConsistency(day, logs, newLog, taskId);
    }
  }

  /** A moment of the pomodoro timer, in milliseconds since the epoch, local time. */
  const MsPerMinute := 60000
  const MsPerDay := 86400000

  /** `date.toTimeString().slice(0, 5)`: the local "HH:MM" of a moment. */
  function TimeOfMoment(ms: int): (s: string)
    ensures IsClockText(s)
    ensures ClockMinutes(s) == (ms % MsPerDay) / MsPerMinute
  {
    var minute := (ms % MsPerDay) / MsPerMinute;
    ClockTextRoundTrip(minute);
    ClockText(minute)
  }

  /** `Math.max(1, Math.round((end - start) / 60000))`. */
  function PomodoroMinutes(startMs: int, endMs: int): (m: int)
    ensures m >= 1
    ensures RoundDiv(endMs - startMs, MsPerMinute) >= 1 ==> m == RoundDiv(endMs - startMs, MsPerMinute)
    ensures RoundDiv(endMs - startMs, MsPerMinute) < 1 ==> m == 1
  {
    var rounded := RoundDiv(endMs - startMs, MsPerMinute);
    if rounded > 1 then rounded else 1
  }

  /**
   * A session of whole minutes logs exactly that many minutes, and one
   * shorter than half a minute, or ended before it started, logs one.
   */
  lemma PomodoroWholeMinutes(startMs: int, minutes: int)
    ensures minutes >= 1 ==> PomodoroMinutes(startMs, startMs + minutes * MsPerMinute) == minutes
    ensures minutes <= 0 ==> PomodoroMinutes(startMs, startMs + minutes * MsPerMinute) == 1
  {
    RoundDivExact(minutes, MsPerMinute);
    assert startMs + minutes * MsPerMinute - startMs == minutes * MsPerMinute;
  }

  /**
   * `handlePomodoroLog(task, startTime, endTime)`: the finished session is
   * logged for that task the timer ran for, dated the current day, at least
   * one minute long, and every task with that id is ticked. Without a day
   * nothing happens.
   */
  function HandlePomodoroLog(day: Option<Day>, logs: seq<LogEntry>, task: TodoItem, startMs: int, endMs: int, logId: string): (r: Logged)
    ensures r.NotLogged? <==> day.None?
    ensures r.Logged? ==>
      r.logs == logs + [LogEntry(logId, day.value.date, task.id, task.title, task.subjectId,
                                 TimeOfMoment(startMs), TimeOfMoment(endMs), PomodoroMinutes(startMs, endMs))]
      && r.day == day.value.(items := SetDone(day.value.items, task.id, true))
    ensures r.Logged? ==>
      r.logs[|logs|].durationMinutes >= 1
      && ClockMinutes(r.logs[|logs|].startTime) == (startMs % MsPerDay) / MsPerMinute
      && ClockMinutes(r.logs[|logs|].endTime) == (endMs % MsPerDay) / MsPerMinute
  {
    if day.None? then NotLogged
    else
      var log := LogEntry(logId, day.value.date, task.id, task.title, task.subjectId,
                          TimeOfMoment(startMs), TimeOfMoment(endMs), PomodoroMinutes(startMs, endMs));
      Logged(day.value.(items := SetDone(day.value.items, task.id, true)), logs + [log])
  }

  /** A pomodoro session keeps the central invariant. */
  lemma PomodoroKeepsConsistency(day: Day, logs: seq<LogEntry>, task: TodoItem, startMs: int, endMs: int, logId: string)
    requires Consistent(day, logs)
    ensures var r := HandlePomodoroLog(Some(day), logs, task, startMs, endMs, logId);
      Consistent(r.day, r.logs)
  {
    var r := HandlePomodoroLog(Some(day), logs, task, startMs, endMs, logId);
    TickWithLogKeepsConsistency(day, logs, r.logs[|logs|], task.id);
    assert r.logs == logs + [r.logs[|logs|]];
  }

  // ---------------------------------------------------------------------
  // The date heading's ordinal suffix
  // ---------------------------------------------------------------------

  const Suffixes: seq<string> := ["th", "st", "nd", "rd"]

  /** `s[i]` read as a JavaScript array access: `undefined` (here "") outside 0..3. */
  function SuffixAt(i: int): string {
    if 0 <= i < |Suffixes| then Suffixes[i] else ""
  }

  /** `s[(v - 20) % 10] || s[v] || s[0]` with `v = n % 100`, JavaScript remainders. */
  function OrdinalSuffix(n: int): string {
    var v := JsRem(n, 100);
    var first := SuffixAt(JsRem(v - 20, 10));
    if Truthy(first) then first
    else if Truthy(SuffixAt(v)) then SuffixAt(v)
    else Suffixes[0]
  }

  /** `getOrdinal(n)`. */
  function Ordinal(n: int): string {
    IntToString(n) + OrdinalSuffix(n)
  }

  /** The English rule: 11th-13th, otherwise 1st, 2nd, 3rd by the last digit, else th. */
  function EnglishSuffix(n: nat): string {
    if 11 <= n % 100 <= 13 then "th"
    else if n % 10 == 1 then "st"
    else if n % 10 == 2 then "nd"
    else if n % 10 == 3 then "rd"
    else "th"
  }

  /**
   * For every non-negative number the suffix follows the English rule; for
   * negative numbers it is always "th".
   */
  lemma OrdinalSuffixCorrect(n: int)
    ensures n >= 0 ==> OrdinalSuffix(n) == EnglishSuffix(n)
    ensures n < 0 ==> OrdinalSuffix(n) == "th"
  {
    var v := JsRem(n, 100);
    if n >= 0 {
      assert v == n % 100;
      if v >= 20 {
        assert JsRem(v - 20, 10) == (v - 20) % 10;
        assert (v - 20) % 10 == v % 10 by {
          assert v - 20 == v - 10 * 2;
        }
        assert v % 10 == n % 10 by {
          var q := n / 100;
          assert n == 100 * q + v;
          assert n == 10 * (10 * q) + v;
          DivUnique(v, 10, v / 10, v % 10);
          DivUnique(n, 10, 10 * q + v / 10, v % 10);
        }
      } else {
        assert v < 10 ==> n % 10 == v by {
          if v < 10 {
            DivUnique(n, 10, 10 * (n / 100), v);
          }
        }
        assert 10 <= v ==> n % 10 == v - 10 by {
          if 10 <= v {
            DivUnique(n, 10, 10 * (n / 100) + 1, v - 10);
          }
        }
        JsRemOdd(20 - v, 10);
      }
    } else {
      JsRemOdd(20 - v, 10);
    }
  }

  /** The first days of a month as the heading writes them. */
  lemma OrdinalExamples()
    ensures OrdinalSuffix(1) == "st" && OrdinalSuffix(2) == "nd" && OrdinalSuffix(3) == "rd"
    ensures OrdinalSuffix(11) == "th" && OrdinalSuffix(12) == "th" && OrdinalSuffix(13) == "th"
    ensures OrdinalSuffix(21) == "st" && OrdinalSuffix(22) == "nd" && OrdinalSuffix(23) == "rd"
  {
    OrdinalSuffixCorrect(1);
    OrdinalSuffixCorrect(2);
    OrdinalSuffixCorrect(3);
    OrdinalSuffixCorrect(11);
    OrdinalSuffixCorrect(12);
    OrdinalSuffixCorrect(13);
    OrdinalSuffixCorrect(21);
    OrdinalSuffixCorrect(22);
    OrdinalSuffixCorrect(23);
  }

  // ---------------------------------------------------------------------
  // Exam countdown
  // ---------------------------------------------------------------------

  /** The exam is on 10 August. */
  const ExamMonth := 8
  const ExamDay := 10

  datatype Countdown = Countdown(months: int, days: int)

  /** The exam's year: this year, or the next once the exam moment (10 August, 00:00) has passed. */
  function ExamYear(y: int, m: int, d: int, msOfDay: int): int {
    var past := m > ExamMonth || (m == ExamMonth && (d > ExamDay || (d == ExamDay && msOfDay > 0)));
    if past then y + 1 else y
  }

  /**
   * `calculateCountdown` for today = y-m-d (month 1-based), `msOfDay`
   * milliseconds after midnight: whole months and days to the exam,
   * borrowing the length of the month before August (always July's 31
   * days) when the day difference is negative.
   */
  function CalculateCountdown(y: int, m: int, d: int, msOfDay: int): (c: Countdown)
    requires 1 <= m <= 12 && 1 <= d <= DaysInMonth(y, m) && 0 <= msOfDay < MsPerDay
    ensures c.months >= 0 && 0 <= c.days <= 30
  {
    var examYear := ExamYear(y, m, d, msOfDay);
    var diffYears := examYear - y;
    var diffMonths := ExamMonth - m;
    var diffDays := ExamDay - d;
    var (diffMonths', diffDays') :=
      if diffDays < 0 then (diffMonths - 1, diffDays + DaysInMonth(examYear, ExamMonth - 1))
      else (diffMonths, diffDays);
    var (diffYears', diffMonths'') :=
      if diffMonths' < 0 then (diffYears - 1, diffMonths' + 12) else (diffYears, diffMonths');
    Countdown(diffYears' * 12 + diffMonths'', diffDays')
  }

  /**
   * The countdown reaches the exam: `months` months after today's month
   * is August of the exam year with `days` = 10 - d, or July of that year
   * with d + `days` = 31 + 10; the exam year is this one or the next.
   */
  lemma CountdownReachesExam(y: int, m: int, d: int, msOfDay: int)
    requires 1 <= m <= 12 && 1 <= d <= DaysInMonth(y, m) && 0 <= msOfDay < MsPerDay
    ensures var c := CalculateCountdown(y, m, d, msOfDay);
      var ey := ExamYear(y, m, d, msOfDay);
      (ey == y || ey == y + 1)
      && ((12 * y + m + c.months == 12 * ey + ExamMonth && d + c.days == ExamDay)
          || (12 * y + m + c.months == 12 * ey + ExamMonth - 1 && d + c.days == DaysInMonth(ey, 7) + ExamDay))
  {
  }

  /** The countdown shows zero exactly at the exam moment itself. */
  lemma CountdownZero(y: int, m: int, d: int, msOfDay: int)
    requires 1 <= m <= 12 && 1 <= d <= DaysInMonth(y, m) && 0 <= msOfDay < MsPerDay
    ensures CalculateCountdown(y, m, d, msOfDay) == Countdown(0, 0) <==> m == ExamMonth && d == ExamDay && msOfDay == 0
  {
  }

  // ---------------------------------------------------------------------
  // Today's classes
  // ---------------------------------------------------------------------

  /**
   * Whether a class is still to come or under way at `now`: it is held on
   * today's weekday and its end time, set on today's date, is later than
   * now. An empty end text gives an invalid date, which never compares as
   * later.
   */
  function ClassPending(now: DateTime): Class -> bool {
    (c: Class) => c.weekday == Weekday(now.day) && IsClockText(c.end) && now.minute < ClockMinutes(c.end)
  }

  /** `todaysClasses`: the classes of today's weekday that have not yet ended, in their order. */
  function TodaysClasses(classes: seq<Class>, now: DateTime): (r: seq<Class>)
    ensures forall c :: c in r <==>
      c in classes && c.weekday == Weekday(now.day) && IsClockText(c.end) && now.minute < ClockMinutes(c.end)
    ensures |r| <= |classes|
    ensures r == Filter(classes, ClassPending(now))
  {
    Filter(classes, ClassPending(now))
  }

  /** As the day goes on, the list only shrinks: a class gone at one moment stays gone later that day. */
  lemma TodaysClassesShrink(classes: seq<Class>, now: DateTime, later: DateTime)
    requires later.day == now.day && now.minute <= later.minute
    ensures forall c :: c in TodaysClasses(classes, later) ==> c in TodaysClasses(classes, now)
  {
  }
}

=== FILE: types.dfy ===
/**
 * The planner's records. Dates are day numbers (days since 1970-01-01) of
 * one abstract calendar; their "YYYY-MM-DD" spelling is `Calendar.DateKey`.
 * Times of day are "HH:MM" texts, read by `Calendar.ClockMinutes`.
 * An optional JavaScript property (`field?: T`) is an `Option<T>`.
 */
module Types {
  import opened Wrappers

  /** Days since 1970-01-01 (a Thursday). */
  type DayNumber = int

  /** A syllabus leaf. An absent flag is not tracked for this subunit. */
  datatype Subunit = Subunit(
    id: string,
    name: string,
    sinhalaName: string,
    tuteDone: Option<bool>,
    pastDone: Option<bool>)

  datatype UnitStatus = NotStarted | Ongoing | Completed

  datatype Unit = Unit(
    id: string,
    name: string,
    sinhalaName: string,
    subunits: seq<Subunit>,
    status: Option<UnitStatus>)

  datatype Syllabus = Syllabus(subjectId: string, units: seq<Unit>)

  datatype Subject = Subject(id: string, name: string, color: string)

  datatype TodoItem = TodoItem(
    id: string,
    title: string,
    subjectId: string,
    note: string,
    done: bool)

  /** The current day: its date and its ordered task list. */
  datatype Day = Day(date: DayNumber, items: seq<TodoItem>)

  datatype Test = Test(
    id: string,
    name: string,
    subjectId: string,
    date: string,
    score: int,
    total: int)

  /** A weekly class; `weekday` is 0 for Sunday through 6 for Saturday. */
  datatype Class = Class(id: string, name: string, weekday: int, start: string, end: string)

  /** One logged activity interval; `startTime` and `endTime` are "HH:MM" texts. */
  datatype LogEntry = LogEntry(
    id: string,
    date: DayNumber,
    todoItemId: string,
    todoItemTitle: string,
    subjectId: string,
    startTime: string,
    endTime: string,
    durationMinutes: int)

  /**
   * A finished week: `weekOf` is the Sunday it began on, and
   * `subjectAverages` maps each subject seen that week to its rounded
   * average minutes per day.
   */
  datatype WeeklySummary = WeeklySummary(
    weekOf: DayNumber,
    totalMinutes: int,
    averageMinutesPerDay: int,
    subjectAverages: map<string, int>)

  /** The identifiers of the three examined subjects. */
  const AcademicIds: seq<string> := ["physics", "chemistry", "combined"]

  /**
   * The planner's central invariant: a ticked task of the current day has
   * a log of that task dated that day.
   */
  predicate Consistent(day: Day, logs: seq<LogEntry>) {
    forall i :: 0 <= i < |day.items| && day.items[i].done ==>
      HasLogOn(logs, day.items[i].id, day.date)
  }

  /** Some log records task `id` on day `date`. */
  predicate HasLogOn(logs: seq<LogEntry>, id: string, date: DayNumber) {
    exists j :: 0 <= j < |logs| && logs[j].todoItemId == id && logs[j].date == date
  }

  /** `log => log.durationMinutes`, the summand of every minute total. */
  function Duration(log: LogEntry): int {
    log.durationMinutes
  }

  /** `log => log.date`, the key of every by-date grouping. */
  function DateOf(log: LogEntry): DayNumber {
    log.date
  }
}

=== FILE: wrappers.dfy ===
/** Optional values: JavaScript's `undefined` / `null` alternatives. */
module Wrappers {

  datatype Option<+T> = None | Some(value: T) {

    /** The wrapped value, or `default` when absent (JavaScript's `x ?? default`). */
    function GetOr(default: T): T {
      match this
      case Some(v) => v
      case None => default
    }
  }
}
